=== FILE: README.md ===
# Chess-tournament platform: a Dafny model of its core

This project models the logic of a chess-tournament web application in Dafny.
Players enrol in tournaments that organizers schedule, and they pay for each
enrolment. Organizers schedule editions ("offerings") of base tournaments and
follow their enrolments and revenue. The model has two halves:

- **The React front end.** Each page's state is an immutable record, and each
  handler is a pure function from the state and the settled result of its
  request to the next state. The modelled parts are:
  - the payment modal's input filters and pay gate;
  - the create and edit tournament modals, with their validators and the
    country-to-city cascade;
  - the organizer and player dashboards, with their list reconciliation and
    aggregates;
  - the paginated "my tournaments" page and the inscriptions page;
  - the player sign-up page and the profile page;
  - the `localStorage` session and the two route guards.
- **The FastAPI back end.**
  - The database is one abstract value (`Store.Db`). Each table is a sequence
    of rows in scan order, and one counter hands out fresh ids.
  - Each route is a function from the database, the caller's token claims and
    the request to a response and the next database.
  - The modelled routes cover offerings, enrolments, player and organizer
    accounts, profile pictures and login. The bearer-token dependencies and the
    request schemas are modelled too.
  - The invariant `Store.Inv` is proved to be preserved by the routes that
    write the offering, enrolment and link tables, and by the player update.
    It says three things. Ids are unique and below the counter. Every link
    resolves to an existing enrolment and offering. No player holds two links
    to the same offering.

Some things are parameters rather than code: bcrypt, JWT signing and
decoding, the image host's upload and destroy calls, `JSON.parse`, e-mail
syntax, and the current date and time. Money is integer cents. Dates are day
numbers.

Where the written design and the code differ, the model follows the code:

- The create and edit modals check only that a date is present, not that it
  is today or later. The back end's schema enforces that bound.
- The city cascade has no guard against stale responses. Whichever response
  is applied last wins.
- The upload helper raises a 500 when the image host is not configured. The
  same function catches that 500 and turns it into a 400 (`Cloudinary.UploadImage`).

## Model

| member | source | states |
|---|---|---|
| Payment.HandleCardChange | frontend/src/components/PaymentModal.js:21-49 | an accepted edit stores the filtered text in the named field and no other field; a refused edit (too many digits, a month outside 1..12) leaves the form as it was; a number edit turns the card face up; a CVV edit turns it over exactly when the stored CVV is non-empty; other edits keep the side shown |
| Payment.HandleFlip | frontend/src/components/PaymentModal.js:17-19 | the flip button turns the card over and leaves every field alone |
| Payment.InitialWellFormed | frontend/src/components/PaymentModal.js:6-12 | the empty card the modal opens with already satisfies every bound the inputs keep |
| Payment.ChangePreservesWellFormed | frontend/src/components/PaymentModal.js:21-49 | whatever is typed into whatever input, the stored card keeps at most 16 number digits, at most 3 CVV digits, at most 4 year digits, a month that is empty or 1..12, and an upper-case holder name |
| Payment.HandleProcesar | frontend/src/components/PaymentModal.js:51-67 | cash and transfer start processing with no card check; for a card an empty field is reported before a number that is not 16 digits, which is reported before the month; processing always carries the selected method |
| Payment.MonthCheckUnreachable | frontend/src/components/PaymentModal.js:36-40 | on a card reachable by editing, a complete card with 16 digits always starts processing, because the month filter already keeps the month in 1..12 |
| Payment.ShortNumberBlocked | frontend/src/components/PaymentModal.js:57-60 | a 13-digit card number never starts processing |
| Payment.Grouped | frontend/src/components/PaymentModal.js:143 | the displayed number has one space after each complete group of four digits that is followed by another digit, and removing the spaces gives the stored digits back |
| Payment.GroupedLayout | frontend/src/components/PaymentModal.js:143 | the displayed number has a space exactly at every fifth position, and at any other position `i` the stored digit `i - i / 5` |
| Payment.FullNumberFitsInput | frontend/src/components/PaymentModal.js:247-251 | a full 16-digit number is shown as 19 characters, exactly the input's maximum length |
| Payment.DisplayRoundTrip | frontend/src/components/PaymentModal.js:247-248 | feeding the displayed, grouped number back through the change handler stores the same card |
| Payment.LastTwo | frontend/src/components/PaymentModal.js:160 | the year shown is the last two characters of the stored year, or all of it when shorter |
| Payment.ExpiryShape | frontend/src/components/PaymentModal.js:160 | a one-digit month gets a leading zero and a four-digit year shows its last two digits |
| Payment.ExpiryZeroPrefixedMonth | frontend/src/components/PaymentModal.js:160 | the zero is prefixed to the stored text whenever its value is below 10, so a stored "01" is shown as "001" |
| Ui.WithoutId | frontend/src/pages/DashboardOrganizador.js:58 | the local removal keeps exactly the listed offerings whose id differs from the removed one |
| Ui.WithoutAbsentId | frontend/src/pages/DashboardOrganizador.js:58 | removing an id no offering carries leaves the list unchanged |
| Ui.WithoutPresentId | frontend/src/pages/DashboardOrganizador.js:57-59 | with ids unique, removing a listed offering's id shortens the list by one and takes exactly its share out of any sum over the list |
| Ui.KeepUnique | frontend/src/pages/DashboardOrganizador.js:58 | filtering never makes two listed offerings share an id |
| OrganizerDashboard.Load | frontend/src/pages/DashboardOrganizador.js:26-40 | a fetched list replaces the local one and the counter becomes its length; a failed fetch only records the error text |
| OrganizerDashboard.OpenConfirm | frontend/src/pages/DashboardOrganizador.js:47-50 | asking to delete remembers the offering and opens the confirmation without touching the list |
| OrganizerDashboard.ConfirmDelete | frontend/src/pages/DashboardOrganizador.js:52-70 | with nothing selected nothing happens; a successful delete filters the id out and lowers the counter by one; a failed one keeps list and counter and shows the server detail, else the error message, else the default text |
| OrganizerDashboard.ReplaceById | frontend/src/pages/DashboardOrganizador.js:78-82 | the update keeps length and order, replaces every record with the updated id and keeps every other record |
| OrganizerDashboard.Updated | frontend/src/pages/DashboardOrganizador.js:77-84 | an update rewrites the list in place, keeps the counter and shows the success toast |
| OrganizerDashboard.Created | frontend/src/pages/DashboardOrganizador.js:86-89 | a created offering is put first, the rest follow unchanged, and the counter grows by one |
| OrganizerDashboard.DeletePreservesConsistency | frontend/src/pages/DashboardOrganizador.js:57-59 | deleting a listed offering keeps the counter equal to the list length and lowers the inscriptions and revenue totals by exactly that offering's count and revenue |
| OrganizerDashboard.FailedDeleteKeepsTotals | frontend/src/pages/DashboardOrganizador.js:63-66 | a failed delete keeps the dashboard consistent and the revenue total unchanged |
| OrganizerDashboard.UpdatePreservesConsistency | frontend/src/pages/DashboardOrganizador.js:77-82 | an update keeps every id in its place, the counter consistent, and changes nothing when no listed offering has the updated id |
| OrganizerDashboard.ReplaceSum | frontend/src/pages/DashboardOrganizador.js:112-127 | replacing one offering changes any sum over the list by the new share minus the old one |
| OrganizerDashboard.CreatePreservesConsistency | frontend/src/pages/DashboardOrganizador.js:86-89 | creating an offering with a fresh id keeps the counter consistent and adds exactly its revenue to the total |
| OrganizerDashboard.LoadEstablishesConsistency | frontend/src/pages/DashboardOrganizador.js:31-33 | loading a list with unique ids makes counter and list agree |
| OrganizerDashboard.TotalsNonNegative | frontend/src/pages/DashboardOrganizador.js:112-127 | with non-negative costs and counts both totals are non-negative |
| PlayerDashboard.LoadTorneos | frontend/src/pages/DashboardJugador.js:22-50 | the loaded list holds exactly the fetched offerings dated on or after the first shown day (today at or east of UTC, tomorrow west of it, see `Listing.FirstShownDayExact`), in ascending date order; a failed fetch keeps the list and records the error text |
| PlayerDashboard.LoadCount | frontend/src/pages/DashboardJugador.js:53-62 | the enrolment counter becomes the number of fetched enrolments; a failed fetch changes nothing |
| PlayerDashboard.OpenModal | frontend/src/pages/DashboardJugador.js:70-73 | opening the payment modal remembers the offering and its cost and leaves list and counter alone |
| PlayerDashboard.FailureToast | frontend/src/pages/DashboardJugador.js:97-105 | a 409 is the only warning ("Ya estás inscrito en este torneo"); a 400 is the refusal error; anything else is an error quoting the message |
| PlayerDashboard.ConfirmarPago | frontend/src/pages/DashboardJugador.js:75-110 | without a player id the handler fails before any request and changes nothing but the toast; a successful enrolment filters the offering out, adds one to the counter and closes the modal; a failed one keeps list, counter and modal; the in-flight marker is always cleared |
| PlayerDashboard.CancelModal | frontend/src/pages/DashboardJugador.js:112-115 | closing the modal clears the in-flight marker and keeps list and counter |
| PlayerDashboard.NoPlayerNoRequest | frontend/src/pages/DashboardJugador.js:79-81 | without a player id the request's outcome cannot influence the result |
| PlayerDashboard.EnrolRemovesOffering | frontend/src/pages/DashboardJugador.js:89-90 | after a successful enrolment the list holds exactly the previous offerings other than the enrolled one |
| PlayerDashboard.EnrolKeepsBalance | frontend/src/pages/DashboardJugador.js:89-93 | on a keyed list, enrolling in a listed offering removes one entry and adds one to the counter |
| PlayerDashboard.ConflictIsOnlyWarning | frontend/src/pages/DashboardJugador.js:97-105 | a failed enrolment shows a warning exactly when the status is 409 |
| MyTournaments.TotalPages | frontend/src/pages/DashboardTorneos.js:70 | the page count is the least number of five-entry pages holding the list, 0 for an empty list |
| MyTournaments.JsSlice | frontend/src/pages/DashboardTorneos.js:73 | a slice with non-negative bounds is the sub-sequence between the bounds, both clamped to the length |
| MyTournaments.Page | frontend/src/pages/DashboardTorneos.js:71-73 | page p shows at most five entries, those from index (p-1)·5 up to p·5, clamped to the list |
| MyTournaments.FirstPagesPrefix | frontend/src/pages/DashboardTorneos.js:71-73 | the first k pages laid end to end are the first 5·k entries of the list |
| MyTournaments.PagesCoverList | frontend/src/pages/DashboardTorneos.js:70-73 | pages 1 to the page count laid end to end are the whole list |
| MyTournaments.PageButtons | frontend/src/pages/DashboardTorneos.js:177-180 | one numbered button per page, numbered 1 to the page count |
| MyTournaments.Prev | frontend/src/pages/DashboardTorneos.js:75-79 | "previous" moves back one page only from beyond the first page |
| MyTournaments.Next | frontend/src/pages/DashboardTorneos.js:81-85 | "next" moves forward one page only before the last page |
| MyTournaments.GoTo | frontend/src/pages/DashboardTorneos.js:177-180 | a numbered button selects its page, which is in range |
| MyTournaments.NavigationInRange | frontend/src/pages/DashboardTorneos.js:75-85 | from a page in range, previous and next stay in range |
| MyTournaments.InRangePageNonEmpty | frontend/src/pages/DashboardTorneos.js:71-73 | every page between 1 and the page count of a non-empty list shows at least one entry |
| MyTournaments.Load | frontend/src/pages/DashboardTorneos.js:18-51 | with a player id the list holds exactly the fetched enrolments dated on or after the first shown day (today at or east of UTC, tomorrow west of it), in ascending date order; without one nothing changes; a failure keeps the list |
| MyTournaments.WithoutEnrolment | frontend/src/pages/DashboardTorneos.js:58 | the local cancel keeps exactly the entries of other enrolments |
| MyTournaments.CancelAsWritten | frontend/src/pages/DashboardTorneos.js:53-67 | unconfirmed, nothing happens; a successful cancel filters the enrolment out; a failure keeps the list and shows an error quoting the message; the current page never changes |
| MyTournaments.CancelStrandsPage | frontend/src/pages/DashboardTorneos.js:53-67 | six enrolments, page 2, cancel the sixth: page 2 is now empty and the pagination bar is hidden, so the player cannot leave the empty page |
| MyTournaments.Cancel | frontend/src/pages/DashboardTorneos.js:53-67 | the same cancel with the page clamped to the shortened list: a page in range stays in range |
| MyTournaments.CancelKeepsPageFilled | frontend/src/pages/DashboardTorneos.js:53-85 | after the clamped cancel a non-empty list always shows a non-empty page |
| InscriptionsPage.LoadTorneos | frontend/src/pages/TorneoInscripciones.js:20-40 | the fetched offerings, or none when the answer is empty, replace the list; a failure only raises the error toast |
| InscriptionsPage.Select | frontend/src/pages/TorneoInscripciones.js:100 | clicking a card selects it and changes nothing else |
| InscriptionsPage.PlayersArrived | frontend/src/pages/TorneoInscripciones.js:43-60 | the fetched rows, or none, replace the players; a failure empties the players and raises the error toast; the selection is kept |
| InscriptionsPage.Volver | frontend/src/pages/TorneoInscripciones.js:131-134 | going back clears both the selection and the players and keeps the offerings |
| InscriptionsPage.SelectedRevenue | frontend/src/pages/TorneoInscripciones.js:63-66 | the detail revenue is 0 without a selection or without players |
| InscriptionsPage.DetailRevenue | frontend/src/pages/TorneoInscripciones.js:41-66 | after any reply of the players fetch for a selected offering, the detail revenue is its cost times the rows listed: all rows of a successful reply, and 0 for a null body or a failure |
| InscriptionsPage.BadgeFor | frontend/src/pages/TorneoInscripciones.js:198-202 | "Pagado" is green, "Pendiente" yellow, anything else gray |
| InscriptionsPage.DetailMatchesCard | frontend/src/pages/TorneoInscripciones.js:63-96 | when the card's count matches the list that arrives, the detail revenue equals the card's revenue |
| InscriptionsPage.VolverClearsRevenue | frontend/src/pages/TorneoInscripciones.js:63-66 | after going back the detail revenue is 0 |
| InscriptionsPage.FailedFetchShowsNothing | frontend/src/pages/TorneoInscripciones.js:49-55 | a failed player fetch shows no revenue |
| Common.OrElse | frontend/src/components/CrearTorneoModal.js:111-112 | `a \|\| b` keeps a non-empty first text and otherwise falls back to the second |
| Common.FirstTruthy | frontend/src/pages/DashboardOrganizador.js:64 | the error text is the detail when non-empty, else the message when non-empty, else the fixed fallback |
| Common.DigitsOnly | frontend/src/components/PaymentModal.js:25 | stripping non-digits leaves only digits, never lengthens the text, and leaves an all-digit text unchanged |
| Common.DigitsOnlyConcat | frontend/src/components/PaymentModal.js:25 | stripping non-digits distributes over concatenation, so the digits keep their order |
| Common.DigitsOnlyIdempotent | frontend/src/components/PaymentModal.js:25 | stripping non-digits a second time changes nothing |
| Common.LeadingDigits | frontend/src/components/PaymentModal.js:38 | the longest digit prefix: all digits, a prefix of the text, and followed by a non-digit if shorter |
| Common.ParseInt | frontend/src/components/PaymentModal.js:38 | for a text without sign or leading blanks, as the select values and digit-filtered texts it reads are, `parseInt` is NaN exactly when the text does not start with a digit, and the decimal value of an all-digit text |
| Common.NatTextRoundTrip | frontend/src/components/EditarTorneoModal.js:22-25 | printing a natural number and parsing it back gives the number |
| Common.UpperChar | frontend/src/components/PaymentModal.js:47 | upper-casing maps lower-case letters to upper-case ones and leaves every other character alone |
| Common.Upper | frontend/src/components/PaymentModal.js:47 | upper-casing a text upper-cases each character in place |
| Common.Lower | backend/app/routes/jugadores.py:32 | case folding for the e-mail comparison lower-cases each character in place |
| Listing.Keep | frontend/src/pages/DashboardTorneos.js:58 | a filter keeps exactly the elements satisfying the predicate and nothing else |
| Listing.KeepConcat | frontend/src/pages/DashboardTorneos.js:58 | filtering distributes over concatenation, so kept elements keep their relative order |
| Listing.KeepAll | frontend/src/pages/DashboardTorneos.js:58 | a filter every element satisfies returns the list unchanged |
| Listing.SumByConcat | frontend/src/pages/DashboardOrganizador.js:112 | a sum over two lists laid end to end is the sum of the two sums |
| Listing.SumByPartition | frontend/src/pages/DashboardOrganizador.js:112-127 | a sum splits over any filter and its complement |
| Listing.SumByNonNegative | frontend/src/pages/DashboardOrganizador.js:112 | a sum of non-negative terms is non-negative |
| Listing.InsertByKey | frontend/src/pages/DashboardJugador.js:38-42 | inserting adds exactly one element and loses none |
| Listing.InsertKeepsSorted | frontend/src/pages/DashboardJugador.js:38-42 | inserting into a list sorted by key keeps it sorted |
| Listing.SortByKey | frontend/src/pages/DashboardJugador.js:38-42 | sorting yields a permutation of the list in ascending key order |
| Listing.Upcoming | frontend/src/pages/DashboardJugador.js:29-43 | the loaded list is a permutation of the entries dated on or after the given first day, in ascending date order |
| Listing.FirstShownDay | frontend/src/pages/DashboardJugador.js:29-34 | the first date kept is the current local day, or the next day when the local clock is behind UTC |
| Listing.FirstShownDayExact | frontend/src/pages/DashboardJugador.js:29-34 | a date is on or after the first shown day exactly when its UTC midnight, which is what `new Date` makes of a date-only text, is not before local midnight |
| OfferingForm.ParseFloat | frontend/src/components/CrearTorneoModal.js:71 | `parseFloat` reads the numeric prefix of the text: an optional sign that sets the result's sign, the longest digit run, and, after a point, the longest digit run that follows; it needs at least one digit, is NaN only when no digit follows the sign or the leading point, and succeeds on any non-empty all-digit text |
| OfferingForm.CostZeroOrNegativeRejected | frontend/src/components/CrearTorneoModal.js:71-74 | a cost of "0" or "-5" is refused |
| OfferingForm.CostCentAccepted | frontend/src/components/CrearTorneoModal.js:71-74 | a cost of "0.01" passes |
| OfferingForm.CostRejectedIffAllZero | frontend/src/components/CrearTorneoModal.js:71-74 | a sign-free cost written as digits, or digits around one point, is refused exactly when every digit is zero |
| OfferingForm.NegativeRejected | frontend/src/components/CrearTorneoModal.js:71-74 | any cost written as a minus sign followed by digits is refused |
| OfferingForm.ParsePlainDecimal | frontend/src/components/CrearTorneoModal.js:98 | a sign-free text of digits around one point is sent as the decimal with exactly those integer and fraction digits |
| OfferingForm.ExponentIgnored | frontend/src/components/CrearTorneoModal.js:98 | as modelled, digits followed by an exponent are read without it, so "1e3" is sent as 1 (JavaScript sends 1000) |
| OfferingForm.Validate | frontend/src/components/CrearTorneoModal.js:62-84 | the form passes exactly when every field is filled and the cost positive; otherwise the first failing check, in the order type, date, cost, country, city, names the message; edit never checks the country |
| OfferingForm.EditIsCreateWithoutCountry | frontend/src/components/EditarTorneoModal.js:82-100 | the edit validator answers as the create validator would with any country filled in, and exactly as it when the country is filled |
| OfferingForm.CountryEffectCreate | frontend/src/components/CrearTorneoModal.js:26-33 | a non-empty country asks for its cities; clearing it empties the options and the city |
| OfferingForm.CountryEffectEdit | frontend/src/components/EditarTorneoModal.js:30-36 | a non-empty country asks for its cities; clearing it empties the options but keeps the city |
| OfferingForm.CitiesArrived | frontend/src/components/CrearTorneoModal.js:52-60 | arriving cities replace the options; a failure keeps them and raises the error toast |
| OfferingForm.ClearedCountryDiverges | frontend/src/components/CrearTorneoModal.js:26-33 | after clearing the country, create refuses at the country check while edit refuses at the city check |
| OfferingForm.FindCountry | frontend/src/components/EditarTorneoModal.js:49-63 | a found country is in the list, its fetch succeeded and its cities contain the offering's city |
| OfferingForm.FindCountryFirst | frontend/src/components/EditarTorneoModal.js:49-63 | the search stops at the first listed country whose fetch succeeds and contains the city; failed fetches are skipped |
| OfferingForm.Prefill | frontend/src/components/EditarTorneoModal.js:20-28 | the pre-filled type and city texts parse back to the offering's ids (empty when absent), date and cost texts are copied, and country and options are left alone |
| OfferingForm.IdText | frontend/src/components/EditarTorneoModal.js:22 | a present id prints to a text that parses back to it |
| OfferingForm.PreselectCountry | frontend/src/components/EditarTorneoModal.js:48-63 | without a city nothing is searched; with one, the found country and its cities are selected, and nothing changes when none matches |
| OfferingForm.Submit | frontend/src/components/CrearTorneoModal.js:86-100 | an invalid form raises its message and sends nothing; a valid one sends the parsed type, date, cost and city |
| OfferingForm.EditPrefillRoundTrip | frontend/src/components/EditarTorneoModal.js:20-118 | for a record that carries both its type and city ids, editing it without touching the form sends back those same ids; the records the dashboard passes carry neither (see Findings) |
| OfferingForm.UntouchedEditRefused | frontend/src/components/EditarTorneoModal.js:20-27 | a record without type and city ids, as every dashboard record is, pre-fills both fields empty, so saving it untouched is refused with the type message and sends nothing |
| OfferingForm.CityName | frontend/src/components/CrearTorneoModal.js:105 | a name is found exactly when some option carries the id |
| OfferingForm.BaseName | frontend/src/components/CrearTorneoModal.js:106 | a found base name belongs to an option carrying the id |
| OfferingForm.FinishCreate | frontend/src/components/CrearTorneoModal.js:102-137 | success clears the form and hands up the record with missing names filled from the options and a missing count as 0; failure keeps the form and raises an error quoting the message; loading always ends |
| OfferingForm.CreateResetsToBlank | frontend/src/components/CrearTorneoModal.js:118-123 | after a successful create the country effect leaves a blank form with no city options |
| OfferingForm.FinishEdit | frontend/src/components/EditarTorneoModal.js:118-131 | success hands up the server's record unchanged with the success toast; failure hands up nothing and raises an error quoting the message; the inputs are kept and loading ends |
| RegisterPlayer.Initial | frontend/src/pages/RegisterJugador.js:13-23 | the form starts with exactly the nine named fields, all blank |
| RegisterPlayer.HandleChange | frontend/src/pages/RegisterJugador.js:54-60 | an edit sets the named field and leaves every other field, the options and the error unchanged |
| RegisterPlayer.ChangesCommute | frontend/src/pages/RegisterJugador.js:54-60 | edits of different fields commute, and a later edit of the same field overrides an earlier one |
| RegisterPlayer.CityEffect | frontend/src/pages/RegisterJugador.js:39-52 | with a country chosen, arriving cities replace the options and blank the city; with none chosen, or on failure, nothing changes |
| RegisterPlayer.Submit | frontend/src/pages/RegisterJugador.js:62-103 | mismatched passwords give the mismatch error and send nothing; otherwise the address is posted first, the player only after the address succeeds, and the page navigates only when both succeed; the form is kept |
| RegisterPlayer.PlayerUsesCreatedAddress | frontend/src/pages/RegisterJugador.js:75-88 | the player request is always second, after an address request, and points at the id that request returned |
| RegisterPlayer.FailureReportsDetailFirst | frontend/src/pages/RegisterJugador.js:94-99 | a failure shows the server's detail, else its message, else the default text, and keeps the form |
| Session.Logout | frontend/src/services/authService.js:17-20 | logging out removes the token and the cached user and keeps every other key |
| Session.GetToken | frontend/src/services/authService.js:22-24 | the token is present exactly when its key is stored, and is the stored text |
| Session.GetUser | frontend/src/services/authService.js:26-29 | no cached user for an absent or empty entry; otherwise the parsed entry |
| Session.StoreLogin | frontend/src/pages/Login.js:23-24 | a login stores the token and the user text and keeps every other key |
| Session.LogoutEndsSession | frontend/src/services/authService.js:17-33 | after logout nothing is authenticated or cached, and a second logout changes nothing |
| Session.LoginThenLogout | frontend/src/services/authService.js:17-33 | a login with a non-empty token authenticates and caches its user; a logout afterwards restores every other key |
| Session.Guard | frontend/src/components/ProtectedRouteJugador.js:5-18 | no token sends to the login page; a cached user of another kind sends home; everything else renders |
| Session.GuardJugador | frontend/src/components/ProtectedRouteJugador.js:5-18 | the player dashboard renders exactly for a token with no cached user or a cached player |
| Session.GuardOrganizador | frontend/src/components/ProtectedRouteOrganizador.js:5-18 | the organizer dashboard renders exactly for a token with no cached user or a cached organizer |
| Session.GuardsExclusive | frontend/src/components/ProtectedRouteJugador.js:13-15 | a cached user opens at most one of the two dashboards; a token without a cached user opens both |
| Session.LoggedOutGoesToLogin | frontend/src/components/ProtectedRouteJugador.js:8-10 | after logout both guards send to the login page |
| Profile.TextOr | frontend/src/pages/DashboardPerfil.js:23-29 | a non-empty text property is read as is; a falsy one gives the fallback |
| Profile.Derive | frontend/src/pages/DashboardPerfil.js:20-30 | an organizer shows its organization name and no surname, a player its name and surname; every field falls back to its default; the name is never empty |
| Profile.AddressLoaded | frontend/src/pages/DashboardPerfil.js:69-86 | a fetched address replaces address, city and country with their defaults; a failure changes nothing; name and phone are kept |
| Profile.Initials | frontend/src/pages/DashboardPerfil.js:140-144 | one or two upper-case characters: the name's first letter or U, then the surname's first letter when there is a surname |
| Profile.ProfileImage | frontend/src/pages/DashboardPerfil.js:146-152 | a stored photo is shown as is; otherwise the avatar URL embeds exactly the initials between the fixed prefix and suffix |
| Profile.SaveRequest | frontend/src/pages/DashboardPerfil.js:154-172 | the request always carries telephone and address; an organizer's goes to the organizer route with its organization name, a player's to the player route with name and surname, and nothing else |
| Profile.Merge | frontend/src/pages/DashboardPerfil.js:175-183 | the merged user overwrites exactly the saved keys for its kind and keeps every other key |
| Profile.MergeKeepsRole | frontend/src/pages/DashboardPerfil.js:175-183 | a merged user keeps its kind |
| Profile.MergeThenDerive | frontend/src/pages/DashboardPerfil.js:20-30 | re-deriving the profile from the merged user gives back the saved values that were filled in |
| Profile.SaveAsWritten | frontend/src/pages/DashboardPerfil.js:154-200 | as written, neither the cache, the user, the profile nor the edit flag changes, and even an accepted save reports an error |
| Profile.SavedPhoneLostOnReload | frontend/src/pages/DashboardPerfil.js:186 | as written, a telephone an organizer saved and the server accepted is not what the profile shows after a reload; with the cache write it is |
| Profile.Save | frontend/src/pages/DashboardPerfil.js:174-195 | an accepted save caches the merged user, leaves edit mode and reports success; a refused one is as written |
| Profile.PhotoUploadedAsWritten | frontend/src/pages/DashboardPerfil.js:93-116 | as written, an uploaded photo is shown but the cache keeps the old one and an error is reported |
| Profile.PhotoUploaded | frontend/src/pages/DashboardPerfil.js:93-116 | with the cache write, the new URL is shown and cached with a success toast |
| Profile.PhotoDeletedAsWritten | frontend/src/pages/DashboardPerfil.js:118-138 | as written, a removed photo disappears from view but the cache keeps it |
| Profile.PhotoDeleted | frontend/src/pages/DashboardPerfil.js:118-138 | with the cache write, the photo is removed from view and from the cache |
| Profile.DeletedPhotoShowsAvatar | frontend/src/pages/DashboardPerfil.js:146-152 | after a removal no photo is shown and the cache holds none, so the initials avatar is drawn |
| Schemas.Length | backend/app/schemas/schemas.py:99-101 | a length constraint reports at most one violation, exactly when the text is shorter than the minimum or longer than the maximum |
| Schemas.NameField | backend/app/schemas/schemas.py:99-112 | a name passes exactly when it has 2 to 50 characters, all letters; the letters-only violation is reported only when the length passes |
| Schemas.EmailField | backend/app/schemas/schemas.py:104 | the e-mail passes exactly when it is a valid address |
| Schemas.ValidateJugador | backend/app/schemas/schemas.py:98-112 | the player body passes exactly when names are 2 to 50 letters, the telephone 7 to 20 characters, the e-mail valid and the password at least 6; every violation names one of those fields |
| Schemas.ValidateOrganizador | backend/app/schemas/schemas.py:138-143 | the organizer body passes exactly when the name has 2 to 100 characters, the e-mail is valid and the password has at least 6 |
| Schemas.ValidateUsuario | backend/app/schemas/schemas.py:27-30 | the user body passes exactly when the e-mail is valid, the password has at least 6 characters and the kind is one of the two choices |
| Schemas.ValidateOffering | backend/app/schemas/schemas.py:179-200 | the offering body passes exactly when the date is not in the past and the cost is positive and at most 999999; each violation is reported exactly when its condition holds |
| Schemas.OfferingBoundaries | backend/app/schemas/schemas.py:179-200 | today and one cent pass, the ceiling is inclusive, and yesterday, zero and one cent above the ceiling fail |
| Schemas.NameExamples | backend/app/schemas/schemas.py:99-112 | "J" is reported only as too short, "Ana María" as not letters, and "José" passes |
| Schemas.DetailDefaults | backend/app/schemas/schemas.py:215-225 | an omitted enrolment count is 0 and an omitted limit is 100 |
| Cloudinary.IndexOf | backend/app/cloudinary_service.py:66-67 | the answer is the first position where the separator occurs, and none when it occurs nowhere |
| Cloudinary.FirstOccurrence | backend/app/cloudinary_service.py:66-67 | a position holding the separator with no earlier occurrence is the one found |
| Cloudinary.SplitCharNoSep | backend/app/cloudinary_service.py:72 | a text without the separator splits into one part, itself |
| Cloudinary.JoinSplitChar | backend/app/cloudinary_service.py:72-75 | splitting on a character and joining on it gives back the text |
| Cloudinary.SplitCharAround | backend/app/cloudinary_service.py:72-75 | a separator between two texts splits them apart |
| Cloudinary.PublicId | backend/app/cloudinary_service.py:58-75 | no public id for an empty URL or one without `/upload/`; otherwise the id derived from the path after the first `/upload/` |
| Cloudinary.AfterUpload | backend/app/cloudinary_service.py:66-68 | when `/upload/` occurs once, the path is everything after it |
| Cloudinary.StripVersion | backend/app/cloudinary_service.py:71-72 | a leading `v<version>/` segment is dropped |
| Cloudinary.DropExtension | backend/app/cloudinary_service.py:75 | the last `.`-suffix is dropped |
| Cloudinary.VersionedUrl | backend/app/cloudinary_service.py:61-75 | a URL of the documented shape `<prefix>/upload/v<version>/<id>.<ext>` yields exactly `<id>` |
| Cloudinary.LeadingVNotVersion | backend/app/cloudinary_service.py:71-72 | any path that starts with `v` loses its first segment, version or not: a path such as `vacation.jpg`, with no folder, yields the empty id |
| Cloudinary.NoExtensionEmptyId | backend/app/cloudinary_service.py:75 | a path without a dot yields the empty id |
| Cloudinary.DeleteImage | backend/app/cloudinary_service.py:53-85 | deleting succeeds exactly when a public id is found and the host answers "ok"; an empty URL or one without `/upload/` is refused |
| Cloudinary.UploadImage | backend/app/cloudinary_service.py:18-50 | an upload yields the host's URL exactly when configured and the host accepts; every failure, the missing configuration included, is 400 |
| Security.CurrentUser | backend/app/security.py:16-52 | every refusal is 401: no credentials, a token that does not verify, or a token naming no user; otherwise the caller is the user the token names, with the token's claims |
| Security.RequireRole | backend/app/security.py:55-82 | an unauthenticated caller gets the authentication refusal; an authenticated one passes exactly when its token carries the required kind, and is refused with 403 otherwise |
| Security.RoleGatesExclusive | backend/app/security.py:55-82 | no request passes both role gates, and an authenticated caller of the wrong kind gets 403, never 401 |
| Auth.Expiry | backend/app/routes/auth.py:31-43 | a token expires after the given delta when it is non-zero, else after one day |
| Auth.RoleDataOf | backend/app/routes/auth.py:122-137 | the payload carries player fields exactly for a player with a player row, organizer fields exactly for an organizer with one, taken from that row |
| Auth.UserByEmail | backend/app/routes/auth.py:98 | the user found has the e-mail up to letter case, as the case-insensitive column compares it; none is found only when no user's e-mail matches in any case |
| Auth.LoginIgnoresCase | backend/app/routes/auth.py:98 | two e-mails that differ only in letter case get the same login answer |
| Auth.Login | backend/app/routes/auth.py:92-148 | an unknown e-mail or a wrong password is 401, a disabled account with the right password is 403, and a success signs the user's fields and role data with a one-day expiry |
| Auth.LoginHidesWhichCredentialFailed | backend/app/routes/auth.py:98-104 | an unknown e-mail and a wrong password give the same answer |
| Auth.LoginPayloadMatchesRole | backend/app/routes/auth.py:123-130 | a player's login payload carries its player row |
| Auth.GetCurrentUser | backend/app/routes/auth.py:63-89 | every refusal is 401: no token, an expired or invalid token, a token without user id, or an unknown user |
| Auth.CurrentUserAgrees | backend/app/routes/auth.py:63-89 | the query-token check and the header dependency accept the same tokens and resolve them to the same user |
| Offerings.Create | backend/app/routes/torneos_organizadores.py:17-96 | an unknown base tournament is 404, an unknown organizer or city 422; otherwise exactly one offering is appended under a fresh id, owned by the caller, with the submitted fields, the looked-up names and a count of 0, and nothing else changes |
| Offerings.CreatePreservesInv | backend/app/routes/torneos_organizadores.py:53-62 | creation keeps ids unique and every link resolvable, and the new offering is the one found under its id |
| Offerings.Window | backend/app/routes/torneos_organizadores.py:124 | the window holds the entries from `skip` on, at most `limit` of them, in table order |
| Offerings.ByOrganizer | backend/app/routes/torneos_organizadores.py:121-122 | with a non-zero organizer id an offering remains exactly when it belongs to that organizer; without one, or with 0, the table is unchanged |
| Offerings.Unenrolled | backend/app/routes/torneos_organizadores.py:127-134 | with a non-zero player id an offering remains exactly when the player is not linked to it; without one, or with 0, nothing is dropped |
| Offerings.List | backend/app/routes/torneos_organizadores.py:99-185 | at most `limit` rows, each an offering of the table that passes both filters, with its link count and the limit of 100; every offering of the organizer-filtered window that the player filter lets through has a row |
| Offerings.ShownListed | backend/app/routes/torneos_organizadores.py:127-134 | every offering of the window that the player filter lets through is named by a row |
| Offerings.ListWithoutPlayerIsWindow | backend/app/routes/torneos_organizadores.py:121-124 | without filters the listing is exactly the window of the table |
| Offerings.WindowBeforeExclusion | backend/app/routes/torneos_organizadores.py:124-134 | the window is cut before the player's offerings are dropped, so a limit of one can hide an open offering |
| Offerings.Rows | backend/app/routes/torneos_organizadores.py:224-240 | one row per link, in link order, each naming the link's enrolment, the player's full name, e-mail and phone, and either the payment's status, amount and method or "Sin pago", 0 and "N/A" |
| Offerings.RowOf | backend/app/routes/torneos_organizadores.py:225-240 | a link's row names its enrolment, the player's full name, e-mail and phone, and the payment's status, amount and method or "Sin pago", 0 and "N/A"; there is no row only when the enrolment, player or user is missing |
| Offerings.RowResolves | backend/app/routes/torneos_organizadores.py:225-228 | when every enrolment names a player with a user row, a link to an existing enrolment has its row |
| Offerings.UnpaidRow | backend/app/routes/torneos_organizadores.py:237-239 | an enrolment without payment is reported as "Sin pago", amount 0, method "N/A" |
| Offerings.EnrolledPlayers | backend/app/routes/torneos_organizadores.py:188-242 | an unknown offering is 404, another organizer's 403; otherwise one row per link to the offering, each with its enrolment, the player's name, e-mail and phone, and the payment status, amount and method |
| Offerings.EnrolledPlayersOkIff | backend/app/routes/torneos_organizadores.py:188-242 | on a store that keeps its invariant and whose enrolments name existing players with user rows, the listing answers exactly when the offering exists and belongs to the caller |
| Offerings.Rewritten | backend/app/routes/torneos_organizadores.py:323-326 | the update keeps the offering's id and owner |
| Offerings.Update | backend/app/routes/torneos_organizadores.py:281-362 | 404 unknown offering, 403 not the owner, 404 unknown base, 422 unknown city; it succeeds exactly when all four lookups pass, and then only that offering is rewritten with the four submitted fields, in place |
| Offerings.UpdateReportsNoEnrolments | backend/app/routes/torneos_organizadores.py:361 | the update answer reports 0 enrolments even when players are enrolled |
| Offerings.UpdatePreservesInv | backend/app/routes/torneos_organizadores.py:323-328 | updating keeps ids unique and every link resolvable |
| Offerings.Delete | backend/app/routes/torneos_organizadores.py:365-410 | 404 unknown, 403 not the owner, 400 quoting the number of enrolled players; it succeeds exactly for the owner of an offering without enrolments, removing only that offering |
| Offerings.DeletePreservesInv | backend/app/routes/torneos_organizadores.py:396-408 | deleting keeps ids unique and leaves no link pointing at a removed offering |
| Enrolments.Enrol | backend/app/routes/inscripciones.py:16-106 | 403 unless enrolling oneself, 404 unknown player, 404 unknown offering, 409 when already linked to it, in that order; otherwise exactly one enrolment, one paid payment of the offering's cost and one link are appended under fresh ids, nothing else changes, and the reported count is the previous link count plus one |
| Enrolments.EnrolPreservesInv | backend/app/routes/inscripciones.py:56-89 | enrolling keeps ids unique, every link resolvable, and at most one link per player and offering |
| Enrolments.AddedKeyed | backend/app/routes/inscripciones.py:64-88 | the three new rows take fresh ids, so every table stays keyed |
| Enrolments.AddedResolves | backend/app/routes/inscripciones.py:83-88 | the new link points at the new enrolment and an existing offering |
| Enrolments.AddedOneLink | backend/app/routes/inscripciones.py:56-62 | with the duplicate query empty, the new link is the only one for its player and offering |
| Enrolments.NewEnrolmentFound | backend/app/routes/inscripciones.py:64-69 | the new enrolment is found under its fresh id |
| Enrolments.LinkRows | backend/app/routes/inscripciones.py:145-160 | one row per link of the enrolment, naming the enrolment and the link's offering |
| Enrolments.LinkRowsCover | backend/app/routes/inscripciones.py:139-160 | every row of one enrolment names an offering a link joins it to, and every link of the enrolment has its row |
| Enrolments.RowsJoined | backend/app/routes/inscripciones.py:138-160 | the first enrolment's rows followed by the others' name only the given enrolments' links and cover all of them |
| Enrolments.EnrolmentRows | backend/app/routes/inscripciones.py:138-160 | the rows of several enrolments number the sum of their link counts; each names one of the enrolments and an offering a link joins it to, and every link of every enrolment has a row |
| Enrolments.ListFor | backend/app/routes/inscripciones.py:109-162 | 403 unless listing oneself, 404 unknown player; otherwise one row per link of each of the player's enrolments: each row names one of the player's enrolments and an offering it is linked to, and every such link has a row |
| Enrolments.ListForOkIff | backend/app/routes/inscripciones.py:109-162 | on a store that keeps its invariant, the listing answers exactly when the caller lists itself and the player exists; no link can break it |
| Enrolments.Cancel | backend/app/routes/inscripciones.py:165-206 | 404 unknown enrolment, 403 unless it is the caller's; it succeeds exactly for the caller's own enrolment, which is removed together with exactly its links and its payment, and nothing else changes |
| Enrolments.CancelPreservesInv | backend/app/routes/inscripciones.py:191-204 | cancelling keeps ids unique and leaves no link pointing at a removed enrolment |
| Enrolments.CancelThenEnrol | backend/app/routes/inscripciones.py:56-62 | after cancelling the enrolment that linked a player to an offering, the player can enrol in it again |
| Accounts.RegisterPlayer | backend/app/routes/jugadores.py:13-59 | 422 for an unknown address, then 409 for an e-mail taken in any letter case; otherwise exactly one active player user with the hashed password and one player row pointing at it are appended under fresh ids, and nothing else changes |
| Accounts.RegisterOrganizer | backend/app/routes/organizadores.py:13-57 | the same gates, appending one active organizer user and one organizer row pointing at it |
| Accounts.RegisterClosesEmail | backend/app/routes/jugadores.py:30-35 | after a registration the e-mail is taken in every spelling of its letters' case, so registering it again is refused |
| Accounts.RegisterThenLogin | backend/app/routes/jugadores.py:37-56 | a freshly registered player can log in with its password and receives its new user id and player row |
| Accounts.PatchPlayer | backend/app/schemas/schemas.py:115-120 | sent fields replace the row's values, unsent ones keep them, and id and user never change |
| Accounts.PatchOrganizer | backend/app/schemas/schemas.py:146-149 | sent fields replace the row's values, unsent ones keep them, and id and user never change |
| Accounts.PatchPlayers | backend/app/routes/jugadores.py:141-144 | only the rows with the given id are patched, in place |
| Accounts.PatchOrganizers | backend/app/routes/organizadores.py:126-129 | only the rows with the given id are patched, in place |
| Accounts.RewriteAddress | backend/app/routes/organizadores.py:119-124 | only the address with the given id gets the new text, in place, and is then found with it |
| Accounts.AddressesAfter | backend/app/routes/organizadores.py:119-124 | an empty or missing text leaves the addresses alone; a non-empty one rewrites the address the row pointed to |
| Accounts.PlayerUpdateRefusal | backend/app/routes/jugadores.py:115-139 | 403 unless updating oneself, 404 unknown player, 404 for a non-zero address id naming no address; the write goes ahead exactly when none of these applies |
| Accounts.UpdatePlayerAsWritten | backend/app/routes/jugadores.py:107-150 | as written, the refusals above, and any request that sends the address text fails with 500 |
| Accounts.ProfileSaveAlwaysFails | backend/app/routes/jugadores.py:141-144 | as written, an update carrying the address text is refused and changes nothing |
| Accounts.UpdatePlayer | backend/app/routes/jugadores.py:107-150 | the refusals above; it succeeds exactly when none applies and the patched player points at an existing address; a success applies exactly the sent fields, rewrites the old address's text when a non-empty one is sent, ends pointing at an existing address, and touches no other table |
| Accounts.UpdatePlayerTouchesOnlySent | backend/app/routes/jugadores.py:141-144 | fields left unset keep their values |
| Accounts.UpdatePlayerPreservesInv | backend/app/routes/jugadores.py:141-148 | a player update keeps the store invariant |
| Accounts.UpdateOrganizer | backend/app/routes/organizadores.py:85-135 | 403 unless updating oneself, 404 unknown organizer, 404 for a non-zero address id naming no address; it succeeds exactly when none applies and the patched organizer points at an existing address; a success applies exactly the sent fields, rewrites the old address's text when a non-empty one is sent, and otherwise leaves the addresses alone |
| Accounts.RewriteElsewhere | backend/app/routes/organizadores.py:121-124 | rewriting one address leaves every other address as it was |
| Accounts.AddressTextGoesToOldAddress | backend/app/routes/organizadores.py:119-129 | moving to another address while sending a text rewrites the address being left, not the one moved to |
| Accounts.DeletePlayer | backend/app/routes/jugadores.py:153-183 | 403 unless deleting oneself, 404 unknown; it succeeds exactly when no enrolment points at the player, removing exactly the player and its user |
| Accounts.DeleteOrganizer | backend/app/routes/organizadores.py:138-168 | 403 unless deleting oneself, 404 unknown; it succeeds exactly when the organizer owns no offering, removing exactly the organizer and its user |
| Accounts.DeletedPlayerTokenRefused | backend/app/security.py:43-50 | after a player deletes its account, the token it still holds is refused with 401 |
| Photos.SetPhoto | backend/app/routes/fotos.py:59-61 | only the user with the given id gets the new picture, in place, and no other table changes |
| Photos.DestroyRequest | backend/app/cloudinary_service.py:53-85 | the delete helper asks the host to destroy exactly when the stored picture is non-empty and contains "/upload/", and then names the public id extracted from it |
| Photos.DestroyRequestIsHelpers | backend/app/cloudinary_service.py:53-85 | the helper reports success exactly when the host answers "ok" to the recorded request |
| Photos.Upload | backend/app/routes/fotos.py:11-72 | 404 unknown user, 500 for a file without a content type, 400 for a content type not starting with "image/", 400 above five mebibytes, in that order; once those checks pass, the old picture goes to the delete helper, so the host is asked to destroy its public id exactly when the user has a picture whose URL contains "/upload/"; it succeeds exactly when the host accepts the file, storing and answering the host's URL, and a failure commits nothing |
| Photos.FailedUploadKeepsOldUrl | backend/app/routes/fotos.py:51-56 | when the host refuses the new file, the stored URL is the old one, although the host was already asked to destroy the public id it names |
| Photos.Delete | backend/app/routes/fotos.py:75-117 | 404 unknown user, 400 when there is no picture; otherwise the picture goes to the delete helper, which asks the host to destroy its public id only when the URL contains "/upload/", and the stored picture becomes empty whatever the helper returns |
| Photos.UploadThenDelete | backend/app/routes/fotos.py:52-106 | a picture just uploaded with a URL can be deleted, and a second delete is refused with 400 |
| Store.Fail | backend/app/routes/inscripciones.py:185-189 | an error answer carries its status and commits nothing |
| Store.FindAgree | backend/app/routes/auth.py:98 | two searches that agree on every row find the same row |
| Store.Find | backend/app/routes/auth.py:98 | the first row found satisfies the filter and belongs to the table; none is found only when no row satisfies it |
| Store.FindAppend | backend/app/routes/jugadores.py:44-45 | appending a row does not change a lookup that already succeeds |
| Store.FindKeep | backend/app/routes/inscripciones.py:192-203 | deleting rows the lookup could never return does not change it |
| Store.FindAfterMap | backend/app/routes/torneos_organizadores.py:323-328 | rewriting rows in place without changing the searched property keeps the lookup's success |
| Store.FindRewrite | backend/app/routes/torneos_organizadores.py:323-328 | rewriting the matched rows in place makes the lookup return the rewritten row |
| Store.FindUntouched | backend/app/routes/organizadores.py:119-124 | changing only rows the lookup cannot match leaves it unchanged |
| Store.LinksOf | backend/app/routes/torneos_organizadores.py:219-222 | the links of an offering all point at it and belong to the table |
| Store.LinkCount | backend/app/routes/torneos_organizadores.py:396-401 | the count is zero exactly when no link points at the offering |
| Store.EmptyInv | backend/app/models/models.py:85-154 | an empty database satisfies the invariant |
| Store.FreshAbsent | backend/app/routes/inscripciones.py:64-68 | no row carries the next fresh id |
| Store.AppendKeyed | backend/app/routes/inscripciones.py:64-88 | appending a row under the fresh id keeps the table's ids unique and below the counter |
| Store.KeepKeyed | backend/app/routes/inscripciones.py:191-204 | deleting rows keeps the table's ids unique and below the counter |

## Left out

- Rendering, styling, icons and navigation are not modelled. The JSX of every page is out, and so are the static pages, the layout, the toast component and the confirmation modal's chrome. A navigation is recorded as the path a guard or handler chooses.
- Timers are not modelled. This covers the payment modal's simulated processing delays, the modals' close delays and the toast auto-dismiss. The model keeps the method that `onConfirm` finally receives.
- Loading and submitting flags are kept only where a contract speaks about them (the create modal's `loading`, the player dashboard's `inscribiendo`). Spinners are not modelled.
- The HTTP service wrappers (axios calls) are not modelled. Each request's settled outcome is an input of the handler that awaits it.
- Concurrency and the ordering of asynchronous responses are not modelled. Responses are applied one at a time, in the order given.
- `Payment.HandleCardChange`: `parseInt` of the month is modelled on digit-only text, because the filter has already removed every other character.
- `Common.ParseInt`: a leading sign and leading blanks are not modelled. Its inputs are `<select>` values printed from ids and texts already stripped of non-digits, which carry neither.
- `OfferingForm.ParseFloat`: an exponent is not read. A number field accepts "1e3", which JavaScript sends as 1000; the model sends 1 (`OfferingForm.ExponentIgnored`). Texts with leading blanks, `Infinity` or hexadecimal forms are not modelled, and number fields do not produce them.
- `Schemas.ValidateOffering`: `round(costo, 2)` is not modelled, because costs are already integer cents. A cost between 999999 and 999999.01 cannot be written in cents.
- Binary floating point is not modelled. This covers `parseFloat`, `toFixed`, cost times count, and `Decimal` to `float` conversions; all money is exact cents.
- Unicode is restricted. `toUpperCase` is modelled on ASCII. `str.isalpha` is modelled on Latin-1. SQL `ilike` is ASCII case-insensitive equality without wildcards.
- `Auth.UserByEmail`: the login's `==` on the e-mail column is modelled as ASCII case-insensitive equality, which is what MySQL's default case-insensitive collation does to these addresses. The collation's accent folding and its disregard of trailing spaces are not modelled.
- Bcrypt, JWT signing and decoding, the image host's upload and destroy calls, `JSON.parse`, `JSON.stringify` and the `EmailStr` syntax check are parameters.
- The clock and the time zone are parameters. "now" is in minutes. The dashboards' date filter takes the first shown day, which `Listing.FirstShownDay` derives from the local day and the UTC offset.
- `Photos.Upload`: the 400 detail of a failed upload is the fixed prefix. The exception text that the route appends is not modelled.
- `Offerings.List`: a negative `skip` or `limit` is not modelled. Both are natural numbers here.
- `fecha_inscripcion` is not modelled. The enrolled-players rows (backend/app/routes/torneos_organizadores.py:236) and a player's enrolment rows (backend/app/routes/inscripciones.py:157) both carry it; the model has no enrolment date.
- `Offerings.EnrolledPlayersOkIff`: it assumes that every enrolment names an existing player with a user row. No route is proved to keep that.
- Joined display names are not modelled where the route reads them through relationships for the answer. This covers the base tournament's name and the city's name in listings and enrolment rows. The row carries the ids.
- `Accounts.UpdatePlayer` and `Accounts.UpdateOrganizer`: a field sent explicitly as `null` is not modelled. A patch field is either unset or carries a value.
- A commit that the database's foreign keys refuse is modelled as a 500 with nothing committed. The database engine, its transactions and its cascade rules are not modelled beyond that.
- Payments are not part of `Store.Inv`. Their ids come from the same counter, but no contract depends on their uniqueness.
- The player limit has no code. A docstring names it, and `TorneoLleno` is imported and never raised. No capacity is modelled.
- The payments router, the seed script and `listar_jugadores_por_torneo` are not modelled. They refer to columns, classes or relationships that the models do not define, so they cannot run as written.
- The lookup routes for countries, cities, addresses and base tournaments are not modelled. They only return a row or 404. The city-by-country lookup is the oracle behind the cascades.
- Application wiring, database configuration and CORS are not modelled.

## Findings

| source | as written | input that shows it | evidently intended | confidence | as-written member | corrected member |
|---|---|---|---|---|---|---|
| frontend/src/pages/DashboardPerfil.js:186 | the page calls `authService.setUser`, which frontend/src/services/authService.js:1-36 does not define, so the call throws after the server has accepted the save | an organizer saves a new telephone; the request succeeds, the cached user keeps the old telephone, and the page shows an error toast | write the merged user into the session cache, leave edit mode and report success | not executed | Profile.SaveAsWritten, Profile.SavedPhoneLostOnReload | Profile.Save |
| backend/app/schemas/schemas.py:215-225 | the offering detail that the organizer dashboard lists and passes to the edit modal has no `fk_torneo_id` or `fk_ciudad_id`, while frontend/src/components/EditarTorneoModal.js:22-25 pre-fills the type and city from exactly those fields | an organizer opens the edit modal on any listed offering and saves without changes; the type and city selects are empty and the save is refused with "Selecciona un tipo de torneo" | the modal opens on the offering's own type and city, so an untouched save sends them back | not executed | OfferingForm.UntouchedEditRefused | OfferingForm.EditPrefillRoundTrip |
| frontend/src/pages/DashboardPerfil.js:105 | the same missing `setUser` after a photo upload: the new photo is shown, the cache keeps the old URL, and an error is reported | any successful upload | cache the new URL and report success | not executed | Profile.PhotoUploadedAsWritten | Profile.PhotoUploaded |
| frontend/src/pages/DashboardPerfil.js:128 | the same missing `setUser` after a photo removal: the photo disappears from view but stays in the cache | any successful removal | clear the cached photo | not executed | Profile.PhotoDeletedAsWritten | Profile.PhotoDeleted |
| backend/app/routes/jugadores.py:141-144 | every sent field is assigned to the player with `setattr`, including the address text, which lands on the `direccion` relationship and fails the request | the profile page's player save, which always sends `direccion` | rewrite the text of the player's existing address, as the organizer update does at backend/app/routes/organizadores.py:119-129, and assign only the other fields | not executed | Accounts.UpdatePlayerAsWritten, Accounts.ProfileSaveAlwaysFails | Accounts.UpdatePlayer |
| frontend/src/pages/DashboardTorneos.js:53-67 | a successful cancel filters the list but keeps the current page, and the pagination bar is hidden once one page remains | six enrolments, page 2, cancel the sixth: page 2 is empty and no control leads back | clamp the page to the shortened list | not executed | MyTournaments.CancelAsWritten, MyTournaments.CancelStrandsPage | MyTournaments.Cancel, MyTournaments.CancelKeepsPageFilled |

=== FILE: accounts.dfy ===
/** The account routes of players and organizers: registration, the
    self-service partial update and the self-service delete. Password hashing
    is an oracle. A commit that the database's foreign keys refuse is a 500
    with nothing committed. */
module Accounts {
  import opened Common
  import opened Listing
  import opened Store
  import opened Security
  import Auth

  const MsgAddressNotFound := "Dirección no encontrada"
  const MsgEmailTaken := "Este email ya está registrado. Usa otro email o inicia sesión."
  const MsgPlayerNotFound := "Jugador no encontrado"
  const MsgOrganizerNotFound := "Organizador no encontrado"
  const MsgNoUpdatePlayer := "No tienes permiso para actualizar este jugador"
  const MsgNoDeletePlayer := "No tienes permiso para eliminar este jugador"
  const MsgNoUpdateOrganizer := "No tienes permiso para actualizar este organizador"
  const MsgNoDeleteOrganizer := "No tienes permiso para eliminar este organizador"
  const MsgBroken := "Internal Server Error"

  /** Some user's e-mail equals `email` up to case (`ilike` without wildcards). */
  predicate EmailTaken(db: Db, email: string)
  {
    Find(db.usuarios, (u: User) => EqualsIgnoreCase(u.email, email)).Some?
  }

  // ---------------------------------------------------------------- register

  /** A validated `JugadorCreate`. */
  datatype PlayerSignup = PlayerSignup(nombre: string, apellido: string, telefono: string, fkDireccion: int, email: string, contrasena: string)

  /** A validated `OrganizadorCreate`. */
  datatype OrganizerSignup = OrganizerSignup(nombre: string, fkDireccion: int, email: string, contrasena: string)

  /** The new active user row both registrations create, under the fresh id. */
  function NewUser(db: Db, email: string, hash: string, tipo: UserType): User
  {
    User(db.next, email, hash, tipo, None, true)
  }

  /** `registrar_jugador`: 422 for an unknown address, then 409 for a taken
      e-mail; otherwise one active player user and one player row. */
  function RegisterPlayer(db: Db, b: PlayerSignup, hashPassword: string -> string): (s: Step<Player>)
    ensures AddressById(db, b.fkDireccion).None? ==> s == Fail(db, 422, MsgAddressNotFound)
    ensures AddressById(db, b.fkDireccion).Some? && EmailTaken(db, b.email) ==> s == Fail(db, 409, MsgEmailTaken)
    ensures s.response.Ok? <==> AddressById(db, b.fkDireccion).Some? && !EmailTaken(db, b.email)
    ensures s.response.Ok? ==>
      var u := User(db.next, b.email, hashPassword(b.contrasena), PlayerType, None, true);
      && s.response.body == Player(db.next + 1, b.nombre, b.apellido, b.telefono, b.fkDireccion, u.id)
      && s.db.usuarios == db.usuarios + [u]
      && s.db.jugadores == db.jugadores + [s.response.body]
      && s.db.(usuarios := db.usuarios, jugadores := db.jugadores, next := db.next) == db
      && s.db.next > s.response.body.id > u.id >= db.next
  {
    if AddressById(db, b.fkDireccion).None? then Fail(db, 422, MsgAddressNotFound)
    else if EmailTaken(db, b.email) then Fail(db, 409, MsgEmailTaken)
    else
      var u := NewUser(db, b.email, hashPassword(b.contrasena), PlayerType);
      var p := Player(db.next + 1, b.nombre, b.apellido, b.telefono, b.fkDireccion, u.id);
      Step(Ok(p), db.(usuarios := db.usuarios + [u], jugadores := db.jugadores + [p], next := db.next + 2))
  }

  /** `registrar_organizador`: the same gates, creating an organizer user and row. */
  function RegisterOrganizer(db: Db, b: OrganizerSignup, hashPassword: string -> string): (s: Step<Organizer>)
    ensures AddressById(db, b.fkDireccion).None? ==> s == Fail(db, 422, MsgAddressNotFound)
    ensures AddressById(db, b.fkDireccion).Some? && EmailTaken(db, b.email) ==> s == Fail(db, 409, MsgEmailTaken)
    ensures s.response.Ok? <==> AddressById(db, b.fkDireccion).Some? && !EmailTaken(db, b.email)
    ensures s.response.Ok? ==>
      var u := User(db.next, b.email, hashPassword(b.contrasena), OrganizerType, None, true);
      && s.response.body == Organizer(db.next + 1, b.nombre, b.fkDireccion, u.id)
      && s.db.usuarios == db.usuarios + [u]
      && s.db.organizadores == db.organizadores + [s.response.body]
      && s.db.(usuarios := db.usuarios, organizadores := db.organizadores, next := db.next) == db
  {
    if AddressById(db, b.fkDireccion).None? then Fail(db, 422, MsgAddressNotFound)
    else if EmailTaken(db, b.email) then Fail(db, 409, MsgEmailTaken)
    else
      var u := NewUser(db, b.email, hashPassword(b.contrasena), OrganizerType);
      var o := Organizer(db.next + 1, b.nombre, b.fkDireccion, u.id);
      Step(Ok(o), db.(usuarios := db.usuarios + [u], organizadores := db.organizadores + [o], next := db.next + 2))
  }

  /** Once registered, an e-mail is taken in any spelling of its letters'
      case, so registering it again (as player or organizer) is a 409. */
  lemma RegisterClosesEmail(db: Db, b: PlayerSignup, hashPassword: string -> string, again: string)
    requires RegisterPlayer(db, b, hashPassword).response.Ok?
    requires EqualsIgnoreCase(again, b.email)
    ensures EmailTaken(RegisterPlayer(db, b, hashPassword).db, again)
  {
    var d := RegisterPlayer(db, b, hashPassword).db;
    var u := User(db.next, b.email, hashPassword(b.contrasena), PlayerType, None, true);
    var p := (x: User) => EqualsIgnoreCase(x.email, again);
    FindAppend(db.usuarios, u, p);
  }

  /** A freshly registered player can log in with the password it chose (when
      the hash oracle accepts its own hashes) and receives its player row. */
  lemma {:induction false} RegisterThenLogin(db: Db, b: PlayerSignup, hashPassword: string -> string,
                                             checkpw: (string, string) -> bool, now: int)
    requires RegisterPlayer(db, b, hashPassword).response.Ok?
    requires checkpw(b.contrasena, hashPassword(b.contrasena))
    requires Below(db.jugadores, (x: Player) => x.usuario, db.next)
    ensures var s := RegisterPlayer(db, b, hashPassword);
      var r := Auth.Login(s.db, b.email, b.contrasena, checkpw, now);
      && r.Ok?
      && r.body.usuario.idUsuario == db.next
      && r.body.usuario.extra == Auth.PlayerData(db.next + 1, b.nombre, b.apellido, b.telefono, b.fkDireccion)
  {
    var s := RegisterPlayer(db, b, hashPassword);
    var u := User(db.next, b.email, hashPassword(b.contrasena), PlayerType, None, true);
    var p := s.response.body;
    var same := (x: User) => EqualsIgnoreCase(x.email, b.email);
    FindAppend(db.usuarios, u, same);
    assert Auth.UserByEmail(s.db, b.email) == Some(u);
    var mine := (x: Player) => x.usuario == u.id;
    FreshAbsent(db.jugadores, (x: Player) => x.usuario, db.next);
    FindAppend(db.jugadores, p, mine);
    assert Find(s.db.jugadores, mine) == Some(p);
  }

  // ---------------------------------------------------------------- update

  /** A `JugadorUpdate` as sent: `None` is a field the request leaves unset. */
  datatype PlayerPatch = PlayerPatch(
    nombre: Option<string>,
    apellido: Option<string>,
    telefono: Option<string>,
    fkDireccion: Option<int>,
    direccion: Option<string>)

  /** An `OrganizadorUpdate` as sent. */
  datatype OrganizerPatch = OrganizerPatch(nombre: Option<string>, fkDireccion: Option<int>, direccion: Option<string>)

  /** The player row with the sent column fields applied. */
  function PatchPlayer(p: Player, patch: PlayerPatch): (q: Player)
    ensures q.id == p.id && q.usuario == p.usuario
    ensures q.nombre == patch.nombre.GetOr(p.nombre)
    ensures q.apellido == patch.apellido.GetOr(p.apellido)
    ensures q.telefono == patch.telefono.GetOr(p.telefono)
    ensures q.direccion == patch.fkDireccion.GetOr(p.direccion)
  {
    p.(nombre := patch.nombre.GetOr(p.nombre),
       apellido := patch.apellido.GetOr(p.apellido),
       telefono := patch.telefono.GetOr(p.telefono),
       direccion := patch.fkDireccion.GetOr(p.direccion))
  }

  /** The organizer row with the sent column fields applied. */
  function PatchOrganizer(o: Organizer, patch: OrganizerPatch): (q: Organizer)
    ensures q.id == o.id && q.usuario == o.usuario
    ensures q.nombre == patch.nombre.GetOr(o.nombre)
    ensures q.direccion == patch.fkDireccion.GetOr(o.direccion)
  {
    o.(nombre := patch.nombre.GetOr(o.nombre), direccion := patch.fkDireccion.GetOr(o.direccion))
  }

  /** The players table with the rows of id `id` patched. */
  function PatchPlayers(db: Db, id: int, patch: PlayerPatch): (t: seq<Player>)
    ensures |t| == |db.jugadores|
    ensures forall i :: 0 <= i < |t| ==> t[i] == (if db.jugadores[i].id == id then PatchPlayer(db.jugadores[i], patch) else db.jugadores[i])
  {
    seq(|db.jugadores|, i requires 0 <= i < |db.jugadores| =>
      if db.jugadores[i].id == id then PatchPlayer(db.jugadores[i], patch) else db.jugadores[i])
  }

  /** The organizers table with the rows of id `id` patched. */
  function PatchOrganizers(db: Db, id: int, patch: OrganizerPatch): (t: seq<Organizer>)
    ensures |t| == |db.organizadores|
    ensures forall i :: 0 <= i < |t| ==> t[i] == (if db.organizadores[i].id == id then PatchOrganizer(db.organizadores[i], patch) else db.organizadores[i])
  {
    seq(|db.organizadores|, i requires 0 <= i < |db.organizadores| =>
      if db.organizadores[i].id == id then PatchOrganizer(db.organizadores[i], patch) else db.organizadores[i])
  }

  /** The addresses table with the text of the rows of id `id` replaced. */
  function RewriteAddress(db: Db, id: int, texto: string): (t: seq<Address>)
    ensures |t| == |db.direcciones|
    ensures forall i :: 0 <= i < |t| ==>
      t[i] == (if db.direcciones[i].id == id then db.direcciones[i].(texto := texto) else db.direcciones[i])
    ensures AddressById(db, id).Some? ==>
      Find(t, (a: Address) => a.id == id) == Some(AddressById(db, id).value.(texto := texto))
  {
    var t := seq(|db.direcciones|, i requires 0 <= i < |db.direcciones| =>
      if db.direcciones[i].id == id then db.direcciones[i].(texto := texto) else db.direcciones[i]);
    FindRewrite(db.direcciones, t, (a: Address) => a.id == id, (a: Address) => a.(texto := texto));
    t
  }

  /** The address rows after `direccion` text was sent: a truthy text
      rewrites the address the row pointed to before the update. */
  function AddressesAfter(db: Db, current: int, direccion: Option<string>): (t: seq<Address>)
    ensures !Truthy(direccion) ==> t == db.direcciones
    ensures Truthy(direccion) && AddressById(db, current).Some? ==>
      Find(t, (a: Address) => a.id == current) == Some(AddressById(db, current).value.(texto := direccion.value))
  {
    if Truthy(direccion) then RewriteAddress(db, current, direccion.value) else db.direcciones
  }

  /** The checks `actualizar_jugador` makes before it writes: 403 unless self,
      404 unknown player, and 404 for a truthy `fk_direccion_id` that names no
      address. `None` means the write goes ahead. */
  function PlayerUpdateRefusal(db: Db, claims: Claims, id: int, patch: PlayerPatch): (r: Option<(int, string)>)
    ensures claims.idJugador != Some(id) ==> r == Some((403, MsgNoUpdatePlayer))
    ensures claims.idJugador == Some(id) && PlayerById(db, id).None? ==> r == Some((404, MsgPlayerNotFound))
    ensures r.None? <==>
      && claims.idJugador == Some(id)
      && PlayerById(db, id).Some?
      && (patch.fkDireccion.None? || patch.fkDireccion.value == 0 || AddressById(db, patch.fkDireccion.value).Some?)
    ensures r.Some? && r.value.0 == 404 && PlayerById(db, id).Some? ==> r.value.1 == MsgAddressNotFound
  {
    if claims.idJugador != Some(id) then Some((403, MsgNoUpdatePlayer))
    else if PlayerById(db, id).None? then Some((404, MsgPlayerNotFound))
    else if patch.fkDireccion.Some? && patch.fkDireccion.value != 0 && AddressById(db, patch.fkDireccion.value).None? then
      Some((404, MsgAddressNotFound))
    else None
  }

  /** `actualizar_jugador` as written: every sent field is assigned to the
      row with `setattr`, including `direccion`, which names the address
      relationship; assigning it a text fails, so any request that sends the
      address text ends in a 500. */
  function UpdatePlayerAsWritten(db: Db, claims: Claims, id: int, patch: PlayerPatch): (s: Step<Player>)
    ensures PlayerUpdateRefusal(db, claims, id, patch).Some? ==>
      s == Fail(db, PlayerUpdateRefusal(db, claims, id, patch).value.0, PlayerUpdateRefusal(db, claims, id, patch).value.1)
    ensures PlayerUpdateRefusal(db, claims, id, patch).None? && patch.direccion.Some? ==> s == Fail(db, 500, MsgBroken)
  {
    match PlayerUpdateRefusal(db, claims, id, patch)
    case Some((status, detail)) => Fail(db, status, detail)
    case None =>
      if patch.direccion.Some? then Fail(db, 500, MsgBroken)
      else UpdatePlayer(db, claims, id, patch)
  }

  /** The profile page always sends the address text with a player's update,
      so the route as written refuses every save from that page. */
  lemma ProfileSaveAlwaysFails(db: Db, claims: Claims, id: int, patch: PlayerPatch)
    requires patch.direccion.Some?
    ensures UpdatePlayerAsWritten(db, claims, id, patch).response.Err?
    ensures UpdatePlayerAsWritten(db, claims, id, patch).db == db
  {
  }

  /** `actualizar_jugador` as evidently intended: the gates above, then a
      truthy address text rewrites the player's current address (as the
      organizer route does) and the other sent fields are applied. A final
      address id that names no address is refused by the database (500). */
  function UpdatePlayer(db: Db, claims: Claims, id: int, patch: PlayerPatch): (s: Step<Player>)
    ensures PlayerUpdateRefusal(db, claims, id, patch).Some? ==>
      s == Fail(db, PlayerUpdateRefusal(db, claims, id, patch).value.0, PlayerUpdateRefusal(db, claims, id, patch).value.1)
    ensures s.response.Ok? <==>
      PlayerUpdateRefusal(db, claims, id, patch).None? && AddressById(db, PatchPlayer(PlayerById(db, id).value, patch).direccion).Some?
    ensures s.response.Ok? ==>
      var p := PlayerById(db, id).value;
      && PlayerUpdateRefusal(db, claims, id, patch).None?
      && s.response.body == PatchPlayer(p, patch)
      && PlayerById(s.db, id) == Some(s.response.body)
      && AddressById(s.db, s.response.body.direccion).Some?
      && s.db.(jugadores := db.jugadores, direcciones := db.direcciones) == db
    ensures (s.response.Ok? && Truthy(patch.direccion) && AddressById(db, PlayerById(db, id).value.direccion).Some?) ==>
      var old_ := AddressById(db, PlayerById(db, id).value.direccion).value;
      AddressById(s.db, old_.id) == Some(old_.(texto := patch.direccion.value))
  {
    match PlayerUpdateRefusal(db, claims, id, patch)
    case Some((status, detail)) => Fail(db, status, detail)
    case None =>
      var p := PlayerById(db, id).value;
      var q := PatchPlayer(p, patch);
      var jugadores := PatchPlayers(db, id, patch);
      var d := db.(jugadores := jugadores, direcciones := AddressesAfter(db, p.direccion, patch.direccion));
      FindRewrite(db.jugadores, jugadores, (x: Player) => x.id == id, (x: Player) => PatchPlayer(x, patch));
      if AddressById(d, q.direccion).None? then Fail(db, 500, MsgBroken)
      else Step(Ok(q), d)
  }

  /** Fields left unset keep their values; only the sent ones change. */
  lemma UpdatePlayerTouchesOnlySent(db: Db, claims: Claims, id: int, patch: PlayerPatch)
    requires UpdatePlayer(db, claims, id, patch).response.Ok?
    ensures var before := PlayerById(db, id).value;
      var after := PlayerById(UpdatePlayer(db, claims, id, patch).db, id).value;
      && (patch.nombre.None? ==> after.nombre == before.nombre)
      && (patch.apellido.None? ==> after.apellido == before.apellido)
      && (patch.telefono.None? ==> after.telefono == before.telefono)
      && (patch.fkDireccion.None? ==> after.direccion == before.direccion)
      && after.usuario == before.usuario
  {
  }

  /** Only the two rewritten tables change: an update never touches
      enrolments, links or offerings, so it keeps the store invariant. */
  lemma UpdatePlayerPreservesInv(db: Db, claims: Claims, id: int, patch: PlayerPatch)
    requires Inv(db)
    ensures Inv(UpdatePlayer(db, claims, id, patch).db)
  {
    var d := UpdatePlayer(db, claims, id, patch).db;
    assert d.inscripciones == db.inscripciones && d.enlaces == db.enlaces && d.ofertas == db.ofertas && d.next == db.next;
  }

  /** `actualizar_organizador`: 403 unless self, 404 unknown organizer, 404 for
      a truthy `fk_direccion_id` naming no address; then a truthy address
      text rewrites the address the organizer pointed to before the update,
      and the other sent fields are applied. */
  function UpdateOrganizer(db: Db, claims: Claims, id: int, patch: OrganizerPatch): (s: Step<Organizer>)
    ensures claims.idOrganizador != Some(id) ==> s == Fail(db, 403, MsgNoUpdateOrganizer)
    ensures claims.idOrganizador == Some(id) && OrganizerById(db, Some(id)).None? ==> s == Fail(db, 404, MsgOrganizerNotFound)
    ensures (claims.idOrganizador == Some(id) && OrganizerById(db, Some(id)).Some?
      && patch.fkDireccion.Some? && patch.fkDireccion.value != 0
      && AddressById(db, patch.fkDireccion.value).None?) ==> s == Fail(db, 404, MsgAddressNotFound)
    ensures s.response.Ok? <==>
      && claims.idOrganizador == Some(id) && OrganizerById(db, Some(id)).Some?
      && (patch.fkDireccion.None? || patch.fkDireccion.value == 0 || AddressById(db, patch.fkDireccion.value).Some?)
      && AddressById(db, PatchOrganizer(OrganizerById(db, Some(id)).value, patch).direccion).Some?
    ensures s.response.Ok? ==>
      var o := OrganizerById(db, Some(id)).value;
      && claims.idOrganizador == Some(id)
      && s.response.body == PatchOrganizer(o, patch)
      && OrganizerById(s.db, Some(id)) == Some(s.response.body)
      && AddressById(s.db, s.response.body.direccion).Some?
      && s.db.(organizadores := db.organizadores, direcciones := db.direcciones) == db
    ensures (s.response.Ok? && Truthy(patch.direccion) && AddressById(db, OrganizerById(db, Some(id)).value.direccion).Some?) ==>
      var old_ := AddressById(db, OrganizerById(db, Some(id)).value.direccion).value;
      AddressById(s.db, old_.id) == Some(old_.(texto := patch.direccion.value))
    ensures !Truthy(patch.direccion) ==> s.db.direcciones == db.direcciones
  {
    if claims.idOrganizador != Some(id) then Fail(db, 403, MsgNoUpdateOrganizer)
    else match OrganizerById(db, Some(id))
      case None => Fail(db, 404, MsgOrganizerNotFound)
      case Some(o) =>
        if patch.fkDireccion.Some? && patch.fkDireccion.value != 0 && AddressById(db, patch.fkDireccion.value).None? then
          Fail(db, 404, MsgAddressNotFound)
        else
          var q := PatchOrganizer(o, patch);
          var organizadores := PatchOrganizers(db, id, patch);
          var d := db.(organizadores := organizadores, direcciones := AddressesAfter(db, o.direccion, patch.direccion));
          FindRewrite(db.organizadores, organizadores, (x: Organizer) => x.id == id, (x: Organizer) => PatchOrganizer(x, patch));
          if AddressById(d, q.direccion).None? then Fail(db, 500, MsgBroken)
          else Step(Ok(q), d)
  }

  /** Rewriting one address's text leaves every other address as it was. */
  lemma RewriteElsewhere(db: Db, id: int, texto: string, k: int)
    requires k != id
    ensures Find(RewriteAddress(db, id, texto), (a: Address) => a.id == k) == AddressById(db, k)
  {
    FindUntouched(db.direcciones, RewriteAddress(db, id, texto), (a: Address) => a.id == k);
  }

  /** Moving to another address while sending a text rewrites the address
      being left, not the one being moved to. */
  lemma AddressTextGoesToOldAddress(db: Db, claims: Claims, id: int, patch: OrganizerPatch)
    requires UpdateOrganizer(db, claims, id, patch).response.Ok?
    requires Truthy(patch.direccion) && patch.fkDireccion.Some?
    requires patch.fkDireccion.value != OrganizerById(db, Some(id)).value.direccion
    ensures AddressById(UpdateOrganizer(db, claims, id, patch).db, patch.fkDireccion.value) == AddressById(db, patch.fkDireccion.value)
  {
    var o := OrganizerById(db, Some(id)).value;
    var s := UpdateOrganizer(db, claims, id, patch);
    assert s.db.direcciones == RewriteAddress(db, o.direccion, patch.direccion.value);
    RewriteElsewhere(db, o.direccion, patch.direccion.value, patch.fkDireccion.value);
  }

  // ---------------------------------------------------------------- delete

  /** `eliminar_jugador`: 403 unless self, 404 unknown; the player and its
      user are deleted. Enrolments still pointing at the player make the
      database refuse the commit (500). */
  function DeletePlayer(db: Db, claims: Claims, id: int): (s: Step<()>)
    ensures claims.idJugador != Some(id) ==> s == Fail(db, 403, MsgNoDeletePlayer)
    ensures claims.idJugador == Some(id) && PlayerById(db, id).None? ==> s == Fail(db, 404, MsgPlayerNotFound)
    ensures s.response.Ok? <==>
      && claims.idJugador == Some(id)
      && PlayerById(db, id).Some?
      && forall i :: 0 <= i < |db.inscripciones| ==> db.inscripciones[i].jugador != id
    ensures s.response.Ok? ==>
      var p := PlayerById(db, id).value;
      && PlayerById(s.db, id).None?
      && UserById(s.db, Some(p.usuario)).None?
      && (forall x :: x in s.db.jugadores <==> x in db.jugadores && x.id != id)
      && (forall u :: u in s.db.usuarios <==> u in db.usuarios && u.id != p.usuario)
      && s.db.(jugadores := db.jugadores, usuarios := db.usuarios) == db
  {
    if claims.idJugador != Some(id) then Fail(db, 403, MsgNoDeletePlayer)
    else match PlayerById(db, id)
      case None => Fail(db, 404, MsgPlayerNotFound)
      case Some(p) =>
        if Find(db.inscripciones, (e: Enrolment) => e.jugador == id).Some? then Fail(db, 500, MsgBroken)
        else
          var d := db.(jugadores := Keep(db.jugadores, (x: Player) => x.id != id),
                       usuarios := Keep(db.usuarios, (u: User) => u.id != p.usuario));
          Step(Ok(()), d)
  }

  /** `eliminar_organizador`: 403 unless self, 404 unknown; the organizer and
      its user are deleted. Offerings still owned by the organizer make the
      database refuse the commit (500). */
  function DeleteOrganizer(db: Db, claims: Claims, id: int): (s: Step<()>)
    ensures claims.idOrganizador != Some(id) ==> s == Fail(db, 403, MsgNoDeleteOrganizer)
    ensures claims.idOrganizador == Some(id) && OrganizerById(db, Some(id)).None? ==> s == Fail(db, 404, MsgOrganizerNotFound)
    ensures s.response.Ok? <==>
      && claims.idOrganizador == Some(id)
      && OrganizerById(db, Some(id)).Some?
      && forall i :: 0 <= i < |db.ofertas| ==> db.ofertas[i].organizador != id
    ensures s.response.Ok? ==>
      var o := OrganizerById(db, Some(id)).value;
      && OrganizerById(s.db, Some(id)).None?
      && UserById(s.db, Some(o.usuario)).None?
      && (forall x :: x in s.db.organizadores <==> x in db.organizadores && x.id != id)
      && (forall u :: u in s.db.usuarios <==> u in db.usuarios && u.id != o.usuario)
      && s.db.(organizadores := db.organizadores, usuarios := db.usuarios) == db
  {
    if claims.idOrganizador != Some(id) then Fail(db, 403, MsgNoDeleteOrganizer)
    else match OrganizerById(db, Some(id))
      case None => Fail(db, 404, MsgOrganizerNotFound)
      case Some(o) =>
        if Find(db.ofertas, (x: Offering) => x.organizador == id).Some? then Fail(db, 500, MsgBroken)
        else
          var d := db.(organizadores := Keep(db.organizadores, (x: Organizer) => x.id != id),
                       usuarios := Keep(db.usuarios, (u: User) => u.id != o.usuario));
          Step(Ok(()), d)
  }

  /** After a player deletes its account, the token it still holds no longer
      authenticates: the header dependency answers 401. */
  lemma DeletedPlayerTokenRefused(db: Db, claims: Claims, id: int, token: string, verify: string -> Decoded)
    requires DeletePlayer(db, claims, id).response.Ok?
    requires token != "" && verify(token) == Valid(claims)
    requires claims.idUsuario == Some(PlayerById(db, id).value.usuario as int)
    ensures CurrentUser(DeletePlayer(db, claims, id).db, Some(token), verify) == Err(401, MsgNoUser)
  {
  }
}

=== FILE: auth.dfy ===
/** The login route and the token helpers of the authentication router.
    Password hashing and token signing are oracles; times are minutes. */
module Auth {
  import opened Common
  import opened Store
  import opened Security

  /** `ACCESS_TOKEN_EXPIRE_MINUTES`: one day. */
  const ExpireMinutes := 1440

  const MsgBadCredentials := "Email o contraseña incorrectos"
  const MsgDisabled := "Usuario desactivado"
  const MsgInvalid := "Token inválido"
  const MsgExpired := "Token expirado"

  /** The expiry `create_access_token` stamps, in minutes: the given delta
      when it is truthy (`timedelta(0)` is not), else one day. */
  function Expiry(now: int, delta: Option<int>): (e: int)
    ensures delta.None? ==> e == now + ExpireMinutes
    ensures delta == Some(0) ==> e == now + ExpireMinutes
    ensures delta.Some? && delta.value != 0 ==> e - now == delta.value
  {
    if delta.Some? && delta.value != 0 then now + delta.value else now + ExpireMinutes
  }

  /** The role-specific part of the login payload. */
  datatype RoleData =
    | PlayerData(idJugador: nat, nombre: string, apellido: string, telefono: string, fkDireccion: int)
    | OrganizerData(idOrganizador: nat, nombreOrganizador: string, fkDireccion: int)
    | NoRoleData

  /** The login payload: the common user fields and the role-specific ones. */
  datatype Identity = Identity(idUsuario: nat, email: string, tipo: UserType, foto: Option<string>, activo: bool, extra: RoleData)

  /** The login answer: the identity that was signed and the token's expiry. */
  datatype Granted = Granted(usuario: Identity, exp: int)

  /** `filter(Usuario.email == email).first()`: the column's collation is
      case-insensitive, so the first user whose e-mail equals `email` up to
      letter case. */
  function UserByEmail(db: Db, email: string): (r: Option<User>)
    ensures r.Some? ==> r.value in db.usuarios && EqualsIgnoreCase(r.value.email, email)
    ensures r.None? <==> forall i :: 0 <= i < |db.usuarios| ==> !EqualsIgnoreCase(db.usuarios[i].email, email)
  {
    Find(db.usuarios, (u: User) => EqualsIgnoreCase(u.email, email))
  }

  /** The role-specific fields, read from the player or organizer row of the user. */
  function RoleDataOf(db: Db, u: User): (d: RoleData)
    ensures d.PlayerData? <==> u.tipo == PlayerType && Find(db.jugadores, (p: Player) => p.usuario == u.id).Some?
    ensures d.OrganizerData? <==> u.tipo == OrganizerType && Find(db.organizadores, (o: Organizer) => o.usuario == u.id).Some?
    ensures d.PlayerData? ==> exists p :: p in db.jugadores && p.usuario == u.id && d == PlayerData(p.id, p.nombre, p.apellido, p.telefono, p.direccion)
    ensures d.OrganizerData? ==> exists o :: o in db.organizadores && o.usuario == u.id && d == OrganizerData(o.id, o.nombre, o.direccion)
  {
    match u.tipo
    case PlayerType =>
      (match Find(db.jugadores, (p: Player) => p.usuario == u.id)
       case Some(p) => PlayerData(p.id, p.nombre, p.apellido, p.telefono, p.direccion)
       case None => NoRoleData)
    case OrganizerType =>
      (match Find(db.organizadores, (o: Organizer) => o.usuario == u.id)
       case Some(o) => OrganizerData(o.id, o.nombre, o.direccion)
       case None => NoRoleData)
  }

  /** `login`. */
  function Login(db: Db, email: string, password: string, checkpw: (string, string) -> bool, now: int): (r: Response<Granted>)
    ensures UserByEmail(db, email).None? ==> r == Err(401, MsgBadCredentials)
    ensures UserByEmail(db, email).Some? && !checkpw(password, UserByEmail(db, email).value.hash) ==> r == Err(401, MsgBadCredentials)
    ensures r == Err(403, MsgDisabled) <==>
      UserByEmail(db, email).Some? && checkpw(password, UserByEmail(db, email).value.hash) && !UserByEmail(db, email).value.activo
    ensures r.Ok? ==>
      var u := UserByEmail(db, email).value;
      && checkpw(password, u.hash) && u.activo
      && r.body.usuario == Identity(u.id, u.email, u.tipo, u.foto, u.activo, RoleDataOf(db, u))
      && r.body.exp == now + ExpireMinutes
  {
    match UserByEmail(db, email)
    case None => Err(401, MsgBadCredentials)
    case Some(u) =>
      if !checkpw(password, u.hash) then Err(401, MsgBadCredentials)
      else if !u.activo then Err(403, MsgDisabled)
      else Ok(Granted(Identity(u.id, u.email, u.tipo, u.foto, u.activo, RoleDataOf(db, u)), Expiry(now, None)))
  }

  /** The login answer does not depend on how the e-mail's letters are cased. */
  lemma LoginIgnoresCase(db: Db, email1: string, email2: string, password: string, checkpw: (string, string) -> bool, now: int)
    requires EqualsIgnoreCase(email1, email2)
    ensures Login(db, email1, password, checkpw, now) == Login(db, email2, password, checkpw, now)
  {
    FindAgree(db.usuarios, (u: User) => EqualsIgnoreCase(u.email, email1), (u: User) => EqualsIgnoreCase(u.email, email2));
  }

  /** Whether an e-mail is unknown or the password wrong cannot be told from the answer. */
  lemma LoginHidesWhichCredentialFailed(db: Db, email1: string, email2: string, password: string, checkpw: (string, string) -> bool, now: int)
    requires UserByEmail(db, email1).None?
    requires UserByEmail(db, email2).Some? && !checkpw(password, UserByEmail(db, email2).value.hash)
    ensures Login(db, email1, password, checkpw, now) == Login(db, email2, password, checkpw, now)
  {
  }

  /** A player's login payload carries its player row, an organizer's its organizer row. */
  lemma LoginPayloadMatchesRole(db: Db, email: string, password: string, checkpw: (string, string) -> bool, now: int, p: Player)
    requires Login(db, email, password, checkpw, now).Ok?
    requires UserByEmail(db, email).value.tipo == PlayerType
    requires Find(db.jugadores, (q: Player) => q.usuario == UserByEmail(db, email).value.id) == Some(p)
    ensures Login(db, email, password, checkpw, now).body.usuario.extra == PlayerData(p.id, p.nombre, p.apellido, p.telefono, p.direccion)
  {
  }

  /** `get_current_user`: every refusal is 401. `verify_token`'s own detail
      passes through for a bad token. */
  function GetCurrentUser(db: Db, token: Option<string>, verify: string -> Decoded): (r: Response<User>)
    ensures r.Err? ==> r.status == 401
    ensures !Truthy(token) ==> r == Err(401, MsgNoToken)
    ensures Truthy(token) && verify(token.value) == Expired ==> r == Err(401, MsgExpired)
    ensures Truthy(token) && verify(token.value).Valid? && verify(token.value).claims.idUsuario.None? ==> r == Err(401, MsgInvalid)
  {
    if !Truthy(token) then Err(401, MsgNoToken)
    else match verify(token.value)
      case Expired => Err(401, MsgExpired)
      case Invalid => Err(401, MsgInvalid)
      case Valid(claims) =>
        if claims.idUsuario.None? then Err(401, MsgInvalid)
        else match UserById(db, claims.idUsuario)
          case None => Err(401, MsgNoUser)
          case Some(u) => Ok(u)
  }

  /** The query-token check of the authentication router and the header
      dependency accept the same tokens and resolve them to the same user;
      they differ only in the detail of a refusal. */
  lemma CurrentUserAgrees(db: Db, token: Option<string>, verify: string -> Decoded)
    ensures GetCurrentUser(db, token, verify).Ok? <==> CurrentUser(db, token, verify).Ok?
    ensures GetCurrentUser(db, token, verify).Ok? ==>
      GetCurrentUser(db, token, verify).body == CurrentUser(db, token, verify).body.usuario
  {
  }
}

=== FILE: cloudinary.dfy ===
/** The image-host helper of the back end: uploading a profile picture and
    deleting one by URL. Only the public-id extraction is computed here; the
    remote calls are oracles. Python's `str.split` and `str.join` are
    modelled exactly for the separators the helper uses. */
module Cloudinary {
  import opened Common

  const Upload := "/upload/"

  /** `sep` occurs in `s` starting at index `j`. */
  predicate OccursAt(s: string, sep: string, j: int)
  {
    0 <= j && j + |sep| <= |s| && forall k :: 0 <= k < |sep| ==> s[j + k] == sep[k]
  }

  lemma OccursShift(s: string, sep: string, j: int)
    requires s != [] && 0 <= j
    ensures OccursAt(s, sep, j + 1) <==> OccursAt(s[1..], sep, j)
  {
    if j + |sep| < |s| {
      forall m | 1 <= m < |s|
        ensures s[m] == s[1..][m - 1]
      {
      }
    }
  }

  /** The index of the first occurrence of `sep` in `s` (`str.find`). */
  function IndexOf(s: string, sep: string): (r: Option<nat>)
    ensures r.Some? ==> OccursAt(s, sep, r.value)
    ensures r.Some? ==> forall j :: 0 <= j < r.value ==> !OccursAt(s, sep, j)
    ensures r.None? ==> forall j :: !OccursAt(s, sep, j)
    decreases |s|
  {
    if |s| < |sep| then None
    else if OccursAt(s, sep, 0) then Some(0)
    else
      var rest := IndexOf(s[1..], sep);
      assert forall j :: 1 <= j ==> (OccursAt(s, sep, j) <==> OccursAt(s[1..], sep, j - 1)) by {
        forall j | 1 <= j
          ensures OccursAt(s, sep, j) <==> OccursAt(s[1..], sep, j - 1)
        {
          OccursShift(s, sep, j - 1);
        }
      }
      if rest.Some? then Some(rest.value + 1) else None
  }

  /** `sep in s`. */
  predicate Contains(s: string, sep: string)
  {
    IndexOf(s, sep).Some?
  }

  /** A position holding `sep` with no earlier occurrence is the first one. */
  lemma FirstOccurrence(s: string, sep: string, i: nat)
    requires OccursAt(s, sep, i)
    requires forall j :: 0 <= j < i ==> !OccursAt(s, sep, j)
    ensures IndexOf(s, sep) == Some(i)
  {
  }

  /** `s.split(sep)[1]` when `sep in s`: what follows the first occurrence, up
      to the second if there is one. */
  function SecondPart(s: string, sep: string): (r: string)
    requires Contains(s, sep)
  {
    var i := IndexOf(s, sep).value;
    var rest := s[i + |sep|..];
    match IndexOf(rest, sep)
    case None => rest
    case Some(k) => rest[..k]
  }

  // ---------------------------------------------------------------- single-character split

  /** `s.split(c)`. */
  function SplitChar(s: string, c: char): (parts: seq<string>)
    ensures |parts| >= 1
    decreases |s|
  {
    if s == [] then [""] else Cons(s[0], SplitChar(s[1..], c), c)
  }

  /** The parts of `[x] + t` from the parts `r` of `t`: a separator opens a
      new, empty first part; any other character joins the first part. */
  function Cons(x: char, r: seq<string>, c: char): (parts: seq<string>)
    requires |r| >= 1
    ensures |parts| >= 1
  {
    if x == c then [""] + r else [[x] + r[0]] + r[1..]
  }

  /** Consing onto the parts of a concatenation only touches the first parts. */
  lemma ConsAppend(x: char, ra: seq<string>, rb: seq<string>, c: char)
    requires |ra| >= 1
    ensures Cons(x, ra + rb, c) == Cons(x, ra, c) + rb
  {
    if x != c {
      assert (ra + rb)[0] == ra[0];
      assert (ra + rb)[1..] == ra[1..] + rb;
    }
  }

  /** Text without the separator splits into one part, itself. */
  lemma {:induction false} SplitCharNoSep(s: string, c: char)
    requires forall i :: 0 <= i < |s| ==> s[i] != c
    ensures SplitChar(s, c) == [s]
    decreases |s|
  {
    if s != [] {
      assert forall i :: 0 <= i < |s[1..]| ==> s[1..][i] == s[i + 1];
      SplitCharNoSep(s[1..], c);
      assert [s[0]] + s[1..] == s;
    }
  }

  /** `c.join(parts)`. */
  function JoinChar(parts: seq<string>, c: char): string
  {
    if |parts| == 0 then "" else if |parts| == 1 then parts[0] else parts[0] + [c] + JoinChar(parts[1..], c)
  }

  /** Splitting and joining on the same character gives back the text. */
  lemma {:induction false} JoinSplitChar(s: string, c: char)
    ensures JoinChar(SplitChar(s, c), c) == s
    decreases |s|
  {
    if s != [] {
      var rest := SplitChar(s[1..], c);
      JoinSplitChar(s[1..], c);
      if s[0] == c {
        assert SplitChar(s, c)[1..] == rest;
      } else {
        var parts := [[s[0]] + rest[0]] + rest[1..];
        if |rest| > 1 {
          assert parts[1..] == rest[1..];
          assert JoinChar(rest, c) == rest[0] + [c] + JoinChar(rest[1..], c);
        }
      }
    }
  }

  /** A separator at index `k` splits the text into the parts before and after it. */
  lemma {:induction false} SplitCharAt(s: string, k: nat, c: char)
    requires k < |s| && s[k] == c
    ensures SplitChar(s, c) == SplitChar(s[..k], c) + SplitChar(s[k + 1..], c)
    decreases k
  {
    if k == 0 {
      assert s[..0] == [];
    } else {
      SplitCharAt(s[1..], k - 1, c);
      assert s[1..][..k - 1] == s[1..k];
      assert s[1..][k..] == s[k + 1..];
      SplitCharAtStep(s, k, c);
    }
  }

  /** The inductive step of `SplitCharAt`: the first character joins or
      closes the first part on both sides alike. */
  lemma SplitCharAtStep(s: string, k: nat, c: char)
    requires 0 < k < |s|
    requires SplitChar(s[1..], c) == SplitChar(s[1..k], c) + SplitChar(s[k + 1..], c)
    ensures SplitChar(s, c) == SplitChar(s[..k], c) + SplitChar(s[k + 1..], c)
  {
    assert s[..k][1..] == s[1..k];
    assert SplitChar(s[..k], c) == Cons(s[0], SplitChar(s[1..k], c), c);
    ConsAppend(s[0], SplitChar(s[1..k], c), SplitChar(s[k + 1..], c), c);
  }

  /** A separator between two texts splits them apart. */
  lemma SplitCharAround(a: string, c: char, b: string)
    ensures SplitChar(a + [c] + b, c) == SplitChar(a, c) + SplitChar(b, c)
  {
    var s := a + [c] + b;
    SplitCharAt(s, |a|, c);
    assert s[..|a|] == a;
    assert s[|a| + 1..] == b;
  }

  // ---------------------------------------------------------------- public id

  /** The public id inside the path that follows `/upload/`: without its first
      `/`-segment when the path starts with `v` (taken as the version), and
      without its last `.`-suffix (the extension). */
  function PathId(path: string): string
  {
    var path := if StartsWith(path, "v") then JoinChar(SplitChar(path, '/')[1..], '/') else path;
    var pieces := SplitChar(path, '.');
    JoinChar(pieces[..|pieces| - 1], '.')
  }

  /** The steps of `delete_profile_image` that turn a URL into a public id.
      `None` is the early `False` for an empty URL or one without `/upload/`;
      the path is `url.split('/upload/')[1]`. */
  function PublicId(url: string): (r: Option<string>)
    ensures r.None? <==> url == "" || !Contains(url, Upload)
    ensures r.Some? ==> r.value == PathId(SecondPart(url, Upload))
  {
    if url == "" || !Contains(url, Upload) then None
    else Some(PathId(SecondPart(url, Upload)))
  }

  /** For a URL whose first `/upload/` ends `prefix` and which has no second
      one, the path is everything after it. */
  lemma AfterUpload(prefix: string, path: string)
    requires !Contains(prefix + Upload[..|Upload| - 1], Upload)
    requires !Contains(path, Upload)
    ensures Contains(prefix + Upload + path, Upload)
    ensures SecondPart(prefix + Upload + path, Upload) == path
  {
    var s := prefix + Upload + path;
    var t := prefix + Upload[..|Upload| - 1];
    assert OccursAt(s, Upload, |prefix|);
    forall j | 0 <= j < |prefix|
      ensures !OccursAt(s, Upload, j)
    {
      assert !OccursAt(t, Upload, j);
    }
    FirstOccurrence(s, Upload, |prefix|);
    assert s[|prefix| + |Upload|..] == path;
  }

  /** Dropping the version segment `v<ver>/`. */
  lemma StripVersion(ver: string, tail: string)
    requires forall i :: 0 <= i < |ver| ==> ver[i] != '/'
    ensures JoinChar(SplitChar("v" + ver + "/" + tail, '/')[1..], '/') == tail
  {
    var head := "v" + ver;
    assert forall i :: 0 <= i < |head| ==> head[i] != '/' by {
      forall i | 0 <= i < |head| ensures head[i] != '/' {
        if i > 0 { assert head[i] == ver[i - 1]; }
      }
    }
    assert "v" + ver + "/" + tail == head + ['/'] + tail;
    SplitCharAround(head, '/', tail);
    SplitCharNoSep(head, '/');
    assert SplitChar(head + ['/'] + tail, '/')[1..] == SplitChar(tail, '/');
    JoinSplitChar(tail, '/');
  }

  /** Dropping the extension `.<ext>`. */
  lemma DropExtension(id: string, ext: string)
    requires forall i :: 0 <= i < |ext| ==> ext[i] != '.'
    ensures var p := SplitChar(id + "." + ext, '.'); JoinChar(p[..|p| - 1], '.') == id
  {
    assert id + "." + ext == id + ['.'] + ext;
    SplitCharAround(id, '.', ext);
    SplitCharNoSep(ext, '.');
    var p := SplitChar(id + "." + ext, '.');
    assert p[..|p| - 1] == SplitChar(id, '.');
    JoinSplitChar(id, '.');
  }

  /** `<prefix>/upload/v<ver>/<id>.<ext>` yields `<id>` when the version has
      no `/`, the extension no `.`, and `/upload/` occurs only once. */
  lemma VersionedUrl(prefix: string, ver: string, id: string, ext: string)
    requires !Contains(prefix + Upload[..|Upload| - 1], Upload)
    requires !Contains("v" + ver + "/" + id + "." + ext, Upload)
    requires forall i :: 0 <= i < |ver| ==> ver[i] != '/'
    requires forall i :: 0 <= i < |ext| ==> ext[i] != '.'
    ensures PublicId(prefix + Upload + ("v" + ver + "/" + id + "." + ext)) == Some(id)
  {
    var path := "v" + ver + "/" + (id + "." + ext);
    assert path == "v" + ver + "/" + id + "." + ext;
    AfterUpload(prefix, path);
    assert StartsWith(path, "v");
    StripVersion(ver, id + "." + ext);
    DropExtension(id, ext);
  }

  /** Any path starting with `v` loses its first segment, version or not: a
      file named like `vacation.jpg` right after `/upload/`, with no folder,
      yields the empty id. */
  lemma LeadingVNotVersion(path: string)
    requires StartsWith(path, "v")
    requires forall i :: 0 <= i < |path| ==> path[i] != '/'
    ensures PathId(path) == ""
  {
    SplitCharNoSep(path, '/');
    assert SplitChar("", '.') == [""];
  }

  /** A path with no `.` and no leading `v` gives the empty id. */
  lemma NoExtensionEmptyId(path: string)
    requires !StartsWith(path, "v")
    requires forall i :: 0 <= i < |path| ==> path[i] != '.'
    ensures PathId(path) == ""
  {
    SplitCharNoSep(path, '.');
  }

  // ---------------------------------------------------------------- remote calls

  /** What `cloudinary.uploader.destroy` does: answers a `result` text, or raises. */
  datatype DestroyOutcome = Answered(result: string) | Raised

  /** `delete_profile_image`: `True` only when the host answers "ok". */
  function DeleteImage(url: string, destroy: string -> DestroyOutcome): (ok: bool)
    ensures ok <==> PublicId(url).Some? && destroy(PublicId(url).value) == Answered("ok")
    ensures url == "" || !Contains(url, Upload) ==> !ok
  {
    match PublicId(url)
    case None => false
    case Some(id) => destroy(id) == Answered("ok")
  }

  /** What `cloudinary.uploader.upload` does: a `secure_url` (possibly
      missing), or an exception. */
  datatype UploadOutcome = Uploaded(secureUrl: Option<string>) | UploadRaised(message: string)

  datatype UploadResult = Url(url: Option<string>) | Http(status: int)

  /** `upload_profile_image`: every failure, the missing configuration
      included, surfaces as 400. */
  function UploadImage(configured: bool, upload: UploadOutcome): (r: UploadResult)
    ensures r.Url? <==> configured && upload.Uploaded?
    ensures r.Url? ==> r.url == upload.secureUrl
    ensures r.Http? ==> r.status == 400
  {
    if !configured then Http(400)
    else match upload
      case Uploaded(u) => Url(u)
      case UploadRaised(_) => Http(400)
  }
}

=== FILE: common.dfy ===
/** Shared vocabulary: optional values, ASCII character classes and the
    handful of string operations the front end and the back end both use. */
module Common {

  /** `null`/`undefined` in JavaScript, `None` in Python. */
  datatype Option<+T> = None | Some(value: T)
  {
    function GetOr(default: T): T
    {
      match this
      case Some(v) => v
      case None => default
    }
  }

  /** JavaScript truthiness of an optional string: `null`, `undefined` and `""` are falsy. */
  predicate Truthy(o: Option<string>)
  {
    o.Some? && o.value != ""
  }

  /** `a || b` on optional strings. */
  function OrElse(a: Option<string>, b: Option<string>): (r: Option<string>)
    ensures Truthy(a) ==> r == a
    ensures !Truthy(a) ==> r == b
  {
    if Truthy(a) then a else b
  }

  /** `a || b || fallback`, the error-text idiom of the pages. */
  function FirstTruthy(a: Option<string>, b: Option<string>, fallback: string): (r: string)
    ensures Truthy(a) ==> r == a.value
    ensures !Truthy(a) && Truthy(b) ==> r == b.value
    ensures !Truthy(a) && !Truthy(b) ==> r == fallback
  {
    if Truthy(a) then a.value else if Truthy(b) then b.value else fallback
  }

  // ---------------------------------------------------------------- digits

  /** The class `\d` of JavaScript regular expressions, restricted to ASCII. */
  predicate IsDigit(c: char)
  {
    '0' <= c <= '9'
  }

  predicate AllDigits(s: string)
  {
    forall i :: 0 <= i < |s| ==> IsDigit(s[i])
  }

  /** `s.replace(/\D/g, '')`: the digits of `s`, in order. */
  function DigitsOnly(s: string): (r: string)
    ensures AllDigits(r)
    ensures |r| <= |s|
    ensures AllDigits(s) ==> r == s
  {
    if s == [] then []
    else (if IsDigit(s[0]) then [s[0]] else []) + DigitsOnly(s[1..])
  }

  /** Filtering digits distributes over concatenation, so it keeps relative order. */
  lemma {:induction false} DigitsOnlyConcat(a: string, b: string)
    ensures DigitsOnly(a + b) == DigitsOnly(a) + DigitsOnly(b)
    decreases |a|
  {
    if a == [] {
      assert a + b == b;
    } else {
      assert (a + b)[0] == a[0];
      assert (a + b)[1..] == a[1..] + b;
      DigitsOnlyConcat(a[1..], b);
    }
  }

  /** Removing non-digits twice is removing them once. */
  lemma DigitsOnlyIdempotent(s: string)
    ensures DigitsOnly(DigitsOnly(s)) == DigitsOnly(s)
  {
  }

  function DigitValue(c: char): (d: nat)
    requires IsDigit(c)
    ensures d <= 9
  {
    c as int - '0' as int
  }

  /** Decimal value of a string of digits (`parseInt` on such a string). */
  function ParseDigits(s: string): (n: nat)
    requires AllDigits(s)
  {
    if s == [] then 0 else ParseDigits(s[..|s| - 1]) * 10 + DigitValue(s[|s| - 1])
  }

  /** The longest prefix of `s` made of digits. */
  function LeadingDigits(s: string): (r: string)
    ensures AllDigits(r) && |r| <= |s| && r == s[..|r|]
    ensures |r| < |s| ==> !IsDigit(s[|r|])
    ensures AllDigits(s) ==> r == s
  {
    if s == [] || !IsDigit(s[0]) then [] else [s[0]] + LeadingDigits(s[1..])
  }

  /** `parseInt(s)` for texts without sign or leading blanks: `None` is NaN. */
  function ParseInt(s: string): (r: Option<nat>)
    ensures r.None? <==> s == [] || !IsDigit(s[0])
    ensures AllDigits(s) && s != [] ==> r == Some(ParseDigits(s))
  {
    var d := LeadingDigits(s);
    if d == [] then None else Some(ParseDigits(d))
  }

  function DigitChar(d: nat): (c: char)
    requires d <= 9
    ensures IsDigit(c) && DigitValue(c) == d
  {
    ('0' as int + d) as char
  }

  /** `n.toString()` in JavaScript, `str(n)` in Python, for a natural number. */
  function NatText(n: nat): (s: string)
    ensures AllDigits(s) && s != []
    decreases n
  {
    if n < 10 then [DigitChar(n)] else NatText(n / 10) + [DigitChar(n % 10)]
  }

  /** Printing a number and parsing it back yields the number: an id put in a
      `<select>` value comes back unchanged through `parseInt`. */
  lemma {:induction false} NatTextRoundTrip(n: nat)
    ensures ParseDigits(NatText(n)) == n
    ensures ParseInt(NatText(n)) == Some(n)
    decreases n
  {
    var s := NatText(n);
    if n >= 10 {
      NatTextRoundTrip(n / 10);
      assert s[..|s| - 1] == NatText(n / 10);
    }
  }

  // ---------------------------------------------------------------- letters

  predicate IsLower(c: char) { 'a' <= c <= 'z' }
  predicate IsUpper(c: char) { 'A' <= c <= 'Z' }

  /** Python's `str.isalpha` for one character, restricted to ASCII. */
  predicate IsLetter(c: char) { IsLower(c) || IsUpper(c) }

  /** `toUpperCase` for one character, restricted to ASCII. */
  function UpperChar(c: char): (u: char)
    ensures !IsLower(u)
    ensures !IsLower(c) ==> u == c
    ensures IsLower(c) ==> IsUpper(u)
  {
    if IsLower(c) then (c as int - 32) as char else c
  }

  /** Case folding used for case-insensitive equality, restricted to ASCII. */
  function LowerChar(c: char): (l: char)
    ensures !IsUpper(l)
    ensures !IsUpper(c) ==> l == c
  {
    if IsUpper(c) then (c as int + 32) as char else c
  }

  function Upper(s: string): (r: string)
    ensures |r| == |s|
    ensures forall i :: 0 <= i < |s| ==> r[i] == UpperChar(s[i])
  {
    seq(|s|, i requires 0 <= i < |s| => UpperChar(s[i]))
  }

  /** Upper-casing twice changes nothing more. */
  lemma UpperIdempotent(s: string)
    ensures Upper(Upper(s)) == Upper(s)
  {
    forall i | 0 <= i < |s|
      ensures Upper(Upper(s))[i] == Upper(s)[i]
    {
      assert !IsLower(Upper(s)[i]);
    }
  }

  function Lower(s: string): (r: string)
    ensures |r| == |s|
    ensures forall i :: 0 <= i < |s| ==> r[i] == LowerChar(s[i])
  {
    seq(|s|, i requires 0 <= i < |s| => LowerChar(s[i]))
  }

  /** SQL `ilike` without wildcards: equality up to ASCII case. */
  predicate EqualsIgnoreCase(a: string, b: string)
  {
    Lower(a) == Lower(b)
  }

  predicate StartsWith(s: string, prefix: string)
  {
    |prefix| <= |s| && s[..|prefix|] == prefix
  }
}

=== FILE: enrolments.dfy ===
/** The player's enrolment routes: enrol (which also records the payment),
    list one's enrolments, and cancel. The caller's token claims come from
    the player dependency. Every enrolment links exactly one offering and
    owns exactly one payment; the routes keep a player from holding two links
    to the same offering. */
module Enrolments {
  import opened Common
  import opened Listing
  import opened Store
  import opened Security

  /** A validated `InscripcionCreate`. */
  datatype Request = Request(oferta: int, medio: PayMethod)

  /** The enrolment answer; `inscritos` is the offering's link count after the insert. */
  datatype Receipt = Receipt(inscripcion: nat, jugador: int, oferta: int, estado: PayStatus, monto: int, medio: PayMethod, inscritos: nat)

  /** One row of a player's enrolment listing. */
  datatype Row = Row(inscripcion: int, oferta: int, fecha: int, costo: int, estado: string, medio: string)

  const MsgNoEnrolOther := "No tienes permiso para inscribir este jugador"
  const MsgPlayerNotFound := "Jugador no encontrado"
  const MsgInstanceNotFound := "Instancia de torneo no encontrada"
  const MsgAlready := "Ya estás inscrito en este torneo"
  const MsgNoView := "No tienes permiso para ver estas inscripciones"
  const MsgEnrolmentNotFound := "Inscripción no encontrada"
  const MsgNoCancel := "No tienes permiso para cancelar esta inscripción"
  const MsgCancelled := "Inscripción cancelada"
  const MsgBroken := "Internal Server Error"

  /** The rows `inscribir_jugador` adds: enrolment, payment and link, with consecutive fresh ids. */
  function Added(db: Db, jugador: int, req: Request, costo: int): Db
  {
    db.(
      inscripciones := db.inscripciones + [Enrolment(db.next, jugador, Some(db.next + 1))],
      pagos := db.pagos + [Payment(db.next + 1, req.medio, Paid, costo)],
      enlaces := db.enlaces + [Link(db.next + 2, db.next, req.oferta)],
      next := db.next + 3)
  }

  /** `inscribir_jugador`: 403, 404 player, 404 offering, 409 duplicate, in that order. */
  function Enrol(db: Db, claims: Claims, jugador: int, req: Request): (s: Step<Receipt>)
    ensures claims.idJugador != Some(jugador) ==> s == Fail(db, 403, MsgNoEnrolOther)
    ensures claims.idJugador == Some(jugador) && PlayerById(db, jugador).None? ==> s == Fail(db, 404, MsgPlayerNotFound)
    ensures (claims.idJugador == Some(jugador) && PlayerById(db, jugador).Some?
      && OfferingById(db, req.oferta).None?) ==> s == Fail(db, 404, MsgInstanceNotFound)
    ensures (claims.idJugador == Some(jugador) && PlayerById(db, jugador).Some? && OfferingById(db, req.oferta).Some?
      && LinkFor(db, jugador, req.oferta).Some?) ==> s == Fail(db, 409, MsgAlready)
    ensures s.response.Ok? <==>
      && claims.idJugador == Some(jugador)
      && PlayerById(db, jugador).Some?
      && OfferingById(db, req.oferta).Some?
      && LinkFor(db, jugador, req.oferta).None?
    ensures s.response.Ok? ==>
      var o := OfferingById(db, req.oferta).value;
      && |s.db.inscripciones| == |db.inscripciones| + 1
      && |s.db.pagos| == |db.pagos| + 1
      && |s.db.enlaces| == |db.enlaces| + 1
      && s.db.inscripciones[|db.inscripciones|] == Enrolment(db.next, jugador, Some(db.next + 1))
      && s.db.pagos[|db.pagos|] == Payment(db.next + 1, req.medio, Paid, o.costo)
      && s.db.enlaces[|db.enlaces|] == Link(db.next + 2, db.next, req.oferta)
      && s.db.inscripciones[..|db.inscripciones|] == db.inscripciones
      && s.db.pagos[..|db.pagos|] == db.pagos
      && s.db.enlaces[..|db.enlaces|] == db.enlaces
      && s.db.(inscripciones := db.inscripciones, pagos := db.pagos, enlaces := db.enlaces, next := db.next) == db
      && s.response.body.estado == Paid && s.response.body.monto == o.costo
      && s.response.body.inscritos == LinkCount(db, req.oferta) + 1
  {
    if claims.idJugador != Some(jugador) then Fail(db, 403, MsgNoEnrolOther)
    else if PlayerById(db, jugador).None? then Fail(db, 404, MsgPlayerNotFound)
    else match OfferingById(db, req.oferta)
      case None => Fail(db, 404, MsgInstanceNotFound)
      case Some(o) =>
        if LinkFor(db, jugador, req.oferta).Some? then Fail(db, 409, MsgAlready)
        else
          var d := Added(db, jugador, req, o.costo);
          var link := Link(db.next + 2, db.next, req.oferta);
          KeepConcat(db.enlaces, [link], (l: Link) => l.oferta == req.oferta);
          Step(Ok(Receipt(db.next, jugador, req.oferta, Paid, o.costo, req.medio, LinkCount(d, req.oferta))), d)
  }

  /** Adding an enrolment row does not change whose an existing enrolment is. */
  lemma PlayerOfAfterAppend(db: Db, d: Db, e: Enrolment, x: int)
    requires d.inscripciones == db.inscripciones + [e]
    requires EnrolmentById(db, x).Some?
    ensures PlayerOf(d, x) == PlayerOf(db, x) && EnrolmentById(d, x).Some?
  {
    FindAppend(db.inscripciones, e, (en: Enrolment) => en.id == x);
  }

  /** Enrolment keeps the invariant; in particular it never creates a second
      link for the same player and offering. */
  lemma EnrolPreservesInv(db: Db, claims: Claims, jugador: int, req: Request)
    requires Inv(db)
    ensures Inv(Enrol(db, claims, jugador, req).db)
  {
    var s := Enrol(db, claims, jugador, req);
    if s.response.Ok? {
      var o := OfferingById(db, req.oferta).value;
      assert s.db == Added(db, jugador, req, o.costo);
      AddedKeyed(db, jugador, req, o.costo);
      AddedResolves(db, jugador, req, o.costo);
      AddedOneLink(db, jugador, req, o.costo);
    }
  }

  lemma AddedKeyed(db: Db, jugador: int, req: Request, costo: int)
    requires Inv(db)
    ensures var d := Added(db, jugador, req, costo);
      && Keyed(d.inscripciones, (e: Enrolment) => e.id, d.next)
      && Keyed(d.ofertas, (o: Offering) => o.id, d.next)
      && Keyed(d.enlaces, (l: Link) => l.id, d.next)
  {
    var e := Enrolment(db.next, jugador, Some(db.next + 1));
    var link := Link(db.next + 2, db.next, req.oferta);
    AppendKeyed(db.inscripciones, e, (x: Enrolment) => x.id, db.next);
    AppendKeyed(db.enlaces, link, (x: Link) => x.id, db.next + 2);
  }

  lemma AddedResolves(db: Db, jugador: int, req: Request, costo: int)
    requires Inv(db) && OfferingById(db, req.oferta).Some?
    ensures LinksResolve(Added(db, jugador, req, costo))
  {
    var d := Added(db, jugador, req, costo);
    var e := Enrolment(db.next, jugador, Some(db.next + 1));
    NewEnrolmentFound(db, jugador, req, costo);
    GrownResolves(db, d, e, Link(db.next + 2, db.next, req.oferta));
  }

  /** Appending an enrolment and a link that resolves keeps every link resolvable. */
  lemma GrownResolves(db: Db, d: Db, e: Enrolment, link: Link)
    requires LinksResolve(db)
    requires d.inscripciones == db.inscripciones + [e] && d.enlaces == db.enlaces + [link] && d.ofertas == db.ofertas
    requires EnrolmentById(d, link.inscripcion).Some? && OfferingById(db, link.oferta).Some?
    ensures LinksResolve(d)
  {
    forall i | 0 <= i < |d.enlaces|
      ensures EnrolmentById(d, d.enlaces[i].inscripcion).Some? && OfferingById(d, d.enlaces[i].oferta).Some?
    {
      if i < |db.enlaces| {
        assert d.enlaces[i] == db.enlaces[i];
        PlayerOfAfterAppend(db, d, e, db.enlaces[i].inscripcion);
      } else {
        assert d.enlaces[i] == link;
      }
    }
  }

  lemma AddedOneLink(db: Db, jugador: int, req: Request, costo: int)
    requires LinksResolve(db) && OneLinkPerPair(db) && LinkFor(db, jugador, req.oferta).None?
    requires Below(db.inscripciones, (x: Enrolment) => x.id, db.next)
    ensures OneLinkPerPair(Added(db, jugador, req, costo))
  {
    var d := Added(db, jugador, req, costo);
    var e := Enrolment(db.next, jugador, Some(db.next + 1));
    var link := Link(db.next + 2, db.next, req.oferta);
    NewEnrolmentFound(db, jugador, req, costo);
    assert PlayerOf(d, link.inscripcion) == Some(jugador);
    GrownOneLink(db, d, e, link, jugador, req.oferta);
  }

  /** Appending a link for a pair the 409 query found free keeps one link per pair. */
  lemma GrownOneLink(db: Db, d: Db, e: Enrolment, link: Link, jugador: int, oferta: int)
    requires LinksResolve(db) && OneLinkPerPair(db) && LinkFor(db, jugador, oferta).None?
    requires d.inscripciones == db.inscripciones + [e] && d.enlaces == db.enlaces + [link]
    requires link.oferta == oferta && PlayerOf(d, link.inscripcion) == Some(jugador)
    ensures OneLinkPerPair(d)
  {
    forall l1, l2 | (l1 in d.enlaces && l2 in d.enlaces && l1.oferta == l2.oferta
        && PlayerOf(d, l1.inscripcion) == PlayerOf(d, l2.inscripcion))
      ensures l1 == l2
    {
      AddedPair(db, d, e, link, jugador, oferta, l1, l2);
    }
  }

  /** The new enrolment is found under its fresh id. */
  lemma NewEnrolmentFound(db: Db, jugador: int, req: Request, costo: int)
    requires Below(db.inscripciones, (x: Enrolment) => x.id, db.next)
    ensures EnrolmentById(Added(db, jugador, req, costo), db.next) == Some(Enrolment(db.next, jugador, Some(db.next + 1)))
  {
    var e := Enrolment(db.next, jugador, Some(db.next + 1));
    FreshAbsent(db.inscripciones, (x: Enrolment) => x.id, db.next);
    FindAppend(db.inscripciones, e, (en: Enrolment) => en.id == db.next);
  }

  /** One pair of links of the grown store: equal when they share player and offering. */
  lemma AddedPair(db: Db, d: Db, e: Enrolment, link: Link, jugador: int, oferta: int, l1: Link, l2: Link)
    requires LinksResolve(db) && OneLinkPerPair(db) && LinkFor(db, jugador, oferta).None?
    requires d.inscripciones == db.inscripciones + [e] && d.enlaces == db.enlaces + [link]
    requires link.oferta == oferta && PlayerOf(d, link.inscripcion) == Some(jugador)
    requires l1 in d.enlaces && l2 in d.enlaces && l1.oferta == l2.oferta
    requires PlayerOf(d, l1.inscripcion) == PlayerOf(d, l2.inscripcion)
    ensures l1 == l2
  {
    if l1 != link && l2 != link {
      OldLinkKeepsPlayer(db, d, e, link, l1);
      OldLinkKeepsPlayer(db, d, e, link, l2);
    } else if l1 != link {
      OldLinkKeepsPlayer(db, d, e, link, l1);
      NoOtherLink(db, jugador, oferta, l1);
    } else if l2 != link {
      OldLinkKeepsPlayer(db, d, e, link, l2);
      NoOtherLink(db, jugador, oferta, l2);
    }
  }

  /** A link already in the store keeps its player after the enrolment rows are added. */
  lemma OldLinkKeepsPlayer(db: Db, d: Db, e: Enrolment, link: Link, l: Link)
    requires LinksResolve(db)
    requires d.inscripciones == db.inscripciones + [e] && d.enlaces == db.enlaces + [link]
    requires l in d.enlaces && l != link
    ensures l in db.enlaces && PlayerOf(d, l.inscripcion) == PlayerOf(db, l.inscripcion)
  {
    var i :| 0 <= i < |d.enlaces| && d.enlaces[i] == l;
    assert i < |db.enlaces| && db.enlaces[i] == l;
    PlayerOfAfterAppend(db, d, e, l.inscripcion);
  }

  /** With the 409 query empty, no existing link joins the player to the offering. */
  lemma NoOtherLink(db: Db, jugador: int, oferta: int, l: Link)
    requires LinkFor(db, jugador, oferta).None? && l in db.enlaces && l.oferta == oferta
    ensures PlayerOf(db, l.inscripcion) != Some(jugador)
  {
    var i :| 0 <= i < |db.enlaces| && db.enlaces[i] == l;
  }

  // ---------------------------------------------------------------- list

  /** The links of one enrolment. */
  function LinksOfEnrolment(db: Db, inscripcion: int): seq<Link>
  {
    Keep(db.enlaces, (l: Link) => l.inscripcion == inscripcion)
  }

  /** The rows of one enrolment, one per link; `None` when a link's offering is missing. */
  function LinkRows(db: Db, e: Enrolment, links: seq<Link>): (r: Option<seq<Row>>)
    ensures r.Some? ==> |r.value| == |links|
    ensures r.Some? ==> forall i :: 0 <= i < |r.value| ==> r.value[i].inscripcion == e.id && r.value[i].oferta == links[i].oferta
    decreases |links|
  {
    if links == [] then Some([])
    else
      var rest := LinkRows(db, e, links[1..]);
      match OfferingById(db, links[0].oferta)
      case None => None
      case Some(o) =>
        if rest.None? then None
        else
          var pago := PaymentOf(db, e);
          var row := match pago
            case None => Row(e.id, o.id, o.fecha, o.costo, "Sin pago", "N/A")
            case Some(g) => Row(e.id, o.id, o.fecha, o.costo, StatusText(g.estado), MethodText(g.medio));
          Some([row] + rest.value)
  }

  /** Some row names the enrolment and the offering. */
  predicate Lists(rows: seq<Row>, inscripcion: int, oferta: int)
  {
    exists k :: 0 <= k < |rows| && rows[k].inscripcion == inscripcion && rows[k].oferta == oferta
  }

  /** One of the enrolments carries the id. */
  predicate HasId(es: seq<Enrolment>, id: int)
  {
    exists e :: e in es && e.id == id
  }

  /** A link joins the enrolment to the offering. */
  predicate Linked(db: Db, inscripcion: int, oferta: int)
  {
    exists l :: l in db.enlaces && l.inscripcion == inscripcion && l.oferta == oferta
  }

  /** The rows of the given enrolments, in order: each names one of the
      enrolments and an offering a link joins it to, and every link of every
      enrolment has its row. */
  function EnrolmentRows(db: Db, es: seq<Enrolment>): (r: Option<seq<Row>>)
    ensures r.Some? ==> |r.value| == SumBy(es, (e: Enrolment) => |LinksOfEnrolment(db, e.id)|)
    ensures r.Some? ==> forall k :: 0 <= k < |r.value| ==>
      HasId(es, r.value[k].inscripcion) && Linked(db, r.value[k].inscripcion, r.value[k].oferta)
    ensures r.Some? ==> forall e, l :: e in es && l in db.enlaces && l.inscripcion == e.id ==> Lists(r.value, e.id, l.oferta)
    decreases |es|
  {
    if es == [] then Some([])
    else
      var head := LinkRows(db, es[0], LinksOfEnrolment(db, es[0].id));
      var rest := EnrolmentRows(db, es[1..]);
      if head.None? || rest.None? then None
      else
        LinkRowsCover(db, es[0], head.value);
        RowsJoined(db, es, head.value, rest.value);
        Some(head.value + rest.value)
  }

  /** The rows of one enrolment name it and its linked offerings, and every
      link of the enrolment has its row. */
  lemma LinkRowsCover(db: Db, e: Enrolment, rows: seq<Row>)
    requires LinkRows(db, e, LinksOfEnrolment(db, e.id)) == Some(rows)
    ensures forall k :: 0 <= k < |rows| ==> rows[k].inscripcion == e.id && Linked(db, e.id, rows[k].oferta)
    ensures forall l :: l in db.enlaces && l.inscripcion == e.id ==> Lists(rows, e.id, l.oferta)
  {
    var links := LinksOfEnrolment(db, e.id);
    forall k | 0 <= k < |rows|
      ensures Linked(db, e.id, rows[k].oferta)
    {
      assert links[k] in db.enlaces && links[k].inscripcion == e.id;
    }
    forall l | l in db.enlaces && l.inscripcion == e.id
      ensures Lists(rows, e.id, l.oferta)
    {
      var i :| 0 <= i < |db.enlaces| && db.enlaces[i] == l;
      assert l in links;
      var k :| 0 <= k < |links| && links[k] == l;
      assert rows[k].inscripcion == e.id && rows[k].oferta == l.oferta;
    }
  }

  /** The first enrolment's rows followed by the rest's keep both facts for the whole list. */
  lemma RowsJoined(db: Db, es: seq<Enrolment>, head: seq<Row>, rest: seq<Row>)
    requires es != []
    requires forall k :: 0 <= k < |head| ==> head[k].inscripcion == es[0].id && Linked(db, es[0].id, head[k].oferta)
    requires forall l :: l in db.enlaces && l.inscripcion == es[0].id ==> Lists(head, es[0].id, l.oferta)
    requires forall k :: 0 <= k < |rest| ==> HasId(es[1..], rest[k].inscripcion) && Linked(db, rest[k].inscripcion, rest[k].oferta)
    requires forall e, l :: e in es[1..] && l in db.enlaces && l.inscripcion == e.id ==> Lists(rest, e.id, l.oferta)
    ensures forall k :: 0 <= k < |head + rest| ==>
      HasId(es, (head + rest)[k].inscripcion) && Linked(db, (head + rest)[k].inscripcion, (head + rest)[k].oferta)
    ensures forall e, l :: e in es && l in db.enlaces && l.inscripcion == e.id ==> Lists(head + rest, e.id, l.oferta)
  {
    var rows := head + rest;
    forall k | 0 <= k < |rows|
      ensures HasId(es, rows[k].inscripcion) && Linked(db, rows[k].inscripcion, rows[k].oferta)
    {
      if k < |head| {
        assert rows[k] == head[k] && es[0] in es;
        assert Linked(db, rows[k].inscripcion, rows[k].oferta);
      } else {
        assert rows[k] == rest[k - |head|];
        assert HasId(es[1..], rest[k - |head|].inscripcion);
        var e :| e in es[1..] && e.id == rest[k - |head|].inscripcion;
        assert e in es;
        assert Linked(db, rows[k].inscripcion, rows[k].oferta);
      }
    }
    forall e, l | e in es && l in db.enlaces && l.inscripcion == e.id
      ensures Lists(rows, e.id, l.oferta)
    {
      if e == es[0] {
        var k :| 0 <= k < |head| && head[k].inscripcion == e.id && head[k].oferta == l.oferta;
        assert rows[k] == head[k];
      } else {
        var j :| 0 <= j < |es| && es[j] == e;
        assert e in es[1..] by { assert es[1..][j - 1] == e; }
        var k :| 0 <= k < |rest| && rest[k].inscripcion == e.id && rest[k].oferta == l.oferta;
        assert rows[|head| + k] == rest[k];
      }
    }
  }

  /** `listar_inscripciones_jugador`: 403 unless self, 404 for an unknown
      player, then one row per link of each of the player's enrolments. */
  function ListFor(db: Db, claims: Claims, jugador: int): (r: Response<seq<Row>>)
    ensures claims.idJugador != Some(jugador) ==> r == Err(403, MsgNoView)
    ensures claims.idJugador == Some(jugador) && PlayerById(db, jugador).None? ==> r == Err(404, MsgPlayerNotFound)
    ensures r.Ok? ==>
      var mine := Keep(db.inscripciones, (e: Enrolment) => e.jugador == jugador);
      |r.body| == SumBy(mine, (e: Enrolment) => |LinksOfEnrolment(db, e.id)|)
    ensures r.Ok? ==> forall k :: 0 <= k < |r.body| ==>
      (exists e :: e in db.inscripciones && e.jugador == jugador && e.id == r.body[k].inscripcion)
      && Linked(db, r.body[k].inscripcion, r.body[k].oferta)
    ensures r.Ok? ==> forall e, l :: e in db.inscripciones && e.jugador == jugador && l in db.enlaces && l.inscripcion == e.id ==>
      Lists(r.body, e.id, l.oferta)
  {
    if claims.idJugador != Some(jugador) then Err(403, MsgNoView)
    else if PlayerById(db, jugador).None? then Err(404, MsgPlayerNotFound)
    else match EnrolmentRows(db, Keep(db.inscripciones, (e: Enrolment) => e.jugador == jugador))
      case None => Err(500, MsgBroken)
      case Some(rows) => Ok(rows)
  }

  /** Links whose offerings all exist always yield their rows. */
  lemma {:induction false} LinkRowsBuilt(db: Db, e: Enrolment, links: seq<Link>)
    requires forall i :: 0 <= i < |links| ==> OfferingById(db, links[i].oferta).Some?
    ensures LinkRows(db, e, links).Some?
    decreases |links|
  {
    if links != [] {
      assert OfferingById(db, links[0].oferta).Some?;
      LinkRowsBuilt(db, e, links[1..]);
    }
  }

  /** When every link resolves, the rows of any enrolments are built. */
  lemma {:induction false} EnrolmentRowsBuilt(db: Db, es: seq<Enrolment>)
    requires LinksResolve(db)
    ensures EnrolmentRows(db, es).Some?
    decreases |es|
  {
    if es != [] {
      var ls := LinksOfEnrolment(db, es[0].id);
      forall i | 0 <= i < |ls|
        ensures OfferingById(db, ls[i].oferta).Some?
      {
        assert ls[i] in ls;
        var j :| 0 <= j < |db.enlaces| && db.enlaces[j] == ls[i];
      }
      LinkRowsBuilt(db, es[0], ls);
      EnrolmentRowsBuilt(db, es[1..]);
    }
  }

  /** On a store that keeps its invariant the listing fails only at its two
      gates: it answers exactly when the caller is the player and the player exists. */
  lemma ListForOkIff(db: Db, claims: Claims, jugador: int)
    requires Inv(db)
    ensures ListFor(db, claims, jugador).Ok? <==>
      claims.idJugador == Some(jugador) && PlayerById(db, jugador).Some?
  {
    EnrolmentRowsBuilt(db, Keep(db.inscripciones, (e: Enrolment) => e.jugador == jugador));
  }

  // ---------------------------------------------------------------- cancel

  /** `cancelar_inscripcion`: 404, then 403 unless the caller is the enrolled
      player; otherwise the enrolment's links, its payment and the enrolment
      itself are deleted. */
  function Cancel(db: Db, claims: Claims, id: int): (s: Step<string>)
    ensures EnrolmentById(db, id).None? ==> s == Fail(db, 404, MsgEnrolmentNotFound)
    ensures EnrolmentById(db, id).Some? && claims.idJugador != Some(EnrolmentById(db, id).value.jugador) ==>
      s == Fail(db, 403, MsgNoCancel)
    ensures s.response.Ok? <==> EnrolmentById(db, id).Some? && claims.idJugador == Some(EnrolmentById(db, id).value.jugador)
    ensures s.response.Ok? ==>
      var e := EnrolmentById(db, id).value;
      && EnrolmentById(s.db, id).None?
      && (forall l :: l in s.db.enlaces <==> l in db.enlaces && l.inscripcion != id)
      && (forall x :: x in s.db.inscripciones <==> x in db.inscripciones && x.id != id)
      && (e.pago.Some? && e.pago.value != 0 ==> PaymentById(s.db, e.pago.value).None?)
      && (forall p :: p in s.db.pagos ==> p in db.pagos)
      && (forall p :: p in db.pagos && (e.pago.None? || p.id != e.pago.value) ==> p in s.db.pagos)
      && s.db.(inscripciones := db.inscripciones, pagos := db.pagos, enlaces := db.enlaces) == db
  {
    match EnrolmentById(db, id)
    case None => Fail(db, 404, MsgEnrolmentNotFound)
    case Some(e) =>
      if claims.idJugador != Some(e.jugador) then Fail(db, 403, MsgNoCancel)
      else
        var enlaces := Keep(db.enlaces, (l: Link) => l.inscripcion != id);
        var pagos := if e.pago.Some? && e.pago.value != 0 && PaymentById(db, e.pago.value).Some?
          then Keep(db.pagos, (p: Payment) => p.id != e.pago.value)
          else db.pagos;
        var inscripciones := Keep(db.inscripciones, (x: Enrolment) => x.id != id);
        Step(Ok(MsgCancelled), db.(inscripciones := inscripciones, pagos := pagos, enlaces := enlaces))
  }

  /** Cancelling keeps the invariant. */
  lemma CancelPreservesInv(db: Db, claims: Claims, id: int)
    requires Inv(db)
    ensures Inv(Cancel(db, claims, id).db)
  {
    var s := Cancel(db, claims, id);
    if s.response.Ok? {
      var d := s.db;
      KeepKeyed(db.inscripciones, (x: Enrolment) => x.id != id, (x: Enrolment) => x.id, db.next);
      KeepKeyed(db.enlaces, (l: Link) => l.inscripcion != id, (l: Link) => l.id, db.next);
      forall l | l in d.enlaces
        ensures l in db.enlaces && l.inscripcion != id
        ensures PlayerOf(d, l.inscripcion) == PlayerOf(db, l.inscripcion)
        ensures EnrolmentById(d, l.inscripcion).Some? && OfferingById(d, l.oferta).Some?
      {
        var k := l.inscripcion;
        FindKeep(db.inscripciones, (x: Enrolment) => x.id != id, (x: Enrolment) => x.id == k);
        var i :| 0 <= i < |db.enlaces| && db.enlaces[i] == l;
      }
      forall i | 0 <= i < |d.enlaces|
        ensures EnrolmentById(d, d.enlaces[i].inscripcion).Some? && OfferingById(d, d.enlaces[i].oferta).Some?
      {
        assert d.enlaces[i] in d.enlaces;
      }
    }
  }

  /** After a cancel, the player may enrol in the same offering again: the
      cancelled enrolment held the pair's only link. */
  lemma CancelThenEnrol(db: Db, claims: Claims, id: int, oferta: int, medio: PayMethod)
    requires Inv(db)
    requires Cancel(db, claims, id).response.Ok?
    requires LinkFor(db, EnrolmentById(db, id).value.jugador, oferta).Some?
    requires LinkFor(db, EnrolmentById(db, id).value.jugador, oferta).value.inscripcion == id
    requires PlayerById(db, EnrolmentById(db, id).value.jugador).Some? && OfferingById(db, oferta).Some?
    ensures Enrol(Cancel(db, claims, id).db, claims, EnrolmentById(db, id).value.jugador, Request(oferta, medio)).response.Ok?
  {
    var d := Cancel(db, claims, id).db;
    var j := EnrolmentById(db, id).value.jugador;
    var old_ := LinkFor(db, j, oferta).value;
    CancelPreservesInv(db, claims, id);
    forall i | 0 <= i < |d.enlaces|
      ensures !(d.enlaces[i].oferta == oferta && PlayerOf(d, d.enlaces[i].inscripcion) == Some(j))
    {
      var l := d.enlaces[i];
      assert l in d.enlaces;
      assert l in db.enlaces && l.inscripcion != id;
      FindKeep(db.inscripciones, (x: Enrolment) => x.id != id, (x: Enrolment) => x.id == l.inscripcion);
      assert old_ in db.enlaces && old_.oferta == oferta && PlayerOf(db, old_.inscripcion) == Some(j);
    }
  }
}

=== FILE: inscriptions_page.dfy ===
/** The organizer's inscriptions page: a card per own offering with its
    revenue, and a detail view listing the players enrolled in the selected one. */
module InscriptionsPage {
  import opened Common
  import opened Ui

  /** One row of the enrolled-players table. */
  datatype PlayerRow = PlayerRow(nombre: Option<string>, correo: Option<string>, estadoPago: string, monto: int)

  datatype View = View(
    torneos: seq<Offering>,
    selected: Option<Offering>,
    jugadores: seq<PlayerRow>,
    toast: Option<Toast>)

  datatype Badge = Green | Yellow | Gray

  const MsgTorneosFailed := "Error al cargar los torneos"
  const MsgPlayersFailed := "Error al cargar los jugadores inscritos"

  /** The offerings effect: `data || []`; a failure only raises a toast. */
  function LoadTorneos(v: View, reply: Reply<Option<seq<Offering>>>): (r: View)
    ensures reply.Done? ==> r.torneos == reply.value.GetOr([])
    ensures reply.Failed? ==> r == v.(toast := Some(Toast(MsgTorneosFailed, Error)))
  {
    match reply
    case Done(data) => v.(torneos := data.GetOr([]))
    case Failed(_) => v.(toast := Some(Toast(MsgTorneosFailed, Error)))
  }

  /** Clicking a card. */
  function Select(v: View, t: Offering): (r: View)
    ensures r.selected == Some(t) && r.jugadores == v.jugadores && r.torneos == v.torneos
  {
    v.(selected := Some(t))
  }

  /** The enrolled-players effect settling: `data || []`, or an empty list
      and an error toast. Responses are applied in the order they settle. */
  function PlayersArrived(v: View, reply: Reply<Option<seq<PlayerRow>>>): (r: View)
    ensures reply.Done? ==> r.jugadores == reply.value.GetOr([]) && r.toast == v.toast
    ensures reply.Failed? ==> r.jugadores == [] && r.toast == Some(Toast(MsgPlayersFailed, Error))
    ensures r.selected == v.selected && r.torneos == v.torneos
  {
    match reply
    case Done(data) => v.(jugadores := data.GetOr([]))
    case Failed(_) => v.(jugadores := [], toast := Some(Toast(MsgPlayersFailed, Error)))
  }

  /** "Volver a Torneos". */
  function Volver(v: View): (r: View)
    ensures r.selected.None? && r.jugadores == []
    ensures r.torneos == v.torneos
  {
    v.(selected := None, jugadores := [])
  }

  /** `calcularIngresosTorneo`, in cents. */
  function SelectedRevenue(v: View): (n: int)
    ensures v.selected.None? ==> n == 0
    ensures v.jugadores == [] ==> n == 0
  {
    if v.selected.None? then 0 else v.selected.value.costo * |v.jugadores|
  }

  /** The payment-status badge colour. */
  function BadgeFor(estado: string): (b: Badge)
    ensures b == Green <==> estado == "Pagado"
    ensures b == Yellow <==> estado == "Pendiente"
    ensures b == Gray <==> estado != "Pagado" && estado != "Pendiente"
  {
    if estado == "Pagado" then Green else if estado == "Pendiente" then Yellow else Gray
  }

  // ---------------------------------------------------------------- properties

  /** Whatever the players fetch of a selected offering returns, the detail
      revenue is its cost times the number of rows then listed: every row of a
      successful reply, none for a null body or a failure. */
  lemma DetailRevenue(v: View, t: Offering, reply: Reply<Option<seq<PlayerRow>>>)
    ensures var r := PlayersArrived(Select(v, t), reply);
      && SelectedRevenue(r) == t.costo * |r.jugadores|
      && (reply.Done? && reply.value.Some? ==> SelectedRevenue(r) == t.costo * |reply.value.value|)
      && (reply.Failed? || reply.value.None? ==> SelectedRevenue(r) == 0)
  {
  }

  /** When the card's count matches the list that arrives, the detail revenue
      agrees with the card's. */
  lemma DetailMatchesCard(v: View, t: Offering, rows: seq<PlayerRow>)
    requires |rows| == CountOr0(t)
    ensures var r := PlayersArrived(Select(v, t), Done(Some(rows)));
      SelectedRevenue(r) == t.costo * |rows| == Contribution(t)
  {
    DetailRevenue(v, t, Done(Some(rows)));
  }

  /** Leaving the detail view zeroes its revenue, whatever was loaded. */
  lemma VolverClearsRevenue(v: View)
    ensures SelectedRevenue(Volver(v)) == 0
  {
  }

  /** A failed fetch shows no players and no revenue. */
  lemma FailedFetchShowsNothing(v: View, t: Offering, f: HttpFailure)
    ensures SelectedRevenue(PlayersArrived(Select(v, t), Failed(f))) == 0
  {
  }
}

=== FILE: listing.dfy ===
/** Generic sequence operations behind the dashboards' local list state:
    `Array.prototype.filter`, `reduce` sums, and the "not yet past, earliest
    first" loading step. */
module Listing {

  /** `s.filter(p)`. */
  function Keep<T>(s: seq<T>, p: T -> bool): (r: seq<T>)
    ensures |r| <= |s|
    ensures forall i :: 0 <= i < |r| ==> p(r[i])
    ensures forall i :: 0 <= i < |s| && p(s[i]) ==> s[i] in r
    ensures forall x :: x in r ==> x in s
  {
    if s == [] then [] else (if p(s[0]) then [s[0]] else []) + Keep(s[1..], p)
  }

  /** Filtering distributes over concatenation: kept elements keep their relative order. */
  lemma {:induction false} KeepConcat<T>(a: seq<T>, b: seq<T>, p: T -> bool)
    ensures Keep(a + b, p) == Keep(a, p) + Keep(b, p)
    decreases |a|
  {
    if a == [] {
      assert a + b == b;
    } else {
      assert (a + b)[0] == a[0];
      assert (a + b)[1..] == a[1..] + b;
      KeepConcat(a[1..], b, p);
    }
  }

  /** A filter that keeps everything is the identity. */
  lemma {:induction false} KeepAll<T>(s: seq<T>, p: T -> bool)
    requires forall i :: 0 <= i < |s| ==> p(s[i])
    ensures Keep(s, p) == s
    decreases |s|
  {
    if s != [] {
      KeepAll(s[1..], p);
    }
  }

  /** `s.reduce((sum, x) => sum + f(x), 0)`. */
  function SumBy<T>(s: seq<T>, f: T -> int): int
  {
    if s == [] then 0 else f(s[0]) + SumBy(s[1..], f)
  }

  lemma {:induction false} SumByConcat<T>(a: seq<T>, b: seq<T>, f: T -> int)
    ensures SumBy(a + b, f) == SumBy(a, f) + SumBy(b, f)
    decreases |a|
  {
    if a == [] {
      assert a + b == b;
    } else {
      assert (a + b)[0] == a[0];
      assert (a + b)[1..] == a[1..] + b;
      SumByConcat(a[1..], b, f);
    }
  }

  /** A sum splits over any filter and its complement: recomputing an
      aggregate after a removal loses exactly the removed contributions. */
  lemma {:induction false} SumByPartition<T>(s: seq<T>, f: T -> int, p: T -> bool)
    ensures SumBy(s, f) == SumBy(Keep(s, p), f) + SumBy(Keep(s, x => !p(x)), f)
    decreases |s|
  {
    if s != [] {
      SumByPartition(s[1..], f, p);
      var head := if p(s[0]) then [s[0]] else [];
      SumByConcat(head, Keep(s[1..], p), f);
      var headNot := if !p(s[0]) then [s[0]] else [];
      SumByConcat(headNot, Keep(s[1..], x => !p(x)), f);
    }
  }

  /** A sum of non-negative terms is non-negative. */
  lemma {:induction false} SumByNonNegative<T>(s: seq<T>, f: T -> int)
    requires forall i :: 0 <= i < |s| ==> f(s[i]) >= 0
    ensures SumBy(s, f) >= 0
    decreases |s|
  {
    if s != [] {
      SumByNonNegative(s[1..], f);
    }
  }

  // ---------------------------------------------------------------- sorting

  ghost predicate SortedBy<T>(s: seq<T>, key: T -> int)
  {
    forall i, j :: 0 <= i < j < |s| ==> key(s[i]) <= key(s[j])
  }

  /** Inserts `x` before the first element whose key is not smaller, so that
      earlier elements stay ahead of later ones with the same key. */
  function InsertByKey<T>(x: T, s: seq<T>, key: T -> int): (r: seq<T>)
    ensures multiset(r) == multiset(s) + multiset{x}
    ensures |r| == |s| + 1
  {
    if s == [] then [x]
    else if key(x) <= key(s[0]) then [x] + s
    else
      assert s == [s[0]] + s[1..];
      [s[0]] + InsertByKey(x, s[1..], key)
  }

  lemma {:induction false} InsertKeepsSorted<T>(x: T, s: seq<T>, key: T -> int)
    requires SortedBy(s, key)
    ensures SortedBy(InsertByKey(x, s, key), key)
    decreases |s|
  {
    if s != [] && key(x) > key(s[0]) {
      InsertKeepsSorted(x, s[1..], key);
      InsertedAbove(x, s, key);
      ConsSorted(s[0], InsertByKey(x, s[1..], key), key);
    }
  }

  /** Inserting past the head only places elements no smaller than the head. */
  lemma InsertedAbove<T>(x: T, s: seq<T>, key: T -> int)
    requires SortedBy(s, key) && s != [] && key(x) > key(s[0])
    ensures forall j :: 0 <= j < |InsertByKey(x, s[1..], key)| ==> key(s[0]) <= key(InsertByKey(x, s[1..], key)[j])
  {
    var rest := InsertByKey(x, s[1..], key);
    forall j | 0 <= j < |rest|
      ensures key(s[0]) <= key(rest[j])
    {
      assert rest[j] in multiset(rest);
      if rest[j] != x {
        assert rest[j] in multiset(s[1..]);
        var k :| 0 <= k < |s[1..]| && s[1..][k] == rest[j];
        assert s[k + 1] == rest[j];
      }
    }
  }

  /** A head no larger than anything in a sorted tail keeps it sorted. */
  lemma ConsSorted<T>(h: T, rest: seq<T>, key: T -> int)
    requires SortedBy(rest, key)
    requires forall j :: 0 <= j < |rest| ==> key(h) <= key(rest[j])
    ensures SortedBy([h] + rest, key)
  {
    var r := [h] + rest;
    forall i, j | 0 <= i < j < |r|
      ensures key(r[i]) <= key(r[j])
    {
      assert r[j] == rest[j - 1];
      if i > 0 {
        assert r[i] == rest[i - 1];
      }
    }
  }

  /** `s.sort((a, b) => key(a) - key(b))`: a permutation of `s` in ascending key order. */
  function SortByKey<T>(s: seq<T>, key: T -> int): (r: seq<T>)
    ensures SortedBy(r, key)
    ensures multiset(r) == multiset(s)
    ensures |r| == |s|
  {
    if s == [] then [] else
      var sorted := SortByKey(s[1..], key);
      InsertKeepsSorted(s[0], sorted, key);
      HeadTailMultiset(s);
      InsertByKey(s[0], sorted, key)
  }

  /** A non-empty sequence holds its head and its tail. */
  lemma HeadTailMultiset<T>(s: seq<T>)
    requires s != []
    ensures multiset(s) == multiset(s[1..]) + multiset{s[0]}
  {
    assert s == [s[0]] + s[1..];
  }

  /** The first date the dashboards keep. They compare `new Date(fecha)`, the
      UTC midnight of a date-only text, with `hoy`, the local midnight of the
      current day `localDay`; `offset` is the local clock's lead over UTC in
      minutes. West of UTC the current day's own UTC midnight is already past,
      so the first date kept is the next one. */
  function FirstShownDay(localDay: int, offset: int): (d: int)
    requires -1440 < offset < 1440
    ensures localDay <= d <= localDay + 1
    ensures d == localDay + 1 <==> offset < 0
  {
    if offset < 0 then localDay + 1 else localDay
  }

  /** A date passes `new Date(fecha) >= hoy` exactly when it is on or after
      `FirstShownDay`: days are 1440 minutes, local midnight is at
      `localDay * 1440 - offset` minutes of UTC time. */
  lemma FirstShownDayExact(localDay: int, offset: int, day: int)
    requires -1440 < offset < 1440
    ensures day >= FirstShownDay(localDay, offset) <==> day * 1440 >= localDay * 1440 - offset
  {
  }

  /** The loading step of the player's dashboards: keep entries dated on or
      after `firstDay` (see `FirstShownDay`), then order them earliest first. */
  function Upcoming<T(!new)>(s: seq<T>, date: T -> int, firstDay: int): (r: seq<T>)
    ensures SortedBy(r, date)
    ensures multiset(r) == multiset(Keep(s, x => date(x) >= firstDay))
    ensures forall x :: x in r ==> x in s && date(x) >= firstDay
    ensures forall x :: x in s && date(x) >= firstDay ==> x in r
  {
    var kept := Keep(s, x => date(x) >= firstDay);
    var r := SortByKey(kept, date);
    assert forall x :: x in r <==> x in kept by {
      forall x
        ensures x in r <==> x in kept
      {
        assert x in r <==> x in multiset(r);
        assert x in kept <==> x in multiset(kept);
      }
    }
    r
  }
}

=== FILE: my_tournaments.dfy ===
/** The player's "my tournaments" page: the upcoming enrolments, five per
    page, with previous/next and numbered page buttons, and cancellation. */
module MyTournaments {
  import opened Common
  import opened Ui
  import opened Listing

  /** One enrolment row as the page holds it (cost in cents, date as a day number). */
  datatype Entry = Entry(idInscripcion: int, nombreTorneo: string, fecha: int, costo: int)

  datatype Mine = Mine(list: seq<Entry>, pagina: int, error: Option<string>, toast: Option<Toast>)

  const PerPage := 5
  const Initial := Mine([], 1, None, None)

  const MsgCancelled := "Inscripción cancelada exitosamente"

  // ---------------------------------------------------------------- pagination

  /** `Math.ceil(n / itemsPorPagina)`. */
  function TotalPages(n: nat): (t: nat)
    ensures n == 0 <==> t == 0
    ensures n > 0 ==> (t - 1) * PerPage < n <= t * PerPage
  {
    (n + PerPage - 1) / PerPage
  }

  /** JavaScript's `Array.prototype.slice(a, b)`: negative bounds count from
      the end, and bounds are clamped to the array. */
  function JsSlice<T>(s: seq<T>, a: int, b: int): (r: seq<T>)
    ensures 0 <= a <= b ==> r == s[Min(a, |s|)..Min(b, |s|)]
    ensures |r| <= |s|
  {
    var from := if a < 0 then Max(|s| + a, 0) else Min(a, |s|);
    var to := if b < 0 then Max(|s| + b, 0) else Min(b, |s|);
    if from >= to then [] else s[from..to]
  }

  function Min(a: int, b: int): int { if a <= b then a else b }
  function Max(a: int, b: int): int { if a >= b then a else b }

  /** `torneosActuales`: the entries shown on page `p`. */
  function Page<T>(s: seq<T>, p: int): (r: seq<T>)
    ensures |r| <= PerPage
    ensures p >= 1 ==> r == s[Min((p - 1) * PerPage, |s|)..Min(p * PerPage, |s|)]
  {
    JsSlice(s, (p - 1) * PerPage, (p - 1) * PerPage + PerPage)
  }

  /** Pages 1 to `k`, one after the other. */
  function FirstPages<T>(s: seq<T>, k: nat): seq<T>
  {
    if k == 0 then [] else FirstPages(s, k - 1) + Page(s, k)
  }

  lemma {:induction false} FirstPagesPrefix<T>(s: seq<T>, k: nat)
    ensures FirstPages(s, k) == s[..Min(k * PerPage, |s|)]
  {
    if k > 0 {
      FirstPagesPrefix(s, k - 1);
      var a := Min((k - 1) * PerPage, |s|);
      var b := Min(k * PerPage, |s|);
      assert s[..a] + s[a..b] == s[..b];
    }
  }

  /** Reading every page in turn shows the whole list, each entry once and in order. */
  lemma PagesCoverList<T>(s: seq<T>)
    ensures FirstPages(s, TotalPages(|s|)) == s
  {
    FirstPagesPrefix(s, TotalPages(|s|));
  }

  /** The numbered buttons `1 .. totalPaginas`. */
  function PageButtons(total: nat): (r: seq<int>)
    ensures |r| == total
    ensures forall n :: n in r <==> 1 <= n <= total
  {
    var r := seq(total, i requires 0 <= i < total => i + 1);
    forall n | 1 <= n <= total
      ensures n in r
    {
      assert r[n - 1] == n;
    }
    r
  }

  /** The pagination bar is rendered only with more than one page. */
  predicate ControlsShown(m: Mine)
  {
    TotalPages(|m.list|) > 1
  }

  /** The current page is a page of the list (page 1 when it is empty). */
  predicate InRange(m: Mine)
  {
    1 <= m.pagina && (m.pagina <= TotalPages(|m.list|) || m.pagina == 1)
  }

  /** `handlePaginaAnterior`. */
  function Prev(m: Mine): (r: Mine)
    ensures m.pagina > 1 ==> r.pagina == m.pagina - 1
    ensures m.pagina <= 1 ==> r == m
    ensures r.list == m.list
  {
    if m.pagina > 1 then m.(pagina := m.pagina - 1) else m
  }

  /** `handlePaginaSiguiente`. */
  function Next(m: Mine): (r: Mine)
    ensures m.pagina < TotalPages(|m.list|) ==> r.pagina == m.pagina + 1
    ensures m.pagina >= TotalPages(|m.list|) ==> r == m
    ensures r.list == m.list
  {
    if m.pagina < TotalPages(|m.list|) then m.(pagina := m.pagina + 1) else m
  }

  /** A numbered page button. */
  function GoTo(m: Mine, n: int): (r: Mine)
    requires n in PageButtons(TotalPages(|m.list|))
    ensures r.pagina == n && r.list == m.list
    ensures InRange(r)
  {
    m.(pagina := n)
  }

  /** Navigation never leaves the list's pages. */
  lemma NavigationInRange(m: Mine)
    requires InRange(m)
    ensures InRange(Prev(m)) && InRange(Next(m))
  {
  }

  /** On a non-empty list, a page in range always shows something. */
  lemma InRangePageNonEmpty<T>(s: seq<T>, p: int)
    requires s != [] && 1 <= p <= TotalPages(|s|)
    ensures Page(s, p) != []
  {
    assert (p - 1) * PerPage < |s|;
    assert |Page(s, p)| > 0;
  }

  // ---------------------------------------------------------------- loading

  /** The loading effect: with a player id, the enrolments dated on or after
      `firstDay` (`FirstShownDay` of the current local day and UTC offset),
      earliest first. */
  function Load(m: Mine, playerId: Option<int>, reply: Reply<seq<Entry>>, firstDay: int): (r: Mine)
    ensures (playerId.None? || playerId == Some(0)) ==> r == m
    ensures playerId.Some? && playerId != Some(0) && reply.Done? ==>
      && SortedBy(r.list, (e: Entry) => e.fecha)
      && (forall e :: e in r.list <==> e in reply.value && e.fecha >= firstDay)
    ensures reply.Failed? ==> r.list == m.list
  {
    if playerId.None? || playerId == Some(0) then m
    else match reply
      case Done(data) => m.(list := Upcoming(data, (e: Entry) => e.fecha, firstDay))
      case Failed(f) => m.(error := Some(MessageText(f)))
  }

  // ---------------------------------------------------------------- cancellation

  /** `misTorneos.filter(t => t.id_inscripcion !== id)`. */
  function WithoutEnrolment(s: seq<Entry>, id: int): (r: seq<Entry>)
    ensures forall i :: 0 <= i < |r| ==> r[i].idInscripcion != id
    ensures forall e :: e in s && e.idInscripcion != id ==> e in r
    ensures forall e :: e in r ==> e in s
  {
    Keep(s, (e: Entry) => e.idInscripcion != id)
  }

  /** `handleCancelarInscripcion` as written: the current page is kept as it is. */
  function CancelAsWritten(m: Mine, id: int, confirmed: bool, reply: Reply<()>): (r: Mine)
    ensures !confirmed ==> r == m
    ensures r.pagina == m.pagina
    ensures confirmed && reply.Done? ==> r.list == WithoutEnrolment(m.list, id)
    ensures reply.Failed? ==> r.list == m.list
    ensures confirmed && reply.Failed? ==>
      r.toast == Some(Toast("Error al cancelar inscripción: " + MessageText(reply.failure), Error))
  {
    if !confirmed then m
    else match reply
      case Done(_) => m.(list := WithoutEnrolment(m.list, id), toast := Some(Toast(MsgCancelled, Success)))
      case Failed(f) => m.(toast := Some(Toast("Error al cancelar inscripción: " + MessageText(f), Error)))
  }

  /** Cancelling the only entry of the last page strands the player: six
      enrolments, on page 2, cancel the sixth; the list still holds five
      entries, page 2 shows none, and the pagination bar is gone. */
  lemma CancelStrandsPage(s: seq<Entry>, id: int)
    requires |s| == 6 && s[5].idInscripcion == id
    requires forall i :: 0 <= i < 5 ==> s[i].idInscripcion != id
    ensures var m := Mine(s, 2, None, None);
      var r := CancelAsWritten(m, id, true, Done(()));
      && InRange(m) && |r.list| == 5 && Page(r.list, r.pagina) == []
      && !ControlsShown(r) && !InRange(r)
  {
    var r := CancelAsWritten(Mine(s, 2, None, None), id, true, Done(()));
    assert s == s[..5] + [s[5]];
    KeepConcat(s[..5], [s[5]], (e: Entry) => e.idInscripcion != id);
    KeepAll(s[..5], (e: Entry) => e.idInscripcion != id);
    assert r.list == s[..5];
  }

  /** Cancellation with the current page clamped to the shortened list. */
  function Cancel(m: Mine, id: int, confirmed: bool, reply: Reply<()>): (r: Mine)
    ensures !confirmed ==> r == m
    ensures confirmed && reply.Done? ==> r.list == WithoutEnrolment(m.list, id)
    ensures reply.Failed? ==> r == CancelAsWritten(m, id, confirmed, reply)
    ensures InRange(m) ==> InRange(r)
    ensures r.pagina <= m.pagina
  {
    var w := CancelAsWritten(m, id, confirmed, reply);
    var last := Max(1, TotalPages(|w.list|));
    if confirmed && reply.Done? && w.pagina > last then w.(pagina := last) else w
  }

  /** After the corrected cancellation, a non-empty list always has a non-empty page in view. */
  lemma CancelKeepsPageFilled(m: Mine, id: int, confirmed: bool, reply: Reply<()>)
    requires InRange(m)
    ensures var r := Cancel(m, id, confirmed, reply);
      r.list != [] ==> Page(r.list, r.pagina) != []
  {
    var r := Cancel(m, id, confirmed, reply);
    if r.list != [] {
      InRangePageNonEmpty(r.list, r.pagina);
    }
  }
}

=== FILE: offerings.dfy ===
/** The organizer's offering routes: create, list, the enrolled players of
    one offering, update and delete. The request body has already passed
    schema validation; the caller's token claims come from the organizer
    dependency. Joined display names (base tournament, city) are carried
    only where the route looks them up itself. */
module Offerings {
  import opened Common
  import opened Listing
  import opened Store
  import opened Security

  /** `limite_jugadores` as every response reports it. */
  const PlayerLimit := 100

  /** A validated `TorneoOrganizadorCreate`. */
  datatype Body = Body(fkTorneo: int, fecha: int, costo: int, fkCiudad: int)

  /** The created or updated offering as the route answers it. */
  datatype Detail = Detail(oferta: Offering, nombreTorneo: string, ciudadNombre: string, count: nat, limite: nat)

  /** One row of the public listing. */
  datatype Listed = Listed(oferta: Offering, count: nat, limite: nat)

  /** One row of the enrolled-players listing. */
  datatype Entry = Entry(inscripcion: int, nombre: string, correo: string, telefono: string, estado: string, monto: int, medio: string)

  const MsgBaseNotFound := "El torneo no fue encontrado"
  const MsgOrganizerNotFound := "Organizador no encontrado"
  const MsgCityNotFound := "Ciudad no encontrada"
  const MsgInstanceNotFound := "Instancia de torneo no encontrada"
  const MsgNotFound := "Torneo no encontrado"
  const MsgNoView := "No tienes permiso para ver esta información"
  const MsgNoUpdate := "No tienes permiso para actualizar este torneo"
  const MsgNoDelete := "No tienes permiso para eliminar este torneo"
  const MsgDeleted := "Torneo eliminado exitosamente"
  const MsgBroken := "Internal Server Error"

  /** The 400 detail of a delete refused because players are enrolled. */
  function HasPlayersDetail(n: nat): string
  {
    "No puedes cancelar este torneo. Tiene " + NatText(n)
      + " jugador(es) inscrito(s). Todos los jugadores deben cancelar su inscripción primero."
  }

  /** The caller owns the offering: `fk_organizador_id == payload.get("id_organizador")`. */
  predicate Owns(claims: Claims, o: Offering)
  {
    claims.idOrganizador == Some(o.organizador)
  }

  // ---------------------------------------------------------------- create

  /** `crear_torneo_organizador`. */
  function Create(db: Db, claims: Claims, b: Body): (s: Step<Detail>)
    ensures TournamentById(db, b.fkTorneo).None? ==> s == Fail(db, 404, MsgBaseNotFound)
    ensures TournamentById(db, b.fkTorneo).Some? && OrganizerById(db, claims.idOrganizador).None? ==>
      s == Fail(db, 422, MsgOrganizerNotFound)
    ensures (TournamentById(db, b.fkTorneo).Some? && OrganizerById(db, claims.idOrganizador).Some?
      && CityById(db, b.fkCiudad).None?) ==> s == Fail(db, 422, MsgCityNotFound)
    ensures s.response.Ok? <==>
      TournamentById(db, b.fkTorneo).Some? && OrganizerById(db, claims.idOrganizador).Some? && CityById(db, b.fkCiudad).Some?
    ensures s.response.Ok? ==>
      var o := s.response.body.oferta;
      && claims.idOrganizador == Some(o.organizador)
      && o == Offering(db.next, b.fkTorneo, o.organizador, b.fecha, b.costo, b.fkCiudad)
      && s.db.ofertas == db.ofertas + [o]
      && s.db.(ofertas := db.ofertas, next := db.next) == db
      && s.db.next == db.next + 1
      && s.response.body.nombreTorneo == TournamentById(db, b.fkTorneo).value.nombre
      && s.response.body.ciudadNombre == CityById(db, b.fkCiudad).value.nombre
      && s.response.body.count == 0 && s.response.body.limite == PlayerLimit
  {
    match TournamentById(db, b.fkTorneo)
    case None => Fail(db, 404, MsgBaseNotFound)
    case Some(t) =>
      match OrganizerById(db, claims.idOrganizador)
      case None => Fail(db, 422, MsgOrganizerNotFound)
      case Some(org) =>
        match CityById(db, b.fkCiudad)
        case None => Fail(db, 422, MsgCityNotFound)
        case Some(c) =>
          var o := Offering(db.next, b.fkTorneo, org.id, b.fecha, b.costo, b.fkCiudad);
          Step(Ok(Detail(o, t.nombre, c.nombre, 0, PlayerLimit)), db.(ofertas := db.ofertas + [o], next := db.next + 1))
  }

  /** Creation keeps the invariant, and the new offering is the one found under its id. */
  lemma CreatePreservesInv(db: Db, claims: Claims, b: Body)
    requires Inv(db)
    ensures Inv(Create(db, claims, b).db)
    ensures Create(db, claims, b).response.Ok? ==>
      OfferingById(Create(db, claims, b).db, db.next) == Some(Create(db, claims, b).response.body.oferta)
  {
    var s := Create(db, claims, b);
    if s.response.Ok? {
      var o := s.response.body.oferta;
      var d := s.db;
      AppendKeyed(db.ofertas, o, (x: Offering) => x.id, db.next);
      FreshAbsent(db.ofertas, (x: Offering) => x.id, db.next);
      FindAppend(db.ofertas, o, (x: Offering) => x.id == db.next);
      forall i | 0 <= i < |d.enlaces|
        ensures OfferingById(d, d.enlaces[i].oferta).Some?
      {
        FindAppend(db.ofertas, o, (x: Offering) => x.id == d.enlaces[i].oferta);
      }
    }
  }

  // ---------------------------------------------------------------- list

  /** `query.offset(skip).limit(limit)`. */
  function Window<T>(s: seq<T>, skip: nat, limit: nat): (r: seq<T>)
    ensures |r| <= limit
    ensures skip <= |s| ==> |r| == if |s| - skip < limit then |s| - skip else limit
    ensures skip >= |s| ==> r == []
    ensures forall i :: 0 <= i < |r| ==> skip + i < |s| && r[i] == s[skip + i]
  {
    if skip >= |s| then []
    else if |s| - skip < limit then s[skip..]
    else s[skip..skip + limit]
  }

  /** The offerings the player is linked to (`torneos_inscritos_ids`). */
  predicate Enrolled(db: Db, jugador: int, oferta: int)
  {
    LinkFor(db, jugador, oferta).Some?
  }

  /** The player filter lets the offering through: no player is given (an id
      of 0 counts as absent), or the player is not linked to it. */
  predicate OpenTo(db: Db, jugadorId: Option<int>, o: Offering)
  {
    !(jugadorId.Some? && jugadorId.value != 0 && Enrolled(db, jugadorId.value, o.id))
  }

  /** The organizer filter of the listing; an id of 0 counts as absent. */
  function ByOrganizer(s: seq<Offering>, organizadorId: Option<int>): (r: seq<Offering>)
    ensures forall o :: o in r ==> o in s
    ensures organizadorId.Some? && organizadorId.value != 0 ==> forall o :: o in r ==> o.organizador == organizadorId.value
    ensures organizadorId.Some? && organizadorId.value != 0 ==>
      forall i :: 0 <= i < |s| && s[i].organizador == organizadorId.value ==> s[i] in r
    ensures !(organizadorId.Some? && organizadorId.value != 0) ==> r == s
  {
    if organizadorId.Some? && organizadorId.value != 0
    then Keep(s, (o: Offering) => o.organizador == organizadorId.value)
    else s
  }

  /** The player exclusion of the listing; an id of 0 counts as absent. */
  function Unenrolled(db: Db, s: seq<Offering>, jugadorId: Option<int>): (r: seq<Offering>)
    ensures |r| <= |s|
    ensures forall o :: o in r ==> o in s
    ensures jugadorId.Some? && jugadorId.value != 0 ==> forall o :: o in r ==> !Enrolled(db, jugadorId.value, o.id)
    ensures jugadorId.Some? && jugadorId.value != 0 ==>
      forall i :: 0 <= i < |s| && !Enrolled(db, jugadorId.value, s[i].id) ==> s[i] in r
    ensures !(jugadorId.Some? && jugadorId.value != 0) ==> r == s
  {
    if jugadorId.Some? && jugadorId.value != 0
    then Keep(s, (o: Offering) => !Enrolled(db, jugadorId.value, o.id))
    else s
  }

  /** `listar_torneos_organizadores`: the organizer filter, then the window,
      then the exclusion of the player's offerings, each row with its link
      count. */
  function List(db: Db, skip: nat, limit: nat, jugadorId: Option<int>, organizadorId: Option<int>): (r: seq<Listed>)
    ensures |r| <= limit
    ensures forall i :: 0 <= i < |r| ==>
      && r[i].oferta in db.ofertas
      && (organizadorId.Some? && organizadorId.value != 0 ==> r[i].oferta.organizador == organizadorId.value)
      && (jugadorId.Some? && jugadorId.value != 0 ==> !Enrolled(db, jugadorId.value, r[i].oferta.id))
      && r[i].count == LinkCount(db, r[i].oferta.id)
      && r[i].limite == PlayerLimit
    ensures forall o :: o in Window(ByOrganizer(db.ofertas, organizadorId), skip, limit) && OpenTo(db, jugadorId, o) ==>
      exists i :: 0 <= i < |r| && r[i].oferta == o
  {
    var query := ByOrganizer(db.ofertas, organizadorId);
    var page := Window(query, skip, limit);
    assert forall o :: o in page ==> o in query;
    var shown := Unenrolled(db, page, jugadorId);
    var r := seq(|shown|, i requires 0 <= i < |shown| => Listed(shown[i], LinkCount(db, shown[i].id), PlayerLimit));
    ShownListed(db, page, jugadorId, r);
    r
  }

  /** Every offering of the window that the player filter lets through is a row. */
  lemma ShownListed(db: Db, page: seq<Offering>, jugadorId: Option<int>, r: seq<Listed>)
    requires |r| == |Unenrolled(db, page, jugadorId)|
    requires forall i :: 0 <= i < |r| ==> r[i].oferta == Unenrolled(db, page, jugadorId)[i]
    ensures forall o :: o in page && OpenTo(db, jugadorId, o) ==> exists i :: 0 <= i < |r| && r[i].oferta == o
  {
    var shown := Unenrolled(db, page, jugadorId);
    forall o | o in page && OpenTo(db, jugadorId, o)
      ensures exists i :: 0 <= i < |r| && r[i].oferta == o
    {
      var j :| 0 <= j < |page| && page[j] == o;
      assert o in shown;
      var i :| 0 <= i < |shown| && shown[i] == o;
      assert r[i].oferta == o;
    }
  }

  /** Without the player filter the listing is the full window of the table. */
  lemma ListWithoutPlayerIsWindow(db: Db, skip: nat, limit: nat)
    requires skip <= |db.ofertas|
    ensures |List(db, skip, limit, None, None)| == if |db.ofertas| - skip < limit then |db.ofertas| - skip else limit
    ensures forall i :: 0 <= i < |List(db, skip, limit, None, None)| ==>
      List(db, skip, limit, None, None)[i].oferta == db.ofertas[skip + i]
  {
  }

  /** The window is cut before the player's offerings are excluded: with a
      limit of one, a player enrolled in the first offering sees nothing,
      although the second is open to them. */
  lemma WindowBeforeExclusion(db: Db, jugador: int, a: Offering, b: Offering)
    requires jugador != 0 && db.ofertas == [a, b] && a.id != b.id
    requires Enrolled(db, jugador, a.id) && !Enrolled(db, jugador, b.id)
    ensures List(db, 0, 1, Some(jugador), None) == []
    ensures |List(db, 0, 2, Some(jugador), None)| == 1
  {
    assert Window(db.ofertas, 0, 1) == [a];
    assert Window(db.ofertas, 0, 2) == [a, b];
    assert Unenrolled(db, [a], Some(jugador)) == [];
    var p := (o: Offering) => !Enrolled(db, jugador, o.id);
    assert [a, b][1..] == [b] && [b][1..] == [];
    assert Keep([b], p) == [b];
    assert Keep([a, b], p) == Keep([b], p);
  }

  // ---------------------------------------------------------------- enrolled players

  /** How a row reports a payment: its status, amount and method, or
      "Sin pago", 0 and "N/A" when the enrolment has none. */
  predicate ReportsPayment(row: Entry, pago: Option<Payment>)
  {
    match pago
    case None => row.estado == "Sin pago" && row.monto == 0 && row.medio == "N/A"
    case Some(g) => row.estado == StatusText(g.estado) && row.monto == g.monto && row.medio == MethodText(g.medio)
  }

  /** A row describes its link: the enrolment's id, the player's full name,
      e-mail and phone, and the enrolment's payment. */
  predicate Describes(db: Db, l: Link, row: Entry)
  {
    match EnrolmentById(db, l.inscripcion)
    case None => false
    case Some(e) =>
      match PlayerById(db, e.jugador)
      case None => false
      case Some(p) =>
        && UserById(db, Some(p.usuario)).Some?
        && row.inscripcion == e.id
        && row.nombre == p.nombre + " " + p.apellido
        && row.correo == UserById(db, Some(p.usuario)).value.email
        && row.telefono == p.telefono
        && ReportsPayment(row, PaymentOf(db, e))
  }

  /** The rows of the enrolled-players listing for the given links; `None`
      when a link's enrolment, player or user is missing, which the route
      cannot survive. */
  function Rows(db: Db, links: seq<Link>): (r: Option<seq<Entry>>)
    ensures r.Some? ==> |r.value| == |links|
    ensures r.Some? ==> forall i :: 0 <= i < |links| ==> r.value[i].inscripcion == links[i].inscripcion
    ensures r.Some? ==> forall i :: 0 <= i < |links| ==> Describes(db, links[i], r.value[i])
    decreases |links|
  {
    if links == [] then Some([])
    else
      var row := RowOf(db, links[0]);
      var rest := Rows(db, links[1..]);
      if row.None? || rest.None? then None else Some([row.value] + rest.value)
  }

  /** The row of one link; `None` when its enrolment, player or user is missing. */
  function RowOf(db: Db, l: Link): (r: Option<Entry>)
    ensures r.Some? ==> Describes(db, l, r.value) && r.value.inscripcion == l.inscripcion
    ensures r.None? ==>
      EnrolmentById(db, l.inscripcion).None?
      || PlayerById(db, EnrolmentById(db, l.inscripcion).value.jugador).None?
      || UserById(db, Some(PlayerById(db, EnrolmentById(db, l.inscripcion).value.jugador).value.usuario)).None?
  {
    match EnrolmentById(db, l.inscripcion)
    case None => None
    case Some(e) =>
      match PlayerById(db, e.jugador)
      case None => None
      case Some(p) =>
        match UserById(db, Some(p.usuario))
        case None => None
        case Some(u) =>
          var row := match PaymentOf(db, e)
            case None => Entry(e.id, p.nombre + " " + p.apellido, u.email, p.telefono, "Sin pago", 0, "N/A")
            case Some(g) => Entry(e.id, p.nombre + " " + p.apellido, u.email, p.telefono, StatusText(g.estado), g.monto, MethodText(g.medio));
          Some(row)
  }


  /** A link whose enrolment has no payment is reported as unpaid, zero, no method. */
  lemma UnpaidRow(db: Db, l: Link, e: Enrolment)
    requires EnrolmentById(db, l.inscripcion) == Some(e) && e.pago.None?
    requires Rows(db, [l]).Some?
    ensures var row := Rows(db, [l]).value[0]; row.estado == "Sin pago" && row.monto == 0 && row.medio == "N/A"
  {
    assert [l][1..] == [];
  }

  /** `listar_jugadores_inscritos`: 404, then 403, then one row per link. */
  function EnrolledPlayers(db: Db, claims: Claims, id: int): (r: Response<seq<Entry>>)
    ensures OfferingById(db, id).None? ==> r == Err(404, MsgInstanceNotFound)
    ensures OfferingById(db, id).Some? && !Owns(claims, OfferingById(db, id).value) ==> r == Err(403, MsgNoView)
    ensures r.Ok? ==> |r.body| == LinkCount(db, id) && OfferingById(db, id).Some? && Owns(claims, OfferingById(db, id).value)
    ensures r.Ok? ==> |r.body| == |LinksOf(db, id)| && forall i :: 0 <= i < |r.body| ==> Describes(db, LinksOf(db, id)[i], r.body[i])
  {
    match OfferingById(db, id)
    case None => Err(404, MsgInstanceNotFound)
    case Some(o) =>
      if !Owns(claims, o) then Err(403, MsgNoView)
      else match Rows(db, LinksOf(db, id))
        case None => Err(500, MsgBroken)
        case Some(rows) => Ok(rows)
  }

  /** Every enrolment's player exists and has a user row. */
  ghost predicate EnrolmentsResolve(db: Db)
  {
    forall i :: 0 <= i < |db.inscripciones| ==>
      PlayerById(db, db.inscripciones[i].jugador).Some?
      && UserById(db, Some(PlayerById(db, db.inscripciones[i].jugador).value.usuario)).Some?
  }

  /** Links whose enrolments resolve down to a user always yield their rows. */
  lemma {:induction false} RowsBuilt(db: Db, links: seq<Link>)
    requires EnrolmentsResolve(db)
    requires forall i :: 0 <= i < |links| ==> EnrolmentById(db, links[i].inscripcion).Some?
    ensures Rows(db, links).Some?
    decreases |links|
  {
    if links != [] {
      RowResolves(db, links[0]);
      RowsBuilt(db, links[1..]);
    }
  }

  /** A link whose enrolment exists has its row when enrolments resolve. */
  lemma RowResolves(db: Db, l: Link)
    requires EnrolmentsResolve(db)
    requires EnrolmentById(db, l.inscripcion).Some?
    ensures RowOf(db, l).Some?
  {
    var e := EnrolmentById(db, l.inscripcion).value;
    var k :| 0 <= k < |db.inscripciones| && db.inscripciones[k] == e;
  }

  /** On a store that keeps its invariant, and whose enrolments name existing
      players with user rows, the listing fails only at its two gates. */
  lemma EnrolledPlayersOkIff(db: Db, claims: Claims, id: int)
    requires Inv(db) && EnrolmentsResolve(db)
    ensures EnrolledPlayers(db, claims, id).Ok? <==>
      OfferingById(db, id).Some? && Owns(claims, OfferingById(db, id).value)
  {
    var ls := LinksOf(db, id);
    forall i | 0 <= i < |ls|
      ensures EnrolmentById(db, ls[i].inscripcion).Some?
    {
      var j :| 0 <= j < |db.enlaces| && db.enlaces[j] == ls[i];
    }
    RowsBuilt(db, ls);
  }

  // ---------------------------------------------------------------- update

  /** The offering with the four submitted fields written over it. */
  function Rewritten(o: Offering, b: Body): (r: Offering)
    ensures r.id == o.id && r.organizador == o.organizador
  {
    o.(torneo := b.fkTorneo, fecha := b.fecha, costo := b.costo, ciudad := b.fkCiudad)
  }

  /** `actualizar_torneo_organizador`. */
  function Update(db: Db, claims: Claims, id: int, b: Body): (s: Step<Detail>)
    ensures OfferingById(db, id).None? ==> s == Fail(db, 404, MsgNotFound)
    ensures OfferingById(db, id).Some? && !Owns(claims, OfferingById(db, id).value) ==> s == Fail(db, 403, MsgNoUpdate)
    ensures (OfferingById(db, id).Some? && Owns(claims, OfferingById(db, id).value)
      && TournamentById(db, b.fkTorneo).None?) ==> s == Fail(db, 404, MsgBaseNotFound)
    ensures (OfferingById(db, id).Some? && Owns(claims, OfferingById(db, id).value)
      && TournamentById(db, b.fkTorneo).Some? && CityById(db, b.fkCiudad).None?) ==> s == Fail(db, 422, MsgCityNotFound)
    ensures s.response.Ok? <==>
      && OfferingById(db, id).Some? && Owns(claims, OfferingById(db, id).value)
      && TournamentById(db, b.fkTorneo).Some? && CityById(db, b.fkCiudad).Some?
    ensures s.response.Ok? ==>
      var o := OfferingById(db, id).value;
      && Owns(claims, o)
      && s.response.body.oferta == Offering(o.id, b.fkTorneo, o.organizador, b.fecha, b.costo, b.fkCiudad)
      && |s.db.ofertas| == |db.ofertas|
      && (forall i :: 0 <= i < |db.ofertas| && db.ofertas[i].id != id ==> s.db.ofertas[i] == db.ofertas[i])
      && OfferingById(s.db, id) == Some(s.response.body.oferta)
      && s.db.(ofertas := db.ofertas) == db
      && s.response.body.count == 0
  {
    match OfferingById(db, id)
    case None => Fail(db, 404, MsgNotFound)
    case Some(o) =>
      if !Owns(claims, o) then Fail(db, 403, MsgNoUpdate)
      else match TournamentById(db, b.fkTorneo)
        case None => Fail(db, 404, MsgBaseNotFound)
        case Some(t) =>
          match CityById(db, b.fkCiudad)
          case None => Fail(db, 422, MsgCityNotFound)
          case Some(c) =>
            var ofertas := seq(|db.ofertas|, i requires 0 <= i < |db.ofertas| =>
              if db.ofertas[i].id == id then Rewritten(db.ofertas[i], b) else db.ofertas[i]);
            FindRewrite(db.ofertas, ofertas, (x: Offering) => x.id == id, (x: Offering) => Rewritten(x, b));
            Step(Ok(Detail(Rewritten(o, b), t.nombre, c.nombre, 0, PlayerLimit)), db.(ofertas := ofertas))
  }

  /** The update answer reports no enrolments even when there are some. */
  lemma UpdateReportsNoEnrolments(db: Db, claims: Claims, id: int, b: Body)
    requires Update(db, claims, id, b).response.Ok? && LinkCount(db, id) > 0
    ensures Update(db, claims, id, b).response.body.count != LinkCount(Update(db, claims, id, b).db, id)
  {
  }

  /** Updating keeps the invariant: ids stay where they were. */
  lemma UpdatePreservesInv(db: Db, claims: Claims, id: int, b: Body)
    requires Inv(db)
    ensures Inv(Update(db, claims, id, b).db)
  {
    var d := Update(db, claims, id, b).db;
    if d != db {
      assert forall i :: 0 <= i < |db.ofertas| ==> d.ofertas[i].id == db.ofertas[i].id;
      assert d == db.(ofertas := d.ofertas);
      SameIdsKeepInv(db, d.ofertas);
    }
  }

  /** Rewriting offerings in place without touching their ids keeps the invariant. */
  lemma SameIdsKeepInv(db: Db, t: seq<Offering>)
    requires Inv(db)
    requires |t| == |db.ofertas|
    requires forall i :: 0 <= i < |t| ==> t[i].id == db.ofertas[i].id
    ensures Inv(db.(ofertas := t))
  {
    var d := db.(ofertas := t);
    assert Keyed(t, (o: Offering) => o.id, db.next);
    forall i | 0 <= i < |d.enlaces|
      ensures OfferingById(d, d.enlaces[i].oferta).Some?
    {
      FindAfterMap(db.ofertas, t, (x: Offering) => x.id == d.enlaces[i].oferta);
    }
    assert LinksResolve(d);
  }

  // ---------------------------------------------------------------- delete

  /** `eliminar_torneo_organizador`. */
  function Delete(db: Db, claims: Claims, id: int): (s: Step<string>)
    ensures OfferingById(db, id).None? ==> s == Fail(db, 404, MsgNotFound)
    ensures OfferingById(db, id).Some? && !Owns(claims, OfferingById(db, id).value) ==> s == Fail(db, 403, MsgNoDelete)
    ensures OfferingById(db, id).Some? && Owns(claims, OfferingById(db, id).value) && LinkCount(db, id) > 0 ==>
      s == Fail(db, 400, HasPlayersDetail(LinkCount(db, id)))
    ensures s.response.Ok? <==>
      OfferingById(db, id).Some? && Owns(claims, OfferingById(db, id).value) && LinkCount(db, id) == 0
    ensures s.response.Ok? ==>
      && OfferingById(s.db, id).None?
      && (forall o :: o in db.ofertas && o.id != id ==> o in s.db.ofertas)
      && s.db.(ofertas := db.ofertas) == db
  {
    match OfferingById(db, id)
    case None => Fail(db, 404, MsgNotFound)
    case Some(o) =>
      if !Owns(claims, o) then Fail(db, 403, MsgNoDelete)
      else if LinkCount(db, id) > 0 then Fail(db, 400, HasPlayersDetail(LinkCount(db, id)))
      else Step(Ok(MsgDeleted), db.(ofertas := Keep(db.ofertas, (x: Offering) => x.id != id)))
  }

  /** Deleting keeps the invariant: no link is left pointing at a deleted offering. */
  lemma DeletePreservesInv(db: Db, claims: Claims, id: int)
    requires Inv(db)
    ensures Inv(Delete(db, claims, id).db)
  {
    if OfferingById(db, id).Some? && Owns(claims, OfferingById(db, id).value) && LinkCount(db, id) == 0 {
      UnlinkedRemovalKeepsInv(db, id);
    }
  }

  /** Removing an offering no link points at keeps the invariant. */
  lemma UnlinkedRemovalKeepsInv(db: Db, id: int)
    requires Inv(db)
    requires forall i :: 0 <= i < |db.enlaces| ==> db.enlaces[i].oferta != id
    ensures Inv(db.(ofertas := Keep(db.ofertas, (x: Offering) => x.id != id)))
  {
    var d := db.(ofertas := Keep(db.ofertas, (x: Offering) => x.id != id));
    KeepKeyed(db.ofertas, (x: Offering) => x.id != id, (x: Offering) => x.id, db.next);
    forall i | 0 <= i < |d.enlaces|
      ensures OfferingById(d, d.enlaces[i].oferta).Some?
    {
      var k := d.enlaces[i].oferta;
      FindKeep(db.ofertas, (x: Offering) => x.id != id, (x: Offering) => x.id == k);
    }
    assert LinksResolve(d);
  }
}

=== FILE: organizer_dashboard.dfy ===
/** The organizer's dashboard: the local list of own offerings, the "created"
    counter, and the aggregates shown on the statistics cards. Every handler
    is a step from one dashboard state to the next, given the settled outcome
    of its request. */
module OrganizerDashboard {
  import opened Common
  import opened Ui
  import opened Listing

  datatype Dash = Dash(
    torneos: seq<Offering>,
    misTorneos: int,
    error: Option<string>,
    toast: Option<Toast>,
    /** The offering awaiting delete confirmation, if any. */
    target: Option<Offering>,
    confirmOpen: bool)

  const Empty := Dash([], 0, None, None, None, false)

  const MsgDeleted := "Torneo eliminado exitosamente"
  const MsgUpdated := "Torneo actualizado exitosamente"
  const MsgDeleteUnknown := "Error desconocido al eliminar torneo"

  /** The counter agrees with the list, and the list is keyed by id. */
  ghost predicate Consistent(d: Dash)
  {
    d.misTorneos == |d.torneos| && UniqueIds(d.torneos)
  }

  // ---------------------------------------------------------------- handlers

  /** The loading effect: the fetched list replaces the local one and the
      counter takes its length; a failure records the error text only. */
  function Load(d: Dash, reply: Reply<seq<Offering>>): (r: Dash)
    ensures reply.Done? ==> r.torneos == reply.value && r.misTorneos == |reply.value|
    ensures reply.Failed? ==> r == d.(error := Some(MessageText(reply.failure)))
  {
    match reply
    case Done(data) => d.(torneos := data, misTorneos := |data|)
    case Failed(f) => d.(error := Some(MessageText(f)))
  }

  function OpenConfirm(d: Dash, t: Offering): (r: Dash)
    ensures r.target == Some(t) && r.confirmOpen
    ensures r.torneos == d.torneos && r.misTorneos == d.misTorneos
  {
    d.(target := Some(t), confirmOpen := true)
  }

  /** `handleConfirmarEliminar`, given the outcome of the delete request. */
  function ConfirmDelete(d: Dash, reply: Reply<()>): (r: Dash)
    ensures d.target.None? ==> r == d
    ensures d.target.Some? && reply.Done? ==>
      && r.torneos == WithoutId(d.torneos, d.target.value.id)
      && r.misTorneos == d.misTorneos - 1
      && r.toast == Some(Toast(MsgDeleted, Success))
      && r.target.None? && !r.confirmOpen
    ensures reply.Failed? ==> r.torneos == d.torneos && r.misTorneos == d.misTorneos
    ensures d.target.Some? && reply.Failed? ==>
      r == d.(toast := Some(Toast(FirstTruthy(reply.failure.detail, reply.failure.message, MsgDeleteUnknown), Error)))
  {
    match d.target
    case None => d
    case Some(t) =>
      match reply
      case Done(_) =>
        d.(torneos := WithoutId(d.torneos, t.id), misTorneos := d.misTorneos - 1,
           toast := Some(Toast(MsgDeleted, Success)), target := None, confirmOpen := false)
      case Failed(f) =>
        d.(toast := Some(Toast(FirstTruthy(f.detail, f.message, MsgDeleteUnknown), Error)))
  }

  /** `torneos.map(t => t.id === u.id ? u : t)`. */
  function ReplaceById(s: seq<Offering>, u: Offering): (r: seq<Offering>)
    ensures |r| == |s|
    ensures forall i :: 0 <= i < |s| && s[i].id != u.id ==> r[i] == s[i]
    ensures forall i :: 0 <= i < |s| && s[i].id == u.id ==> r[i] == u
  {
    seq(|s|, i requires 0 <= i < |s| => if s[i].id == u.id then u else s[i])
  }

  /** `handleTorneoActualizado`. */
  function Updated(d: Dash, u: Offering): (r: Dash)
    ensures r.torneos == ReplaceById(d.torneos, u)
    ensures r.misTorneos == d.misTorneos
    ensures r.toast == Some(Toast(MsgUpdated, Success))
  {
    d.(torneos := ReplaceById(d.torneos, u), toast := Some(Toast(MsgUpdated, Success)))
  }

  /** `handleTorneoCreado`. */
  function Created(d: Dash, n: Offering): (r: Dash)
    ensures |r.torneos| == |d.torneos| + 1
    ensures r.torneos[0] == n && r.torneos[1..] == d.torneos
    ensures r.misTorneos == d.misTorneos + 1
  {
    d.(torneos := [n] + d.torneos, misTorneos := d.misTorneos + 1)
  }

  // ---------------------------------------------------------------- aggregates

  /** "Inscripciones Totales". */
  function TotalInscriptions(s: seq<Offering>): int
  {
    SumBy(s, CountOr0)
  }

  /** "Ingresos Totales", in cents. */
  function TotalRevenue(s: seq<Offering>): int
  {
    SumBy(s, Contribution)
  }

  // ---------------------------------------------------------------- properties

  /** A successful delete of a listed offering keeps the counter equal to the
      list's length, and the totals drop by exactly that offering's share. */
  lemma DeletePreservesConsistency(d: Dash, k: int)
    requires Consistent(d) && 0 <= k < |d.torneos| && d.target == Some(d.torneos[k])
    ensures Consistent(ConfirmDelete(d, Done(())))
    ensures TotalRevenue(ConfirmDelete(d, Done(())).torneos) == TotalRevenue(d.torneos) - Contribution(d.torneos[k])
    ensures TotalInscriptions(ConfirmDelete(d, Done(())).torneos) == TotalInscriptions(d.torneos) - CountOr0(d.torneos[k])
  {
    WithoutPresentId(d.torneos, k, Contribution);
    WithoutPresentId(d.torneos, k, CountOr0);
    KeepUnique(d.torneos, (t: Offering) => t.id != d.torneos[k].id);
  }

  /** A failed delete keeps the list, the counter and the totals. */
  lemma FailedDeleteKeepsTotals(d: Dash, f: HttpFailure)
    requires Consistent(d)
    ensures Consistent(ConfirmDelete(d, Failed(f)))
    ensures TotalRevenue(ConfirmDelete(d, Failed(f)).torneos) == TotalRevenue(d.torneos)
  {
  }

  /** Updating keeps every id in place, so keying and the counter survive; an
      id not on the list leaves the list as it was. */
  lemma UpdatePreservesConsistency(d: Dash, u: Offering)
    requires Consistent(d)
    ensures Consistent(Updated(d, u))
    ensures forall i :: 0 <= i < |d.torneos| ==> Updated(d, u).torneos[i].id == d.torneos[i].id
    ensures (forall i :: 0 <= i < |d.torneos| ==> d.torneos[i].id != u.id) ==> Updated(d, u).torneos == d.torneos
  {
    var r := Updated(d, u).torneos;
    assert forall i :: 0 <= i < |d.torneos| ==> r[i].id == d.torneos[i].id;
  }

  /** Updating the `k`-th offering swaps its share of the totals for the new one's. */
  lemma {:induction false} ReplaceSum(s: seq<Offering>, k: int, u: Offering, f: Offering -> int)
    requires UniqueIds(s) && 0 <= k < |s| && s[k].id == u.id
    ensures SumBy(ReplaceById(s, u), f) == SumBy(s, f) - f(s[k]) + f(u)
    decreases |s|
  {
    var r := ReplaceById(s, u);
    if k == 0 {
      assert r[1..] == s[1..] by {
        forall i | 0 <= i < |s| - 1
          ensures r[1..][i] == s[1..][i]
        {
          assert s[i + 1].id != s[0].id;
        }
      }
    } else {
      ReplaceSum(s[1..], k - 1, u, f);
      assert r[1..] == ReplaceById(s[1..], u);
      assert r[0] == s[0];
    }
  }

  /** Creating an offering with a fresh id keeps the dashboard consistent and
      adds its share to the totals. */
  lemma CreatePreservesConsistency(d: Dash, n: Offering)
    requires Consistent(d)
    requires forall i :: 0 <= i < |d.torneos| ==> d.torneos[i].id != n.id
    ensures Consistent(Created(d, n))
    ensures TotalRevenue(Created(d, n).torneos) == TotalRevenue(d.torneos) + Contribution(n)
  {
    var r := Created(d, n).torneos;
    forall i, j | 0 <= i < j < |r|
      ensures r[i].id != r[j].id
    {
      assert r[j] == d.torneos[j - 1];
      if i > 0 {
        assert r[i] == d.torneos[i - 1];
      }
    }
  }

  /** Loading a keyed list establishes consistency. */
  lemma LoadEstablishesConsistency(d: Dash, data: seq<Offering>)
    requires UniqueIds(data)
    ensures Consistent(Load(d, Done(data)))
  {
  }

  /** The totals are non-negative when costs are. */
  lemma TotalsNonNegative(s: seq<Offering>)
    requires forall i :: 0 <= i < |s| ==> s[i].costo >= 0 && CountOr0(s[i]) >= 0
    ensures TotalInscriptions(s) >= 0 && TotalRevenue(s) >= 0
  {
    SumByNonNegative(s, CountOr0);
    SumByNonNegative(s, Contribution);
  }
}

=== FILE: payment.dfy ===
/** The simulated payment modal: per-field input filters on the card form,
    the pre-processing gate, and the card-face display expressions.
    Timers and rendering are not modelled; the gate's verdict is what
    `onConfirm` eventually receives. */
module Payment {
  import opened Common

  datatype Card = Card(numero: string, titular: string, mes: string, ano: string, cvv: string)

  /** The `name` attribute of the input that fired the change event. */
  datatype Field = Numero | Titular | Mes | Ano | Cvv | OtherInput

  datatype Modal = Modal(card: Card, flipped: bool)

  datatype Method = Tarjeta | Efectivo | Transferencia

  /** Outcome of pressing the pay button: an alert, or the processing
      animation that ends in `onConfirm(method)`. */
  datatype Gate = Rejected(alert: string) | Processing(chosen: Method)

  const Initial := Modal(Card("", "", "", "", ""), false)

  const MsgIncomplete := "Por favor completa todos los campos de la tarjeta"
  const MsgLength := "El número de tarjeta debe tener 16 dígitos"
  const MsgMonth := "El mes debe estar entre 01 y 12"

  function Get(c: Card, f: Field): string
  {
    match f
    case Numero => c.numero
    case Titular => c.titular
    case Mes => c.mes
    case Ano => c.ano
    case Cvv => c.cvv
    case OtherInput => ""
  }

  /** A digit-only month text is stored when empty or between 1 and 12. */
  predicate MonthAccepted(mes: string)
    requires AllDigits(mes)
  {
    mes == "" || 1 <= ParseDigits(mes) <= 12
  }

  /** Whether a change of `name` to `value` is stored at all. */
  predicate Accepts(name: Field, value: string)
  {
    match name
    case Numero => |DigitsOnly(value)| <= 16
    case Cvv => |DigitsOnly(value)| <= 3
    case Mes => MonthAccepted(DigitsOnly(value))
    case Ano => |DigitsOnly(value)| <= 4
    case Titular => true
    case OtherInput => false
  }

  /** The text stored for an accepted change. */
  function Stored(name: Field, value: string): string
  {
    if name == Titular then Upper(value) else DigitsOnly(value)
  }

  /** Invariant of every card reachable from the blank form. */
  predicate WellFormed(c: Card)
  {
    && AllDigits(c.numero) && |c.numero| <= 16
    && AllDigits(c.cvv) && |c.cvv| <= 3
    && AllDigits(c.mes) && MonthAccepted(c.mes)
    && AllDigits(c.ano) && |c.ano| <= 4
    && Upper(c.titular) == c.titular
  }

  /** `handleCardChange`. */
  function HandleCardChange(m: Modal, name: Field, value: string): (r: Modal)
    ensures Accepts(name, value) ==> Get(r.card, name) == Stored(name, value)
    ensures !Accepts(name, value) ==> r == m
    ensures forall f :: f != name ==> Get(r.card, f) == Get(m.card, f)
    ensures name == Numero && Accepts(name, value) ==> !r.flipped
    ensures name == Cvv && Accepts(name, value) ==> (r.flipped <==> r.card.cvv != "")
    ensures name != Numero && name != Cvv ==> r.flipped == m.flipped
  {
    var c := m.card;
    var digits := DigitsOnly(value);
    match name
    case Numero =>
      if |digits| <= 16 then Modal(c.(numero := digits), false) else m
    case Cvv =>
      if |digits| <= 3 then Modal(c.(cvv := digits), |digits| > 0) else m
    case Mes =>
      if MonthAccepted(digits) then m.(card := c.(mes := digits)) else m
    case Ano =>
      if |digits| <= 4 then m.(card := c.(ano := digits)) else m
    case Titular =>
      m.(card := c.(titular := Upper(value)))
    case OtherInput => m
  }

  /** `handleFlip`. */
  function HandleFlip(m: Modal): (r: Modal)
    ensures r.card == m.card && r.flipped != m.flipped
  {
    m.(flipped := !m.flipped)
  }

  /** Every edit keeps the stored card well formed, whatever is typed. */
  lemma ChangePreservesWellFormed(m: Modal, name: Field, value: string)
    requires WellFormed(m.card)
    ensures WellFormed(HandleCardChange(m, name, value).card)
  {
    UpperIdempotent(value);
  }

  lemma InitialWellFormed()
    ensures WellFormed(Initial.card)
  {
  }

  predicate Complete(c: Card)
  {
    c.numero != "" && c.titular != "" && c.mes != "" && c.ano != "" && c.cvv != ""
  }

  /** `!(parseInt(mes) < 1 || parseInt(mes) > 12)`: NaN fails both comparisons. */
  predicate MonthInRange(mes: string)
  {
    match ParseInt(mes)
    case None => true
    case Some(n) => 1 <= n <= 12
  }

  /** `handleProcesar`: fail-fast card checks, skipped for cash and transfer. */
  function HandleProcesar(metodo: Method, c: Card): (g: Gate)
    ensures metodo != Tarjeta ==> g == Processing(metodo)
    ensures g.Processing? ==> g.chosen == metodo
    ensures metodo == Tarjeta ==>
      (g.Processing? <==> Complete(c) && |c.numero| == 16 && MonthInRange(c.mes))
    ensures metodo == Tarjeta && !Complete(c) ==> g == Rejected(MsgIncomplete)
    ensures metodo == Tarjeta && Complete(c) && |c.numero| != 16 ==> g == Rejected(MsgLength)
  {
    if metodo != Tarjeta then Processing(metodo)
    else if !Complete(c) then Rejected(MsgIncomplete)
    else if |c.numero| != 16 then Rejected(MsgLength)
    else if !MonthInRange(c.mes) then Rejected(MsgMonth)
    else Processing(metodo)
  }

  /** On any card reachable by editing, the month check of the pay gate can
      never fire: a complete card with 16 digits always proceeds. */
  lemma MonthCheckUnreachable(c: Card)
    requires WellFormed(c) && Complete(c) && |c.numero| == 16
    ensures HandleProcesar(Tarjeta, c) == Processing(Tarjeta)
  {
  }

  /** A 13-digit card number never starts processing. */
  lemma ShortNumberBlocked(c: Card)
    requires c.numero == "4111111111111"
    ensures HandleProcesar(Tarjeta, c).Rejected?
  {
  }

  // ---------------------------------------------------------------- display

  /** `numero.replace(/\d{4}(?=\d)/g, '$& ')` on a digit-only text: a space
      after every group of four digits that is followed by another digit. */
  function Grouped(s: string): (r: string)
    requires AllDigits(s)
    ensures s != "" ==> |r| == |s| + (|s| - 1) / 4
    ensures s == "" ==> r == ""
    ensures DigitsOnly(r) == s
    decreases |s|
  {
    if |s| <= 4 then s
    else
      var rest := Grouped(s[4..]);
      DigitsOnlyConcat(s[..4] + " ", rest);
      DigitsOnlyConcat(s[..4], " ");
      assert s[..4] + s[4..] == s;
      s[..4] + " " + rest
  }

  /** `r` is `s` with a space at every fifth position: the character at any
      other position `i` is the digit `i - i / 5` of `s`. */
  predicate SpacedEveryFour(s: string, r: string)
  {
    forall i :: 0 <= i < |r| ==>
      if i % 5 == 4 then r[i] == ' '
      else 0 <= i - i / 5 < |s| && r[i] == s[i - i / 5]
  }

  /** Moving five positions keeps the place within a group and moves one group. */
  lemma ShiftByFive(j: nat)
    ensures (j + 5) % 5 == j % 5 && (j + 5) / 5 == j / 5 + 1
  {
  }

  /** Putting a group of four and a space before a spaced remainder keeps
      the layout. */
  lemma SpacedPrepend(s: string, rest: string)
    requires |s| > 4 && SpacedEveryFour(s[4..], rest)
    ensures SpacedEveryFour(s, s[..4] + " " + rest)
  {
    var r := s[..4] + " " + rest;
    forall i | 5 <= i < |r|
      ensures if i % 5 == 4 then r[i] == ' '
              else 0 <= i - i / 5 < |s| && r[i] == s[i - i / 5]
    {
      var j := i - 5;
      assert r[i] == rest[j];
      ShiftByFive(j);
      if i % 5 != 4 {
        assert rest[j] == s[4..][j - j / 5];
      }
    }
  }

  /** Where the spaces of the grouped number fall. */
  lemma {:induction false} GroupedLayout(s: string)
    requires AllDigits(s)
    ensures SpacedEveryFour(s, Grouped(s))
    decreases |s|
  {
    if |s| > 4 {
      GroupedLayout(s[4..]);
      assert Grouped(s) == s[..4] + " " + Grouped(s[4..]);
      SpacedPrepend(s, Grouped(s[4..]));
    }
  }

  /** The value shown in the number input. */
  function NumberInputValue(numero: string): string
    requires AllDigits(numero)
  {
    if numero == "" then "" else Grouped(numero)
  }

  /** A full card number is shown as 19 characters, which is the input's `maxLength`. */
  lemma FullNumberFitsInput(numero: string)
    requires AllDigits(numero) && |numero| == 16
    ensures |NumberInputValue(numero)| == 19
  {
  }

  /** The input shows the grouped number and feeds it back through
      `handleCardChange`: re-submitting what is displayed stores the same number. */
  lemma DisplayRoundTrip(m: Modal)
    requires WellFormed(m.card)
    ensures HandleCardChange(m, Numero, NumberInputValue(m.card.numero)).card == m.card
  {
    if m.card.numero == "" {
    } else {
      assert DigitsOnly(Grouped(m.card.numero)) == m.card.numero;
    }
  }

  /** `ano.slice(-2)`. */
  function LastTwo(s: string): (r: string)
    ensures |r| == if |s| < 2 then |s| else 2
    ensures r == s[|s| - |r|..]
  {
    if |s| < 2 then s else s[|s| - 2..]
  }

  /** The expiry text on the card face, `MM/YY` when empty. The month comparison
      `mes < 10` converts the stored text to a number. */
  function ExpiryDisplay(c: Card): string
    requires WellFormed(c)
  {
    var mm := if c.mes == "" then "MM" else if ParseDigits(c.mes) < 10 then "0" + c.mes else c.mes;
    var yy := if c.ano == "" then "YY" else LastTwo(c.ano);
    mm + "/" + yy
  }

  /** A single-digit month gets a leading zero, and a four-digit year shows its last two digits. */
  lemma ExpiryShape(c: Card)
    requires WellFormed(c) && |c.mes| == 1 && |c.ano| == 4
    ensures ExpiryDisplay(c) == "0" + c.mes + "/" + c.ano[2..]
  {
    assert c.mes[..0] == "";
    assert ParseDigits(c.mes) == DigitValue(c.mes[0]);
  }

  /** The leading zero is added to the stored text, so a pasted "01" shows as "001". */
  lemma ExpiryZeroPrefixedMonth(c: Card)
    requires WellFormed(c) && c.mes == "01" && c.ano == ""
    ensures ExpiryDisplay(c) == "001/YY"
  {
    assert c.mes[..1] == "0" && ("0")[..0] == "";
    assert ParseDigits(c.mes) == 1;
  }
}

=== FILE: photos.dfy ===
/** The profile-picture routes: upload a new picture and delete the current
    one. The image host is an oracle. Both routes hand the stored URL to the
    delete helper, which asks the host to destroy an image only when it can
    extract a public id from the URL and swallows every failure; the model
    records the public id the host was asked to destroy, since that request
    happens outside the database and is not undone by a later failure. What
    the host answers is ignored by both routes. */
module Photos {
  import opened Common
  import opened Store
  import opened Security
  import Cloudinary

  /** Five mebibytes, the largest accepted upload. */
  const MaxBytes := 5 * 1024 * 1024

  const MsgUserNotFound := "Usuario no encontrado"
  const MsgNotImage := "El archivo debe ser una imagen"
  const MsgTooLarge := "La imagen debe ser menor a 5MB"
  const MsgUploadFailed := "Error al subir imagen"
  const MsgNoPhoto := "El usuario no tiene foto de perfil"
  const MsgUpdated := "Foto de perfil actualizada"
  const MsgDeleted := "Foto de perfil eliminada"
  /** The framework's answer to an exception the route does not catch. */
  const MsgUnhandled := "Internal Server Error"

  /** The answer of both routes: the message, the stored URL and the user. */
  datatype Reply = Reply(mensaje: string, fotoUrl: Option<string>, idUsuario: nat, email: string)

  /** A route's step together with the public id, if any, that the host was
      asked to destroy. */
  datatype Outcome = Outcome(step: Step<Reply>, destroyed: Option<string>)

  /** What the delete helper asks the host to destroy for a stored picture:
      the public id of a URL it can parse, nothing for an empty picture or a
      URL without `/upload/`. */
  function DestroyRequest(foto: Option<string>): (r: Option<string>)
    ensures r.Some? <==> Truthy(foto) && Cloudinary.Contains(foto.value, Cloudinary.Upload)
    ensures r.Some? ==> r == Cloudinary.PublicId(foto.value)
  {
    if Truthy(foto) then Cloudinary.PublicId(foto.value) else None
  }

  /** The users table with the picture of the rows of id `id` replaced. */
  function SetPhoto(db: Db, id: nat, foto: Option<string>): (d: Db)
    ensures |d.usuarios| == |db.usuarios|
    ensures forall i :: 0 <= i < |d.usuarios| ==>
      d.usuarios[i] == (if db.usuarios[i].id == id then db.usuarios[i].(foto := foto) else db.usuarios[i])
    ensures d.(usuarios := db.usuarios) == db
    ensures UserById(db, Some(id)).Some? ==> UserById(d, Some(id)) == Some(UserById(db, Some(id)).value.(foto := foto))
  {
    var t := seq(|db.usuarios|, i requires 0 <= i < |db.usuarios| =>
      if db.usuarios[i].id == id then db.usuarios[i].(foto := foto) else db.usuarios[i]);
    FindRewrite(db.usuarios, t, (u: User) => u.id == id, (u: User) => u.(foto := foto));
    db.(usuarios := t)
  }

  /** The recorded request is the one the delete helper makes: the helper
      reports success exactly when the host answers "ok" to that id. */
  lemma DestroyRequestIsHelpers(foto: string, destroy: string -> Cloudinary.DestroyOutcome)
    requires foto != ""
    ensures Cloudinary.DeleteImage(foto, destroy) <==>
      DestroyRequest(Some(foto)).Some? && destroy(DestroyRequest(Some(foto)).value) == Cloudinary.Answered("ok")
  {
  }

  /** `file.content_type.startswith("image/")`; `None` has no such method. */
  predicate IsImage(contentType: Option<string>)
    requires contentType.Some?
  {
    StartsWith(contentType.value, "image/")
  }

  /** `upload_profile_picture`: 404 unknown user; a file sent without a
      content type makes the type check raise, which is a 500; then 400 for a
      content type that is not an image, 400 for more than five mebibytes;
      then the previous picture, if any, is handed to the delete helper, the
      file is uploaded, and the returned URL becomes the user's picture. A
      failed upload is 400. */
  function Upload(db: Db, claims: Claims, contentType: Option<string>, size: nat,
                  configured: bool, upload: Cloudinary.UploadOutcome): (o: Outcome)
    ensures UserById(db, claims.idUsuario).None? ==> o == Outcome(Fail(db, 404, MsgUserNotFound), None)
    ensures UserById(db, claims.idUsuario).Some? && contentType.None? ==>
      o == Outcome(Fail(db, 500, MsgUnhandled), None)
    ensures UserById(db, claims.idUsuario).Some? && contentType.Some? && !IsImage(contentType) ==>
      o == Outcome(Fail(db, 400, MsgNotImage), None)
    ensures UserById(db, claims.idUsuario).Some? && contentType.Some? && IsImage(contentType) && size > MaxBytes ==>
      o == Outcome(Fail(db, 400, MsgTooLarge), None)
    ensures o.destroyed.Some? <==>
      && UserById(db, claims.idUsuario).Some?
      && contentType.Some? && IsImage(contentType) && size <= MaxBytes
      && Truthy(UserById(db, claims.idUsuario).value.foto)
      && Cloudinary.Contains(UserById(db, claims.idUsuario).value.foto.value, Cloudinary.Upload)
    ensures o.destroyed.Some? ==> o.destroyed == Cloudinary.PublicId(UserById(db, claims.idUsuario).value.foto.value)
    ensures o.step.response.Ok? <==>
      && UserById(db, claims.idUsuario).Some?
      && contentType.Some? && IsImage(contentType) && size <= MaxBytes
      && Cloudinary.UploadImage(configured, upload).Url?
    ensures o.step.response.Err? ==> o.step.db == db
    ensures o.step.response.Ok? ==>
      var u := UserById(db, claims.idUsuario).value;
      var url := Cloudinary.UploadImage(configured, upload).url;
      && o.step.response.body == Reply(MsgUpdated, url, u.id, u.email)
      && UserById(o.step.db, Some(u.id)) == Some(u.(foto := url))
      && o.step.db.(usuarios := db.usuarios) == db
  {
    match UserById(db, claims.idUsuario)
    case None => Outcome(Fail(db, 404, MsgUserNotFound), None)
    case Some(u) =>
      if contentType.None? then Outcome(Fail(db, 500, MsgUnhandled), None)
      else if !IsImage(contentType) then Outcome(Fail(db, 400, MsgNotImage), None)
      else if size > MaxBytes then Outcome(Fail(db, 400, MsgTooLarge), None)
      else
        var destroyed := DestroyRequest(u.foto);
        match Cloudinary.UploadImage(configured, upload)
        case Http(status) => Outcome(Fail(db, status, MsgUploadFailed), destroyed)
        case Url(url) => Outcome(Step(Ok(Reply(MsgUpdated, url, u.id, u.email)), SetPhoto(db, u.id, url)), destroyed)
  }

  /** When the host refuses the new picture, the stored URL is the old one,
      although the host was already asked to destroy the image it names. */
  lemma FailedUploadKeepsOldUrl(db: Db, claims: Claims, contentType: Option<string>, size: nat, upload: Cloudinary.UploadOutcome)
    requires UserById(db, claims.idUsuario).Some? && Truthy(UserById(db, claims.idUsuario).value.foto)
    requires contentType.Some? && IsImage(contentType) && size <= MaxBytes
    requires upload.UploadRaised?
    ensures var o := Upload(db, claims, contentType, size, true, upload);
      && o.destroyed == Cloudinary.PublicId(UserById(db, claims.idUsuario).value.foto.value)
      && o.step.response == Err(400, MsgUploadFailed)
      && UserById(o.step.db, claims.idUsuario) == UserById(db, claims.idUsuario)
  {
  }

  /** `delete_profile_picture`: 404 unknown user, 400 when the user has no
      picture; otherwise the picture is handed to the delete helper, whatever
      it returns, and the user's picture becomes `None`. */
  function Delete(db: Db, claims: Claims): (o: Outcome)
    ensures UserById(db, claims.idUsuario).None? ==> o == Outcome(Fail(db, 404, MsgUserNotFound), None)
    ensures UserById(db, claims.idUsuario).Some? && !Truthy(UserById(db, claims.idUsuario).value.foto) ==>
      o == Outcome(Fail(db, 400, MsgNoPhoto), None)
    ensures o.step.response.Ok? <==> UserById(db, claims.idUsuario).Some? && Truthy(UserById(db, claims.idUsuario).value.foto)
    ensures o.destroyed.Some? <==>
      o.step.response.Ok? && Cloudinary.Contains(UserById(db, claims.idUsuario).value.foto.value, Cloudinary.Upload)
    ensures o.destroyed.Some? ==> o.destroyed == Cloudinary.PublicId(UserById(db, claims.idUsuario).value.foto.value)
    ensures o.step.response.Ok? ==>
      var u := UserById(db, claims.idUsuario).value;
      && o.step.response.body == Reply(MsgDeleted, None, u.id, u.email)
      && UserById(o.step.db, Some(u.id)) == Some(u.(foto := None))
      && o.step.db.(usuarios := db.usuarios) == db
  {
    match UserById(db, claims.idUsuario)
    case None => Outcome(Fail(db, 404, MsgUserNotFound), None)
    case Some(u) =>
      if !Truthy(u.foto) then Outcome(Fail(db, 400, MsgNoPhoto), None)
      else Outcome(Step(Ok(Reply(MsgDeleted, None, u.id, u.email)), SetPhoto(db, u.id, None)), DestroyRequest(u.foto))
  }

  /** A picture uploaded with a non-empty URL can be deleted next, and a
      second delete is refused with 400. */
  lemma UploadThenDelete(db: Db, claims: Claims, contentType: Option<string>, size: nat,
                         configured: bool, upload: Cloudinary.UploadOutcome)
    requires Upload(db, claims, contentType, size, configured, upload).step.response.Ok?
    requires Truthy(Upload(db, claims, contentType, size, configured, upload).step.response.body.fotoUrl)
    ensures var d1 := Upload(db, claims, contentType, size, configured, upload).step.db;
      var d2 := Delete(d1, claims).step;
      && d2.response.Ok?
      && Delete(d2.db, claims).step.response == Err(400, MsgNoPhoto)
  {
    var u := UserById(db, claims.idUsuario).value;
    assert claims.idUsuario == Some(u.id as int);
  }
}

=== FILE: player_dashboard.dfy ===
/** The player's dashboard: the offerings still open to them, the count of
    their enrolments, and the enrolment that follows a confirmed payment. */
module PlayerDashboard {
  import opened Common
  import opened Ui
  import opened Listing

  datatype PDash = PDash(
    torneos: seq<Offering>,
    misInscripciones: int,
    error: Option<string>,
    toast: Option<Toast>,
    modalOpen: bool,
    /** `modalData.idTorneo` and `modalData.costo`. */
    modalId: int,
    modalCosto: int,
    /** The offering whose enrolment is in flight, if any. */
    inscribiendo: Option<int>)

  const MsgEnrolled := "¡Inscripción exitosa! Ya estás registrado en el torneo"
  const MsgAlready := "Ya estás inscrito en este torneo"
  const MsgRefused := "No puedes inscribirse en este torneo"
  const MsgNoPlayer := "No se encontró información del jugador"

  /** The loading effect for offerings: only those dated on or after
      `firstDay`, earliest first. `firstDay` is `FirstShownDay` of the
      current local day and UTC offset. */
  function LoadTorneos(d: PDash, reply: Reply<seq<Offering>>, firstDay: int): (r: PDash)
    ensures reply.Done? ==>
      && SortedBy(r.torneos, (t: Offering) => t.fecha)
      && (forall t :: t in r.torneos <==> t in reply.value && t.fecha >= firstDay)
    ensures reply.Failed? ==> r.torneos == d.torneos && r.error == Some(MessageText(reply.failure))
    ensures r.misInscripciones == d.misInscripciones
  {
    match reply
    case Done(data) => d.(torneos := Upcoming(data, (t: Offering) => t.fecha, firstDay))
    case Failed(f) => d.(error := Some(MessageText(f)))
  }

  /** The loading effect for the enrolment counter, given the number of
      enrolments fetched; a failure is only logged. */
  function LoadCount(d: PDash, reply: Reply<nat>): (r: PDash)
    ensures reply.Done? ==> r.misInscripciones == reply.value
    ensures reply.Failed? ==> r == d
    ensures r.torneos == d.torneos
  {
    match reply
    case Done(n) => d.(misInscripciones := n)
    case Failed(_) => d
  }

  function OpenModal(d: PDash, id: int, costo: int): (r: PDash)
    ensures r.modalOpen && r.modalId == id && r.modalCosto == costo
    ensures r.torneos == d.torneos && r.misInscripciones == d.misInscripciones
  {
    d.(modalOpen := true, modalId := id, modalCosto := costo)
  }

  /** The toast for a failed enrolment, by the response status. */
  function FailureToast(f: HttpFailure): (t: Toast)
    ensures t.kind == Warning <==> f.status == Some(409)
    ensures f.status == Some(409) ==> t.message == MsgAlready
    ensures f.status == Some(400) ==> t == Toast(MsgRefused, Error)
    ensures f.status != Some(409) && f.status != Some(400) ==>
      t == Toast("Error al inscribirse: " + MessageText(f), Error)
  {
    if f.status == Some(409) then Toast(MsgAlready, Warning)
    else if f.status == Some(400) then Toast(MsgRefused, Error)
    else Toast("Error al inscribirse: " + MessageText(f), Error)
  }

  /** `handleConfirmarPago`. `playerId` is the cached user's `id_jugador`
      (`None` when there is no cached user); `reply` is the outcome the
      enrolment request would have. */
  function ConfirmarPago(d: PDash, playerId: Option<int>, reply: Reply<()>): (r: PDash)
    ensures r.inscribiendo.None?
    ensures (playerId.None? || playerId == Some(0)) ==>
      && r.torneos == d.torneos && r.misInscripciones == d.misInscripciones
      && r.toast == Some(FailureToast(HttpFailure(None, None, None, Some(MsgNoPlayer))))
    ensures playerId.Some? && playerId != Some(0) && reply.Done? ==>
      && r.torneos == WithoutId(d.torneos, d.modalId)
      && r.misInscripciones == d.misInscripciones + 1
      && !r.modalOpen && r.toast == Some(Toast(MsgEnrolled, Success))
    ensures reply.Failed? ==>
      && r.torneos == d.torneos && r.misInscripciones == d.misInscripciones
      && r.modalOpen == d.modalOpen
  {
    if playerId.None? || playerId == Some(0) then
      d.(toast := Some(FailureToast(HttpFailure(None, None, None, Some(MsgNoPlayer)))), inscribiendo := None)
    else
      match reply
      case Done(_) =>
        d.(torneos := WithoutId(d.torneos, d.modalId),
           misInscripciones := d.misInscripciones + 1,
           modalOpen := false,
           toast := Some(Toast(MsgEnrolled, Success)),
           inscribiendo := None)
      case Failed(f) =>
        d.(toast := Some(FailureToast(f)), inscribiendo := None)
  }

  /** `handleCancelarModal`. */
  function CancelModal(d: PDash): (r: PDash)
    ensures !r.modalOpen && r.inscribiendo.None?
    ensures r.torneos == d.torneos && r.misInscripciones == d.misInscripciones
  {
    d.(modalOpen := false, inscribiendo := None)
  }

  // ---------------------------------------------------------------- properties

  /** Without a player id the handler throws before the request, so the
      request's outcome cannot influence the result. */
  lemma NoPlayerNoRequest(d: PDash, r1: Reply<()>, r2: Reply<()>)
    ensures ConfirmarPago(d, None, r1) == ConfirmarPago(d, None, r2)
  {
  }

  /** A successful enrolment makes the offering disappear from the available
      list, and every other offering stays. */
  lemma EnrolRemovesOffering(d: PDash, id: int)
    requires id != 0
    ensures forall t :: t in ConfirmarPago(d, Some(id), Done(())).torneos ==> t in d.torneos && t.id != d.modalId
    ensures forall t :: t in d.torneos && t.id != d.modalId ==> t in ConfirmarPago(d, Some(id), Done(())).torneos
  {
  }

  /** On a keyed list, enrolling in a listed offering shortens the list by
      one while the counter grows by one: their sum is unchanged. */
  lemma EnrolKeepsBalance(d: PDash, id: int, k: int)
    requires id != 0 && UniqueIds(d.torneos) && 0 <= k < |d.torneos| && d.modalId == d.torneos[k].id
    ensures var r := ConfirmarPago(d, Some(id), Done(()));
      |r.torneos| + r.misInscripciones == |d.torneos| + d.misInscripciones
  {
    WithoutPresentId(d.torneos, k, CountOr0);
  }

  /** A failed enrolment is classified only by status: 409 is the one warning. */
  lemma ConflictIsOnlyWarning(d: PDash, id: int, f: HttpFailure)
    requires id != 0
    ensures ConfirmarPago(d, Some(id), Failed(f)).toast.value.kind == Warning <==> f.status == Some(409)
  {
  }
}

=== FILE: profile.dfy ===
/** The profile page: the profile derived from the cached user, initials
    and avatar, the save request and the photo actions, and what each leaves
    in the cached user. */
module Profile {
  import opened Common
  import opened Ui
  import opened Session

  datatype Perfil = Perfil(
    nombre: string, apellido: string, email: string, telefono: string,
    direccion: string, ciudad: string, pais: string)

  /** `user.key || fallback` for a text property. */
  function TextOr(user: Obj, key: string, fallback: string): (r: string)
    ensures TruthyAt(user, key) && user[key].Str? ==> r == user[key].s
    ensures !TruthyAt(user, key) ==> r == fallback
  {
    if TruthyAt(user, key) && user[key].Str? then user[key].s else fallback
  }

  /** The page treats the user as an organizer when `id_organizador` is truthy. */
  predicate IsOrganizador(user: Obj)
  {
    TruthyAt(user, "id_organizador")
  }

  /** The profile derived from a cached user: an organizer's name comes from
      `nombre_organizador` and has no surname; defaults fill the gaps. */
  function Derive(user: Obj): (p: Perfil)
    ensures IsOrganizador(user) ==> p.apellido == "" && p.nombre == TextOr(user, "nombre_organizador", "Organizador")
    ensures !IsOrganizador(user) ==>
      p.nombre == TextOr(user, "nombre", "Usuario") && p.apellido == TextOr(user, "apellido", "")
    ensures p.nombre != ""
    ensures p.telefono == TextOr(user, "telefono", "+34 912 345 678") && p.email == TextOr(user, "email", "user@example.com")
    ensures p.ciudad == TextOr(user, "ciudad", "Madrid") && p.pais == TextOr(user, "pais", "España")
  {
    var org := IsOrganizador(user);
    Perfil(
      if org then TextOr(user, "nombre_organizador", "Organizador") else TextOr(user, "nombre", "Usuario"),
      if org then "" else TextOr(user, "apellido", ""),
      TextOr(user, "email", "user@example.com"),
      TextOr(user, "telefono", "+34 912 345 678"),
      TextOr(user, "direccion", ""),
      TextOr(user, "ciudad", "Madrid"),
      TextOr(user, "pais", "España"))
  }

  /** The address record fetched for `fk_direccion_id`. */
  datatype AddressData = AddressData(direccion: Option<string>, ciudad: Option<string>, pais: Option<string>)

  /** The address effect settling: the address, city and country are
      replaced (with defaults); a failure is only logged. */
  function AddressLoaded(p: Perfil, reply: Reply<AddressData>): (r: Perfil)
    ensures reply.Failed? ==> r == p
    ensures reply.Done? ==>
      && r.direccion == reply.value.direccion.GetOr("")
      && r.ciudad == FirstTruthy(reply.value.ciudad, None, "Madrid")
      && r.pais == FirstTruthy(reply.value.pais, None, "España")
    ensures r.nombre == p.nombre && r.apellido == p.apellido && r.telefono == p.telefono && r.email == p.email
  {
    match reply
    case Failed(_) => p
    case Done(a) =>
      p.(direccion := FirstTruthy(a.direccion, None, ""),
         ciudad := FirstTruthy(a.ciudad, None, "Madrid"),
         pais := FirstTruthy(a.pais, None, "España"))
  }

  /** `getInitials`: first letter of the name (or `U`) and of the surname, upper-cased. */
  function Initials(p: Perfil): (r: string)
    ensures 1 <= |r| <= 2
    ensures |r| == 2 <==> p.apellido != ""
    ensures p.nombre != "" ==> r[0] == UpperChar(p.nombre[0])
    ensures p.nombre == "" ==> r[0] == 'U'
    ensures p.apellido != "" ==> r[1] == UpperChar(p.apellido[0])
    ensures forall i :: 0 <= i < |r| ==> !IsLower(r[i])
  {
    var n := if p.nombre == "" then "U" else p.nombre;
    Upper([n[0]] + (if p.apellido == "" then "" else [p.apellido[0]]))
  }

  const AvatarPrefix := "https://ui-avatars.com/api/?name="
  const AvatarSuffix := "&background=0D8ABC&color=fff&size=80"

  /** `getProfileImage`: the stored photo, else an avatar of the initials. */
  function ProfileImage(foto: Option<string>, p: Perfil): (url: string)
    ensures Truthy(foto) ==> url == foto.value
    ensures !Truthy(foto) ==>
      && |url| == |AvatarPrefix| + |Initials(p)| + |AvatarSuffix|
      && StartsWith(url, AvatarPrefix)
      && url[|AvatarPrefix|..|url| - |AvatarSuffix|] == Initials(p)
      && url[|url| - |AvatarSuffix|..] == AvatarSuffix
  {
    if Truthy(foto) then foto.value
    else
      var url := AvatarPrefix + Initials(p) + AvatarSuffix;
      assert url[..|AvatarPrefix|] == AvatarPrefix;
      url
  }

  // ---------------------------------------------------------------- saving

  datatype Endpoint = JugadorPut(id: Value) | OrganizadorPut(id: Value)

  /** The update request: telephone and address always; a player adds name
      and surname, an organizer its organization name. */
  function SaveRequest(user: Obj, p: Perfil): (r: (Endpoint, Obj))
    ensures "telefono" in r.1 && "direccion" in r.1
    ensures r.1["telefono"] == Str(p.telefono) && r.1["direccion"] == Str(p.direccion)
    ensures IsOrganizador(user) <==> r.0.OrganizadorPut?
    ensures IsOrganizador(user) ==>
      r.1.Keys == {"telefono", "direccion", "nombre_organizador"} && r.1["nombre_organizador"] == Str(p.nombre)
      && r.0.id == user["id_organizador"]
    ensures !IsOrganizador(user) ==>
      r.1.Keys == {"telefono", "direccion", "nombre", "apellido"}
      && r.1["nombre"] == Str(p.nombre) && r.1["apellido"] == Str(p.apellido)
      && r.0.id == (if "id_jugador" in user then user["id_jugador"] else Null)
  {
    var base := map["telefono" := Str(p.telefono), "direccion" := Str(p.direccion)];
    if IsOrganizador(user) then
      (OrganizadorPut(user["id_organizador"]), base["nombre_organizador" := Str(p.nombre)])
    else
      (JugadorPut(if "id_jugador" in user then user["id_jugador"] else Null),
       base["nombre" := Str(p.nombre)]["apellido" := Str(p.apellido)])
  }

  /** The keys a save overwrites in the cached user. */
  function SavedKeys(org: bool): set<string>
  {
    (if org then {"nombre_organizador"} else {"nombre", "apellido"}) + {"email", "telefono", "direccion", "ciudad", "pais"}
  }

  /** `{ ...user, <name fields>, email, telefono, direccion, ciudad, pais }`. */
  function Merge(user: Obj, p: Perfil): (r: Obj)
    ensures r.Keys == user.Keys + SavedKeys(IsOrganizador(user))
    ensures forall k :: k in user && k !in SavedKeys(IsOrganizador(user)) ==> r[k] == user[k]
    ensures r["telefono"] == Str(p.telefono) && r["email"] == Str(p.email) && r["direccion"] == Str(p.direccion)
    ensures IsOrganizador(user) ==> r["nombre_organizador"] == Str(p.nombre)
    ensures !IsOrganizador(user) ==> r["nombre"] == Str(p.nombre) && r["apellido"] == Str(p.apellido)
  {
    var named := if IsOrganizador(user) then user["nombre_organizador" := Str(p.nombre)]
                 else user["nombre" := Str(p.nombre)]["apellido" := Str(p.apellido)];
    named["email" := Str(p.email)]["telefono" := Str(p.telefono)]["direccion" := Str(p.direccion)]
         ["ciudad" := Str(p.ciudad)]["pais" := Str(p.pais)]
  }

  /** A merged user keeps its kind, so the page derives the same role after a save. */
  lemma MergeKeepsRole(user: Obj, p: Perfil)
    ensures IsOrganizador(Merge(user, p)) == IsOrganizador(user)
  {
  }

  /** Re-deriving the profile from the merged user gives back what was
      saved, for fields that were filled in. */
  lemma MergeThenDerive(user: Obj, p: Perfil)
    requires p.nombre != "" && p.telefono != "" && p.email != "" && p.ciudad != "" && p.pais != ""
    ensures var q := Derive(Merge(user, p));
      q.nombre == p.nombre && q.telefono == p.telefono && q.email == p.email
      && q.direccion == p.direccion && q.ciudad == p.ciudad && q.pais == p.pais
      && (!IsOrganizador(user) ==> q.apellido == p.apellido)
  {
    MergeKeepsRole(user, p);
  }

  /** The page state: the in-memory user, the cached user (what `getUser`
      would return on the next page load), the photo, the profile being
      edited and the edit flag. */
  datatype Page = Page(user: Obj, cached: Obj, foto: Option<string>, perfil: Perfil, editing: bool, toast: Option<Toast>)

  /** `handleSave` as written. The cache write calls `authService.setUser`,
      which the auth service does not define: after the server accepts the
      change, that call throws (`thrown` is the engine's message), so
      neither the cache nor the in-memory user is updated, edit mode stays
      on and the page reports an error. */
  function SaveAsWritten(pg: Page, reply: Reply<()>, thrown: string): (r: Page)
    ensures r.cached == pg.cached && r.user == pg.user && r.editing == pg.editing && r.perfil == pg.perfil
    ensures reply.Done? ==> r.toast == Some(Toast("Error al guardar cambios: " + thrown, Error))
    ensures reply.Failed? ==> r.toast == Some(Toast("Error al guardar cambios: " + MessageText(reply.failure), Error))
  {
    match reply
    case Failed(e) => pg.(toast := Some(Toast("Error al guardar cambios: " + MessageText(e), Error)))
    case Done(_) => pg.(toast := Some(Toast("Error al guardar cambios: " + thrown, Error)))
  }

  /** `handleSave` with the cache write the code evidently intends. */
  function Save(pg: Page, reply: Reply<()>): (r: Page)
    ensures reply.Done? ==>
      && r.cached == Merge(pg.user, pg.perfil) && r.user == r.cached && !r.editing
      && r.toast == Some(Toast("Cambios guardados exitosamente", Success))
    ensures reply.Failed? ==> r == SaveAsWritten(pg, reply, "")
  {
    match reply
    case Failed(e) => pg.(toast := Some(Toast("Error al guardar cambios: " + MessageText(e), Error)))
    case Done(_) =>
      var merged := Merge(pg.user, pg.perfil);
      pg.(user := merged, cached := merged, editing := false,
          toast := Some(Toast("Cambios guardados exitosamente", Success)))
  }

  /** As written, a saved telephone is lost on the next page load: the server
      accepted it, but the profile derived from the cache still shows the old
      one. Only an organizer's save can be accepted, since a player's request
      always carries the address text the player route cannot store. */
  lemma SavedPhoneLostOnReload(pg: Page, thrown: string)
    requires IsOrganizador(pg.user) && pg.cached == pg.user
    requires pg.perfil.telefono != "" && pg.perfil.telefono != Derive(pg.cached).telefono
    ensures Derive(SaveAsWritten(pg, Done(()), thrown).cached).telefono != pg.perfil.telefono
    ensures Derive(Save(pg, Done(())).cached).telefono == pg.perfil.telefono
  {
    MergeKeepsRole(pg.user, pg.perfil);
    assert Merge(pg.user, pg.perfil)["telefono"] == Str(pg.perfil.telefono);
  }

  // ---------------------------------------------------------------- photo

  /** The photo upload as written: the new URL is shown, then the cache
      write throws, so the cache keeps the old photo and the page reports an error. */
  function PhotoUploadedAsWritten(pg: Page, reply: Reply<string>, thrown: string): (r: Page)
    ensures reply.Done? ==>
      && r.foto == Some(reply.value) && r.cached == pg.cached && r.user == pg.user
      && r.toast == Some(Toast("Error al subir la foto: " + thrown, Error))
    ensures reply.Failed? ==> r.foto == pg.foto && r.cached == pg.cached
  {
    match reply
    case Failed(e) => pg.(toast := Some(Toast("Error al subir la foto: " + MessageText(e), Error)))
    case Done(url) => pg.(foto := Some(url), toast := Some(Toast("Error al subir la foto: " + thrown, Error)))
  }

  /** The photo upload with the cache write: `foto_perfil` becomes the new URL. */
  function PhotoUploaded(pg: Page, reply: Reply<string>): (r: Page)
    ensures reply.Done? ==>
      && r.foto == Some(reply.value) && r.cached == pg.user["foto_perfil" := Str(reply.value)]
      && r.user == r.cached && r.toast == Some(Toast("Foto de perfil actualizada exitosamente", Success))
    ensures reply.Failed? ==> r == PhotoUploadedAsWritten(pg, reply, "")
  {
    match reply
    case Failed(e) => pg.(toast := Some(Toast("Error al subir la foto: " + MessageText(e), Error)))
    case Done(url) =>
      var u := pg.user["foto_perfil" := Str(url)];
      pg.(foto := Some(url), user := u, cached := u, toast := Some(Toast("Foto de perfil actualizada exitosamente", Success)))
  }

  /** The photo removal as written: the photo disappears from view but the
      cache still holds it. */
  function PhotoDeletedAsWritten(pg: Page, reply: Reply<()>, thrown: string): (r: Page)
    ensures reply.Done? ==> r.foto.None? && r.cached == pg.cached
    ensures reply.Failed? ==> r.foto == pg.foto && r.cached == pg.cached
  {
    match reply
    case Failed(e) => pg.(toast := Some(Toast("Error al eliminar la foto: " + MessageText(e), Error)))
    case Done(_) => pg.(foto := None, toast := Some(Toast("Error al eliminar la foto: " + thrown, Error)))
  }

  /** The photo removal with the cache write: `foto_perfil` becomes `null`. */
  function PhotoDeleted(pg: Page, reply: Reply<()>): (r: Page)
    ensures reply.Done? ==> r.foto.None? && r.cached == pg.user["foto_perfil" := Null] && r.user == r.cached
    ensures reply.Failed? ==> r == PhotoDeletedAsWritten(pg, reply, "")
  {
    match reply
    case Failed(e) => pg.(toast := Some(Toast("Error al eliminar la foto: " + MessageText(e), Error)))
    case Done(_) =>
      var u := pg.user["foto_perfil" := Null];
      pg.(foto := None, user := u, cached := u, toast := Some(Toast("Foto de perfil eliminada", Success)))
  }

  /** After a removal the page shows the initials avatar; a reload from the
      cache agrees only in the corrected version. */
  lemma DeletedPhotoShowsAvatar(pg: Page)
    ensures !Truthy(PhotoDeleted(pg, Done(())).foto)
    ensures !TruthyAt(PhotoDeleted(pg, Done(())).cached, "foto_perfil")
  {
  }
}

=== FILE: register_player.dfy ===
/** The player sign-up page: a free-form field map edited by name, the
    country-to-city cascade, the password gate, and the two requests of a
    submission — the address first, then the player that points at it. */
module RegisterPlayer {
  import opened Common
  import opened Ui

  datatype City = City(id: int, nombre: string)

  /** `formData`: input name to text. */
  type FormData = map<string, string>

  datatype Reg = Reg(form: FormData, ciudades: seq<City>, error: string, loading: bool, navigated: bool)

  const Fields := ["email", "contraseña", "contraseñaConfirm", "nombre", "apellido", "telefono", "pais", "ciudad", "direccion"]

  const MsgMismatch := "Las contraseñas no coinciden"
  const MsgDefault := "Error al registrar jugador"

  function Field(f: FormData, name: string): string
  {
    if name in f then f[name] else ""
  }

  /** The page as first rendered: every field blank. */
  function Initial(): (r: Reg)
    ensures forall k :: k in Fields ==> Field(r.form, k) == ""
    ensures r.form.Keys == set k | k in Fields
  {
    Reg(map k | k in Fields :: "", [], "", false, false)
  }

  /** `handleChange`: `{ ...prev, [name]: value }`. */
  function HandleChange(r: Reg, name: string, value: string): (s: Reg)
    ensures Field(s.form, name) == value
    ensures forall k :: k != name ==> Field(s.form, k) == Field(r.form, k)
    ensures s.form.Keys == r.form.Keys + {name}
    ensures s.ciudades == r.ciudades && s.error == r.error
  {
    r.(form := r.form[name := value])
  }

  /** Edits of different fields commute, and a later edit of the same field wins. */
  lemma ChangesCommute(r: Reg, a: string, va: string, b: string, vb: string)
    ensures a != b ==> HandleChange(HandleChange(r, a, va), b, vb) == HandleChange(HandleChange(r, b, vb), a, va)
    ensures HandleChange(HandleChange(r, a, va), a, vb) == HandleChange(r, a, vb)
  {
    if a != b {
      assert r.form[a := va][b := vb] == r.form[b := vb][a := va];
    }
    assert r.form[a := va][a := vb] == r.form[a := vb];
  }

  /** The city effect on a country change. With a country chosen, a
      successful fetch replaces the options and blanks the city; a failed
      one changes nothing. With none chosen, nothing is fetched. */
  function CityEffect(r: Reg, reply: Reply<seq<City>>): (s: Reg)
    ensures Field(r.form, "pais") == "" ==> s == r
    ensures Field(r.form, "pais") != "" && reply.Done? ==>
      s.ciudades == reply.value && Field(s.form, "ciudad") == ""
      && forall k :: k != "ciudad" ==> Field(s.form, k) == Field(r.form, k)
    ensures reply.Failed? ==> s == r
  {
    if Field(r.form, "pais") == "" then r
    else match reply
      case Done(cs) => r.(ciudades := cs, form := r.form["ciudad" := ""])
      case Failed(_) => r
  }

  /** The two request bodies of a submission. */
  datatype Request =
    | PostAddress(direccion: string, fkCiudad: Option<nat>)
    | PostPlayer(nombre: string, apellido: string, telefono: string, email: string, contrasena: string, fkDireccion: int)

  /** `handleSubmit`. `addressReply` is the outcome of the address request
      (the new address id on success) and `playerReply` that of the player
      request; the result carries the requests sent, in order. */
  function Submit(r: Reg, addressReply: Reply<int>, playerReply: Reply<()>): (res: (Reg, seq<Request>))
    ensures Field(r.form, "contraseña") != Field(r.form, "contraseñaConfirm") ==>
      res.1 == [] && res.0 == r.(error := MsgMismatch)
    ensures Field(r.form, "contraseña") == Field(r.form, "contraseñaConfirm") ==>
      && |res.1| >= 1
      && res.1[0] == PostAddress(Field(r.form, "direccion"), ParseInt(Field(r.form, "ciudad")))
      && !res.0.loading
    ensures |res.1| == 2 <==>
      Field(r.form, "contraseña") == Field(r.form, "contraseñaConfirm") && addressReply.Done?
    ensures res.0.navigated <==> r.navigated || (|res.1| == 2 && playerReply.Done?)
    ensures res.0.form == r.form && res.0.ciudades == r.ciudades
  {
    var start := r.(error := "");
    if Field(r.form, "contraseña") != Field(r.form, "contraseñaConfirm") then
      (start.(error := MsgMismatch), [])
    else
      var f := r.form;
      var address := PostAddress(Field(f, "direccion"), ParseInt(Field(f, "ciudad")));
      match addressReply
      case Failed(e) =>
        (start.(error := FirstTruthy(e.detail, e.dataMessage, MsgDefault), loading := false), [address])
      case Done(idDireccion) =>
        var player := PostPlayer(Field(f, "nombre"), Field(f, "apellido"), Field(f, "telefono"),
                                 Field(f, "email"), Field(f, "contraseña"), idDireccion);
        match playerReply
        case Done(_) => (start.(loading := false, navigated := true), [address, player])
        case Failed(e) =>
          (start.(error := FirstTruthy(e.detail, e.dataMessage, MsgDefault), loading := false), [address, player])
  }

  /** The player request always follows a created address and points at it. */
  lemma PlayerUsesCreatedAddress(r: Reg, addressReply: Reply<int>, playerReply: Reply<()>)
    ensures var reqs := Submit(r, addressReply, playerReply).1;
      forall i :: 0 <= i < |reqs| && reqs[i].PostPlayer? ==>
        i == 1 && reqs[0].PostAddress? && addressReply == Done(reqs[i].fkDireccion)
  {
  }

  /** A failure at either step reports the server's detail, else its
      message, else the default text; the form is kept for another try. */
  lemma FailureReportsDetailFirst(r: Reg, e: HttpFailure, playerReply: Reply<()>)
    requires Field(r.form, "contraseña") == Field(r.form, "contraseñaConfirm")
    ensures var s := Submit(r, Failed(e), playerReply).0;
      s.error == FirstTruthy(e.detail, e.dataMessage, MsgDefault) && s.navigated == r.navigated && s.form == r.form
  {
  }
}

=== FILE: schemas.dfy ===
/** Request-body validation of the back end. Each body collects the
    violations of all its fields, in declaration order; within a field the
    declared constraints (length, `gt`) are checked first and the field's own
    validator runs only when they pass. Money is in cents, dates are day
    numbers; e-mail syntax is an oracle. */
module Schemas {
  import opened Common

  datatype Rule =
    | TooShort(min: nat)
    | TooLong(max: nat)
    | NotGreaterThanZero
    | NotLetters
    | InThePast
    | TooHigh
    | BadEmail
    | NotAChoice

  datatype Violation = Violation(field: string, rule: Rule)

  /** `Field(min_length=lo, max_length=hi)` on a text. */
  function Length(field: string, v: string, lo: nat, hi: Option<nat>): (r: seq<Violation>)
    ensures |r| <= 1
    ensures r == [] <==> lo <= |v| && (hi.Some? ==> |v| <= hi.value)
    ensures r != [] ==> r[0].field == field
  {
    if |v| < lo then [Violation(field, TooShort(lo))]
    else if hi.Some? && |v| > hi.value then [Violation(field, TooLong(hi.value))]
    else []
  }

  /** Python's `str.isalpha` for one character, for the Latin-1 range: the
      ASCII letters and the accented letters of Western European names. */
  predicate IsAlphaChar(c: char)
  {
    IsLetter(c) || c == 'ª' || c == 'µ' || c == 'º' || ('À' <= c <= 'ÿ' && c != '×' && c != '÷')
  }

  /** `str.isalpha`: non-empty and letters only. */
  predicate IsAlpha(s: string)
  {
    s != [] && forall i :: 0 <= i < |s| ==> IsAlphaChar(s[i])
  }

  /** A player's name or surname: 2 to 50 characters, then letters only. */
  function NameField(field: string, v: string): (r: seq<Violation>)
    ensures r == [] <==> 2 <= |v| <= 50 && IsAlpha(v)
    ensures |r| <= 1
    ensures r == [Violation(field, NotLetters)] <==> 2 <= |v| <= 50 && !IsAlpha(v)
  {
    var len := Length(field, v, 2, Some(50));
    if len != [] then len else if !IsAlpha(v) then [Violation(field, NotLetters)] else []
  }

  function EmailField(v: string, validEmail: string -> bool): (r: seq<Violation>)
    ensures r == [] <==> validEmail(v)
  {
    if validEmail(v) then [] else [Violation("email", BadEmail)]
  }

  // ---------------------------------------------------------------- bodies

  datatype JugadorCreate = JugadorCreate(
    nombre: string, apellido: string, telefono: string, fkDireccion: int, email: string, contrasena: string)

  /** The player registration body. */
  function ValidateJugador(b: JugadorCreate, validEmail: string -> bool): (r: seq<Violation>)
    ensures r == [] <==>
      && 2 <= |b.nombre| <= 50 && IsAlpha(b.nombre)
      && 2 <= |b.apellido| <= 50 && IsAlpha(b.apellido)
      && 7 <= |b.telefono| <= 20
      && validEmail(b.email)
      && |b.contrasena| >= 6
    ensures forall i :: 0 <= i < |r| ==> r[i].field in {"nombre", "apellido", "telefono", "email", "contraseña"}
  {
    NameField("nombre", b.nombre) + NameField("apellido", b.apellido)
    + Length("telefono", b.telefono, 7, Some(20))
    + EmailField(b.email, validEmail)
    + Length("contraseña", b.contrasena, 6, None)
  }

  datatype OrganizadorCreate = OrganizadorCreate(nombre: string, fkDireccion: int, email: string, contrasena: string)

  /** The organizer registration body. */
  function ValidateOrganizador(b: OrganizadorCreate, validEmail: string -> bool): (r: seq<Violation>)
    ensures r == [] <==> 2 <= |b.nombre| <= 100 && validEmail(b.email) && |b.contrasena| >= 6
    ensures forall i :: 0 <= i < |r| ==> r[i].field in {"nombre_organizador", "email", "contraseña"}
  {
    Length("nombre_organizador", b.nombre, 2, Some(100))
    + EmailField(b.email, validEmail)
    + Length("contraseña", b.contrasena, 6, None)
  }

  datatype UsuarioCreate = UsuarioCreate(email: string, contrasena: string, tipo: string)

  /** The user body: the kind must be one of the two enum values. */
  function ValidateUsuario(b: UsuarioCreate, validEmail: string -> bool): (r: seq<Violation>)
    ensures r == [] <==> validEmail(b.email) && |b.contrasena| >= 6 && b.tipo in {"jugador", "organizador"}
  {
    EmailField(b.email, validEmail)
    + Length("contraseña", b.contrasena, 6, None)
    + (if b.tipo in {"jugador", "organizador"} then [] else [Violation("tipo_usuario", NotAChoice)])
  }

  /** Largest accepted offering cost, 999999, in cents. */
  const MaxCostCents := 99999900

  datatype TorneoOrganizadorCreate = TorneoOrganizadorCreate(fkTorneo: int, fecha: int, costo: int, fkCiudad: int)

  /** The offering body: the date may not be before `today`; the cost must
      be positive (the declared `gt=0`) and then at most 999999. */
  function ValidateOffering(b: TorneoOrganizadorCreate, today: int): (r: seq<Violation>)
    ensures r == [] <==> b.fecha >= today && 0 < b.costo <= MaxCostCents
    ensures b.fecha < today <==> Violation("fecha_torneo", InThePast) in r
    ensures b.costo <= 0 <==> Violation("costo", NotGreaterThanZero) in r
    ensures b.costo > MaxCostCents <==> Violation("costo", TooHigh) in r
    ensures |r| <= 2
  {
    (if b.fecha < today then [Violation("fecha_torneo", InThePast)] else [])
    + (if b.costo <= 0 then [Violation("costo", NotGreaterThanZero)]
       else if b.costo > MaxCostCents then [Violation("costo", TooHigh)]
       else [])
  }

  /** The boundaries: today and one cent pass, yesterday and zero fail, and the
      ceiling is inclusive. */
  lemma OfferingBoundaries(today: int)
    ensures ValidateOffering(TorneoOrganizadorCreate(1, today, 1, 1), today) == []
    ensures ValidateOffering(TorneoOrganizadorCreate(1, today, MaxCostCents, 1), today) == []
    ensures ValidateOffering(TorneoOrganizadorCreate(1, today - 1, 1, 1), today) != []
    ensures ValidateOffering(TorneoOrganizadorCreate(1, today, 0, 1), today) != []
    ensures ValidateOffering(TorneoOrganizadorCreate(1, today, MaxCostCents + 1, 1), today) != []
  {
  }

  /** A one-letter name is reported only as too short: the letters-only
      validator does not run. A name with a space is reported as not letters;
      an accented name passes. */
  lemma NameExamples()
    ensures NameField("nombre", "J") == [Violation("nombre", TooShort(2))]
    ensures NameField("nombre", "Ana María") == [Violation("nombre", NotLetters)]
    ensures NameField("nombre", "José") == []
  {
    assert !IsAlphaChar("Ana María"[3]);
  }

  /** `TorneoOrganizadorDetalle`'s defaults for an omitted count and limit. */
  function DetailDefaults(count: Option<int>, limite: Option<int>): (r: (int, int))
    ensures count.None? ==> r.0 == 0
    ensures limite.None? ==> r.1 == 100
    ensures count.Some? ==> r.0 == count.value
    ensures limite.Some? ==> r.1 == limite.value
  {
    (count.GetOr(0), limite.GetOr(100))
  }
}

=== FILE: security.dfy ===
/** The bearer-token dependencies of the back end: resolving the caller from
    the `Authorization` header, and the two role gates built on it. Token
    decoding is an oracle. */
module Security {
  import opened Common
  import opened Store

  /** The fields of a decoded token payload that the routes read with `payload.get`. */
  datatype Claims = Claims(
    idUsuario: Option<int>,
    tipo: Option<string>,
    idJugador: Option<int>,
    idOrganizador: Option<int>)

  /** What `verify_token` does with a token: its payload, or one of its two 401s. */
  datatype Decoded = Valid(claims: Claims) | Expired | Invalid

  /** `{"usuario": usuario, "payload": payload}`. */
  datatype Caller = Caller(usuario: User, claims: Claims)

  const MsgNoToken := "Token no proporcionado"
  const MsgBadToken := "Token inválido o expirado"
  const MsgNoUser := "Usuario no encontrado"
  const MsgPlayersOnly := "Acceso solo para jugadores"
  const MsgOrganizersOnly := "Acceso solo para organizadores"

  /** `get_current_user_from_header`. The bearer scheme hands over no
      credentials when the header is missing or its token is empty. */
  function CurrentUser(db: Db, credentials: Option<string>, verify: string -> Decoded): (r: Response<Caller>)
    ensures r.Err? ==> r.status == 401
    ensures !Truthy(credentials) ==> r == Err(401, MsgNoToken)
    ensures Truthy(credentials) && !verify(credentials.value).Valid? ==> r == Err(401, MsgBadToken)
    ensures r.Ok? <==>
      && Truthy(credentials)
      && verify(credentials.value).Valid?
      && UserById(db, verify(credentials.value).claims.idUsuario).Some?
    ensures r.Ok? ==>
      && r.body.claims == verify(credentials.value).claims
      && r.body.usuario in db.usuarios
      && Some(r.body.usuario.id as int) == r.body.claims.idUsuario
  {
    if !Truthy(credentials) then Err(401, MsgNoToken)
    else match verify(credentials.value)
      case Expired => Err(401, MsgBadToken)
      case Invalid => Err(401, MsgBadToken)
      case Valid(claims) =>
        match UserById(db, claims.idUsuario)
        case None => Err(401, MsgNoUser)
        case Some(u) => Ok(Caller(u, claims))
  }

  /** The role gate: the caller must be authenticated, then carry `tipo` in its token. */
  function RequireRole(db: Db, credentials: Option<string>, verify: string -> Decoded, tipo: string, refusal: string): (r: Response<Caller>)
    ensures CurrentUser(db, credentials, verify).Err? ==> r == CurrentUser(db, credentials, verify)
    ensures r.Ok? <==> CurrentUser(db, credentials, verify).Ok? && CurrentUser(db, credentials, verify).body.claims.tipo == Some(tipo)
    ensures r.Ok? ==> r == CurrentUser(db, credentials, verify)
    ensures CurrentUser(db, credentials, verify).Ok? && !r.Ok? ==> r == Err(403, refusal)
  {
    var c := CurrentUser(db, credentials, verify);
    if c.Err? then c
    else if c.body.claims.tipo != Some(tipo) then Err(403, refusal)
    else c
  }

  /** `get_current_jugador`. */
  function RequirePlayer(db: Db, credentials: Option<string>, verify: string -> Decoded): Response<Caller>
  {
    RequireRole(db, credentials, verify, "jugador", MsgPlayersOnly)
  }

  /** `get_current_organizador`. */
  function RequireOrganizer(db: Db, credentials: Option<string>, verify: string -> Decoded): Response<Caller>
  {
    RequireRole(db, credentials, verify, "organizador", MsgOrganizersOnly)
  }

  /** No request passes both role gates, and an authenticated caller of
      the wrong role is refused with 403, never 401. */
  lemma RoleGatesExclusive(db: Db, credentials: Option<string>, verify: string -> Decoded)
    ensures !(RequirePlayer(db, credentials, verify).Ok? && RequireOrganizer(db, credentials, verify).Ok?)
    ensures CurrentUser(db, credentials, verify).Ok? ==>
      RequirePlayer(db, credentials, verify).Ok? || RequirePlayer(db, credentials, verify).status == 403
    ensures CurrentUser(db, credentials, verify).Ok? ==>
      RequireOrganizer(db, credentials, verify).Ok? || RequireOrganizer(db, credentials, verify).status == 403
  {
  }
}

=== FILE: session.dfy ===
/** The browser session: the two `localStorage` keys the front end keeps
    (the bearer token and the cached user as JSON), the accessors over them,
    and the two route guards that read them. JSON itself is not modelled:
    `parse` stands for `JSON.parse` of a stored text. */
module Session {
  import opened Common

  /** A JSON value as the pages read it from the cached user. */
  datatype Value = Str(s: string) | Num(n: int) | Null

  /** A JSON object: the cached user. */
  type Obj = map<string, Value>

  /** `localStorage`. */
  type Storage = map<string, string>

  const TokenKey := "access_token"
  const UserKey := "usuario"

  /** JavaScript truthiness of a property read: absent, `null`, `""` and `0` are falsy. */
  predicate TruthyAt(o: Obj, key: string)
  {
    key in o && match o[key]
      case Str(s) => s != ""
      case Num(n) => n != 0
      case Null => false
  }

  /** `authService.logout`. */
  function Logout(st: Storage): (r: Storage)
    ensures TokenKey !in r && UserKey !in r
    ensures forall k :: k in st && k != TokenKey && k != UserKey ==> k in r && r[k] == st[k]
    ensures r.Keys <= st.Keys
  {
    st - {TokenKey, UserKey}
  }

  /** `authService.getToken`: `null` when the key is absent. */
  function GetToken(st: Storage): (r: Option<string>)
    ensures r.Some? <==> TokenKey in st
    ensures r.Some? ==> r.value == st[TokenKey]
  {
    if TokenKey in st then Some(st[TokenKey]) else None
  }

  /** `authService.getUser`: the parsed cached user, `null` when the key is
      absent or empty. `parse` answers `None` for a stored JSON `null`. */
  function GetUser(st: Storage, parse: string -> Option<Obj>): (r: Option<Obj>)
    ensures UserKey !in st || st[UserKey] == "" ==> r.None?
    ensures UserKey in st && st[UserKey] != "" ==> r == parse(st[UserKey])
  {
    if UserKey in st && st[UserKey] != "" then parse(st[UserKey]) else None
  }

  /** `authService.isAuthenticated`: `!!getItem('access_token')`. */
  predicate IsAuthenticated(st: Storage)
  {
    Truthy(GetToken(st))
  }

  /** The two writes of a successful login. */
  function StoreLogin(st: Storage, token: string, userJson: string): (r: Storage)
    ensures GetToken(r) == Some(token)
    ensures UserKey in r && r[UserKey] == userJson
    ensures forall k :: k in st && k != TokenKey && k != UserKey ==> k in r && r[k] == st[k]
  {
    st[TokenKey := token][UserKey := userJson]
  }

  /** Logging out ends the session: nothing is authenticated or cached. */
  lemma LogoutEndsSession(st: Storage, parse: string -> Option<Obj>)
    ensures !IsAuthenticated(Logout(st))
    ensures GetUser(Logout(st), parse).None?
    ensures Logout(Logout(st)) == Logout(st)
    ensures st == map[] ==> Logout(st) == map[]
  {
  }

  /** A login with a non-empty token authenticates and caches its user;
      logging out afterwards restores every other key. */
  lemma LoginThenLogout(st: Storage, token: string, userJson: string, parse: string -> Option<Obj>)
    requires token != "" && userJson != ""
    ensures IsAuthenticated(StoreLogin(st, token, userJson))
    ensures GetUser(StoreLogin(st, token, userJson), parse) == parse(userJson)
    ensures Logout(StoreLogin(st, token, userJson)) == Logout(st)
  {
  }

  // ---------------------------------------------------------------- route guards

  datatype Decision = ToLogin | ToHome | Render

  /** A cached user whose `tipo_usuario` is `role`. */
  predicate HasRole(user: Obj, role: string)
  {
    "tipo_usuario" in user && user["tipo_usuario"] == Str(role)
  }

  /** The shared shape of both guards: no token sends to the login page; a
      cached user of another kind sends home; anything else renders. */
  function Guard(role: string, st: Storage, parse: string -> Option<Obj>): (d: Decision)
    ensures d == ToLogin <==> !IsAuthenticated(st)
    ensures d == Render <==>
      IsAuthenticated(st) && (GetUser(st, parse).None? || HasRole(GetUser(st, parse).value, role))
  {
    var user := GetUser(st, parse);
    if !IsAuthenticated(st) then ToLogin
    else if user.Some? && !HasRole(user.value, role) then ToHome
    else Render
  }

  /** `ProtectedRouteJugador`. */
  function GuardJugador(st: Storage, parse: string -> Option<Obj>): (d: Decision)
    ensures d == Render <==>
      IsAuthenticated(st) && (GetUser(st, parse).None? || HasRole(GetUser(st, parse).value, "jugador"))
    ensures d == ToLogin <==> !IsAuthenticated(st)
  {
    Guard("jugador", st, parse)
  }

  /** `ProtectedRouteOrganizador`. Its source file is a copy of the player
      guard with the other role, so its contract mirrors `GuardJugador`'s;
      the two are kept apart because each route mounts its own guard. */
  function GuardOrganizador(st: Storage, parse: string -> Option<Obj>): (d: Decision)
    ensures d == Render <==>
      IsAuthenticated(st) && (GetUser(st, parse).None? || HasRole(GetUser(st, parse).value, "organizador"))
    ensures d == ToLogin <==> !IsAuthenticated(st)
  {
    Guard("organizador", st, parse)
  }

  /** A cached user opens at most one of the two dashboards; with a token but
      no cached user, both open. */
  lemma GuardsExclusive(st: Storage, parse: string -> Option<Obj>)
    ensures GetUser(st, parse).Some? ==>
      !(GuardJugador(st, parse) == Render && GuardOrganizador(st, parse) == Render)
    ensures IsAuthenticated(st) && GetUser(st, parse).None? ==>
      GuardJugador(st, parse) == Render && GuardOrganizador(st, parse) == Render
  {
  }

  /** After logout both guards send to the login page, whatever was cached. */
  lemma LoggedOutGoesToLogin(st: Storage, parse: string -> Option<Obj>)
    ensures GuardJugador(Logout(st), parse) == ToLogin
    ensures GuardOrganizador(Logout(st), parse) == ToLogin
  {
  }
}

=== FILE: store.dfy ===
/** The back end's database as an abstract value: one table per entity, each
    a sequence of rows in scan order (ascending id, since ids only grow), and
    a counter that hands out fresh ids. A route handler is a function from a
    store to a response and a new store; a failed request leaves the store as
    it was, because nothing is committed before the error is raised. */
module Store {
  import opened Common
  import opened Listing

  /** `TipoUsuario`. */
  datatype UserType = PlayerType | OrganizerType

  /** `MedioPago`. */
  datatype PayMethod = Card | Cash | Transfer

  /** `EstadoPago`. */
  datatype PayStatus = Pending | Paid

  /** The enum values as the responses spell them. */
  function StatusText(e: PayStatus): string
  {
    match e
    case Pending => "Pendiente"
    case Paid => "Pagado"
  }

  function MethodText(m: PayMethod): string
  {
    match m
    case Card => "Tarjeta"
    case Cash => "Efectivo"
    case Transfer => "Transferencia"
  }

  datatype User = User(id: nat, email: string, hash: string, tipo: UserType, foto: Option<string>, activo: bool)
  datatype City = City(id: nat, nombre: string)
  datatype Address = Address(id: nat, texto: string, ciudad: nat)
  datatype Tournament = Tournament(id: nat, nombre: string)
  datatype Player = Player(id: nat, nombre: string, apellido: string, telefono: string, direccion: int, usuario: nat)
  datatype Organizer = Organizer(id: nat, nombre: string, direccion: int, usuario: nat)

  /** `TorneoOrganizador`: one organizer's edition of a base tournament. Cost in cents. */
  datatype Offering = Offering(id: nat, torneo: int, organizador: int, fecha: int, costo: int, ciudad: int)
  datatype Payment = Payment(id: nat, medio: PayMethod, estado: PayStatus, monto: int)

  /** `Inscripcion`: a player's enrolment, with its payment. */
  datatype Enrolment = Enrolment(id: nat, jugador: int, pago: Option<nat>)

  /** `InscripcionTorneoOrganizador`: the link from an enrolment to an offering. */
  datatype Link = Link(id: nat, inscripcion: int, oferta: int)

  datatype Db = Db(
    usuarios: seq<User>,
    ciudades: seq<City>,
    direcciones: seq<Address>,
    torneos: seq<Tournament>,
    jugadores: seq<Player>,
    organizadores: seq<Organizer>,
    ofertas: seq<Offering>,
    pagos: seq<Payment>,
    inscripciones: seq<Enrolment>,
    enlaces: seq<Link>,
    next: nat)

  /** What a route answers: its body, or an `HTTPException`'s status and detail. */
  datatype Response<T> = Ok(body: T) | Err(status: int, detail: string)

  /** The answer together with the store as committed. */
  datatype Step<T> = Step(response: Response<T>, db: Db)

  /** An error answer with nothing committed. */
  function Fail<T>(db: Db, status: int, detail: string): (s: Step<T>)
    ensures s.response.Err? && s.response.status == status && s.db == db
  {
    Step(Err(status, detail), db)
  }

  // ---------------------------------------------------------------- lookups

  /** `query.filter(p).first()`: the first row in scan order satisfying `p`. */
  function Find<T>(s: seq<T>, p: T -> bool): (r: Option<T>)
    ensures r.Some? ==> r.value in s && p(r.value)
    ensures r.None? <==> forall i :: 0 <= i < |s| ==> !p(s[i])
    ensures r.Some? && p(s[0]) ==> r.value == s[0]
  {
    if s == [] then None else if p(s[0]) then Some(s[0]) else Find(s[1..], p)
  }

  /** Two searches that agree on every row find the same row. */
  lemma {:induction false} FindAgree<T>(s: seq<T>, p: T -> bool, q: T -> bool)
    requires forall i :: 0 <= i < |s| ==> p(s[i]) == q(s[i])
    ensures Find(s, p) == Find(s, q)
    decreases |s|
  {
    if s != [] {
      FindAgree(s[1..], p, q);
    }
  }

  /** Appending a row does not change a lookup that already succeeds. */
  lemma {:induction false} FindAppend<T>(s: seq<T>, x: T, p: T -> bool)
    ensures Find(s, p).Some? ==> Find(s + [x], p) == Find(s, p)
    ensures Find(s, p).None? ==> Find(s + [x], p) == (if p(x) then Some(x) else None)
    decreases |s|
  {
    if s == [] {
      assert s + [x] == [x];
    } else {
      assert (s + [x])[0] == s[0];
      assert (s + [x])[1..] == s[1..] + [x];
      FindAppend(s[1..], x, p);
    }
  }

  /** Deleting rows that the lookup could never return does not change it. */
  lemma {:induction false} FindKeep<T>(s: seq<T>, q: T -> bool, p: T -> bool)
    requires forall i :: 0 <= i < |s| && p(s[i]) ==> q(s[i])
    ensures Find(Keep(s, q), p) == Find(s, p)
    decreases |s|
  {
    if s != [] {
      FindKeep(s[1..], q, p);
      if q(s[0]) {
        assert Keep(s, q) == [s[0]] + Keep(s[1..], q);
      } else {
        assert Keep(s, q) == Keep(s[1..], q);
      }
    }
  }

  /** Rewriting rows that keep the searched property in place and leaving the
      others as they are keeps the lookup successful. */
  lemma {:induction false} FindAfterMap<T>(s: seq<T>, t: seq<T>, p: T -> bool)
    requires |s| == |t|
    requires forall i :: 0 <= i < |s| ==> (p(s[i]) <==> p(t[i]))
    ensures Find(s, p).Some? <==> Find(t, p).Some?
  {
  }

  /** Rewriting the rows a lookup matches, in place and without changing
      whether they match, makes the lookup return the rewritten row. */
  lemma {:induction false} FindRewrite<T>(s: seq<T>, t: seq<T>, p: T -> bool, f: T -> T)
    requires |s| == |t|
    requires forall i :: 0 <= i < |s| ==> t[i] == (if p(s[i]) then f(s[i]) else s[i])
    requires forall i :: 0 <= i < |s| && p(s[i]) ==> p(f(s[i]))
    ensures Find(s, p).Some? ==> Find(t, p) == Some(f(Find(s, p).value))
    decreases |s|
  {
    if s != [] && !p(s[0]) {
      FindRewrite(s[1..], t[1..], p, f);
    }
  }

  /** Changing only rows the lookup cannot match, and never so that they
      start to match, leaves the lookup as it was. */
  lemma {:induction false} FindUntouched<T>(s: seq<T>, t: seq<T>, p: T -> bool)
    requires |s| == |t|
    requires forall i :: 0 <= i < |s| ==> (p(s[i]) <==> p(t[i]))
    requires forall i :: 0 <= i < |s| && p(s[i]) ==> t[i] == s[i]
    ensures Find(t, p) == Find(s, p)
    decreases |s|
  {
    if s != [] && !p(s[0]) {
      FindUntouched(s[1..], t[1..], p);
    }
  }

  function UserById(db: Db, id: Option<int>): Option<User>
  {
    if id.None? then None else Find(db.usuarios, (u: User) => u.id == id.value)
  }

  function CityById(db: Db, id: int): Option<City>
  {
    Find(db.ciudades, (c: City) => c.id == id)
  }

  function AddressById(db: Db, id: int): Option<Address>
  {
    Find(db.direcciones, (a: Address) => a.id == id)
  }

  function TournamentById(db: Db, id: int): Option<Tournament>
  {
    Find(db.torneos, (t: Tournament) => t.id == id)
  }

  function PlayerById(db: Db, id: int): Option<Player>
  {
    Find(db.jugadores, (p: Player) => p.id == id)
  }

  function OrganizerById(db: Db, id: Option<int>): Option<Organizer>
  {
    if id.None? then None else Find(db.organizadores, (o: Organizer) => o.id == id.value)
  }

  function OfferingById(db: Db, id: int): Option<Offering>
  {
    Find(db.ofertas, (o: Offering) => o.id == id)
  }

  function PaymentById(db: Db, id: int): Option<Payment>
  {
    Find(db.pagos, (p: Payment) => p.id == id)
  }

  function EnrolmentById(db: Db, id: int): Option<Enrolment>
  {
    Find(db.inscripciones, (e: Enrolment) => e.id == id)
  }

  /** The player behind an enrolment id. */
  function PlayerOf(db: Db, inscripcion: int): Option<int>
  {
    match EnrolmentById(db, inscripcion)
    case None => None
    case Some(e) => Some(e.jugador)
  }

  /** `inscripcion.pago`: the enrolment's payment, when it has one that exists. */
  function PaymentOf(db: Db, e: Enrolment): Option<Payment>
  {
    if e.pago.None? then None else PaymentById(db, e.pago.value)
  }

  /** The links of an offering. */
  function LinksOf(db: Db, oferta: int): (r: seq<Link>)
    ensures forall i :: 0 <= i < |r| ==> r[i].oferta == oferta && r[i] in db.enlaces
    ensures forall i :: 0 <= i < |db.enlaces| && db.enlaces[i].oferta == oferta ==> db.enlaces[i] in r
  {
    Keep(db.enlaces, (l: Link) => l.oferta == oferta)
  }

  /** `count` of the links of an offering, the number of enrolled players. */
  function LinkCount(db: Db, oferta: int): (n: nat)
    ensures n == 0 <==> forall i :: 0 <= i < |db.enlaces| ==> db.enlaces[i].oferta != oferta
  {
    var r := LinksOf(db, oferta);
    assert r != [] ==> r[0] in db.enlaces && r[0].oferta == oferta;
    |r|
  }

  /** The 409 query of enrolment: a link of `jugador` to `oferta`. */
  function LinkFor(db: Db, jugador: int, oferta: int): Option<Link>
  {
    Find(db.enlaces, (l: Link) => l.oferta == oferta && PlayerOf(db, l.inscripcion) == Some(jugador))
  }

  // ---------------------------------------------------------------- invariant

  /** Every row id of the table is below the id counter. */
  ghost predicate Below<T>(s: seq<T>, id: T -> nat, next: nat)
  {
    forall i :: 0 <= i < |s| ==> id(s[i]) < next
  }

  /** No two rows of the table share an id. */
  ghost predicate Distinct<T>(s: seq<T>, id: T -> nat)
  {
    forall i, j :: 0 <= i < j < |s| ==> id(s[i]) != id(s[j])
  }

  ghost predicate Keyed<T>(s: seq<T>, id: T -> nat, next: nat)
  {
    Below(s, id, next) && Distinct(s, id)
  }

  /** Every link points at an existing enrolment and an existing offering. */
  ghost predicate LinksResolve(db: Db)
  {
    forall i :: 0 <= i < |db.enlaces| ==>
      EnrolmentById(db, db.enlaces[i].inscripcion).Some? && OfferingById(db, db.enlaces[i].oferta).Some?
  }

  /** At most one link per (player, offering) pair: two links of the same
      player to the same offering are the same row. */
  ghost predicate OneLinkPerPair(db: Db)
  {
    forall l1, l2 ::
      (l1 in db.enlaces && l2 in db.enlaces && l1.oferta == l2.oferta
       && PlayerOf(db, l1.inscripcion) == PlayerOf(db, l2.inscripcion)) ==> l1 == l2
  }

  /** What the routes keep true of the store. */
  ghost predicate Inv(db: Db)
  {
    && Keyed(db.inscripciones, (e: Enrolment) => e.id, db.next)
    && Keyed(db.ofertas, (o: Offering) => o.id, db.next)
    && Keyed(db.enlaces, (l: Link) => l.id, db.next)
    && LinksResolve(db)
    && OneLinkPerPair(db)
  }

  /** An empty database satisfies the invariant. */
  lemma EmptyInv(next: nat)
    ensures Inv(Db([], [], [], [], [], [], [], [], [], [], next))
  {
  }

  /** A lookup by a fresh id finds nothing. */
  lemma FreshAbsent<T>(s: seq<T>, id: T -> nat, next: nat)
    requires Below(s, id, next)
    ensures Find(s, (x: T) => id(x) == next).None?
  {
  }

  /** Appending a row with the fresh id keeps a table keyed. */
  lemma AppendKeyed<T>(s: seq<T>, x: T, id: T -> nat, next: nat)
    requires Keyed(s, id, next) && id(x) == next
    ensures Keyed(s + [x], id, next + 1)
  {
    var t := s + [x];
    forall i, j | 0 <= i < j < |t|
      ensures id(t[i]) != id(t[j])
    {
      if j < |s| {
        assert t[i] == s[i] && t[j] == s[j];
      } else {
        assert t[i] == s[i];
      }
    }
  }

  /** Deleting rows keeps a table keyed. */
  lemma {:induction false} KeepKeyed<T>(s: seq<T>, q: T -> bool, id: T -> nat, next: nat)
    requires Keyed(s, id, next)
    ensures Keyed(Keep(s, q), id, next)
    decreases |s|
  {
    if s != [] {
      TailKeyed(s, id, next);
      KeepKeyed(s[1..], q, id, next);
      var rest := Keep(s[1..], q);
      if q(s[0]) {
        forall j | 0 <= j < |rest|
          ensures id(rest[j]) != id(s[0])
        {
          assert rest[j] in s[1..];
          var m :| 0 <= m < |s[1..]| && s[1..][m] == rest[j];
          assert s[m + 1] == rest[j];
        }
        ConsDistinct(s[0], rest, id);
        assert Keep(s, q) == [s[0]] + rest;
      } else {
        assert Keep(s, q) == rest;
      }
    }
  }

  /** The tail of a keyed table is keyed. */
  lemma TailKeyed<T>(s: seq<T>, id: T -> nat, next: nat)
    requires Keyed(s, id, next) && s != []
    ensures Keyed(s[1..], id, next)
  {
    forall i, j | 0 <= i < j < |s[1..]|
      ensures id(s[1..][i]) != id(s[1..][j])
    {
      assert s[1..][i] == s[i + 1] && s[1..][j] == s[j + 1];
    }
  }

  /** A row whose id no row of a distinct table carries keeps it distinct. */
  lemma ConsDistinct<T>(h: T, rest: seq<T>, id: T -> nat)
    requires Distinct(rest, id)
    requires forall j :: 0 <= j < |rest| ==> id(rest[j]) != id(h)
    ensures Distinct([h] + rest, id)
  {
    var r := [h] + rest;
    forall i, j | 0 <= i < j < |r|
      ensures id(r[i]) != id(r[j])
    {
      assert r[j] == rest[j - 1];
      if i > 0 {
        assert r[i] == rest[i - 1];
      }
    }
  }
}

=== FILE: tournament_form.dfy ===
/** The create and edit modals for an organizer's offering: field texts as
    the inputs hold them, the fail-fast validators, the country-to-city
    cascade, the request payload and what is handed back to the dashboard. */
module OfferingForm {
  import opened Common
  import opened Ui

  datatype City = City(id: int, nombre: string)

  /** The five controlled inputs plus the loaded city options. */
  datatype Form = Form(
    torneoBase: string,
    fecha: string,
    costo: string,
    pais: string,
    ciudad: string,
    ciudades: seq<City>,
    loading: bool,
    toast: Option<Toast>)

  const Blank := Form("", "", "", "", "", [], false, None)

  const MsgTipo := "Selecciona un tipo de torneo"
  const MsgFecha := "Selecciona una fecha"
  const MsgCosto := "El costo debe ser mayor a 0"
  const MsgPais := "Selecciona un país"
  const MsgCiudad := "Selecciona una ciudad"

  // ---------------------------------------------------------------- parseFloat

  /** The numeric prefix `parseFloat` reads: sign, integer digits, fraction digits. */
  datatype Decimal = Decimal(negative: bool, intPart: string, fracPart: string)

  /** The width of an optional leading sign. */
  function SignWidth(s: string): (k: nat)
    ensures k <= |s|
  {
    if s != [] && (s[0] == '-' || s[0] == '+') then 1 else 0
  }

  /** `run` is the longest run of digits of `s` starting at position `at`. */
  predicate DigitRunAt(s: string, at: nat, run: string)
  {
    at + |run| <= |s| && s[at..at + |run|] == run && (at + |run| < |s| ==> !IsDigit(s[at + |run|]))
  }

  /** `d` is the numeric prefix of `s`: the sign, then the longest run of
      digits, then, when `d` has fraction digits, a point and the longest run
      of digits after it. */
  predicate ReadsPrefix(s: string, d: Decimal)
  {
    var k := SignWidth(s);
    var n := k + |d.intPart|;
    && (d.negative <==> k == 1 && s[0] == '-')
    && DigitRunAt(s, k, d.intPart)
    && (d.fracPart != [] ==> n < |s| && s[n] == '.' && DigitRunAt(s, n + 1, d.fracPart))
  }

  /** The leading digits of a suffix are the digit run at its start. */
  lemma LeadingDigitsAt(s: string, at: nat)
    requires at <= |s|
    ensures DigitRunAt(s, at, LeadingDigits(s[at..]))
  {
    var run := LeadingDigits(s[at..]);
    assert s[at..][..|run|] == s[at..at + |run|];
  }

  /** `parseFloat` for texts without leading blanks or exponent; `None` is NaN. */
  function ParseFloat(s: string): (r: Option<Decimal>)
    ensures r.Some? ==> AllDigits(r.value.intPart) && AllDigits(r.value.fracPart)
    ensures r.Some? ==> r.value.intPart != [] || r.value.fracPart != []
    ensures r.Some? ==> ReadsPrefix(s, r.value)
    ensures r.None? ==> SignWidth(s) == |s| || !IsDigit(s[SignWidth(s)])
    ensures AllDigits(s) ==> (r.Some? <==> s != [])
  {
    var k := SignWidth(s);
    var ip := LeadingDigits(s[k..]);
    var fp := FractionDigits(s[k + |ip|..]);
    if ip == [] && fp == [] then None
    else
      ReadsItsPrefix(s, ip, fp);
      Some(Decimal(k == 1 && s[0] == '-', ip, fp))
  }

  /** The pieces `ParseFloat` reads form the text's numeric prefix. */
  lemma ReadsItsPrefix(s: string, ip: string, fp: string)
    requires ip == LeadingDigits(s[SignWidth(s)..])
    requires fp == FractionDigits(s[SignWidth(s) + |ip|..])
    ensures ReadsPrefix(s, Decimal(SignWidth(s) == 1 && s[0] == '-', ip, fp))
  {
    var k := SignWidth(s);
    LeadingDigitsAt(s, k);
    assert k + |ip| <= |s|;
    if fp != [] {
      FractionRunAt(s, k + |ip|, fp);
    }
  }

  /** Fraction digits read at `n` sit after a point there and are the digit run after it. */
  lemma FractionRunAt(s: string, n: nat, fp: string)
    requires n <= |s|
    requires fp == FractionDigits(s[n..]) && fp != []
    ensures n < |s| && s[n] == '.' && DigitRunAt(s, n + 1, fp)
  {
    assert s[n..][1..] == s[n + 1..];
    LeadingDigitsAt(s, n + 1);
  }

  /** The fraction digits read after the integer part: the digit run after a
      leading point, none without one. */
  function FractionDigits(after: string): (fp: string)
    ensures AllDigits(fp)
    ensures fp != [] ==> after != [] && after[0] == '.' && fp == LeadingDigits(after[1..])
    ensures after == [] || after[0] != '.' ==> fp == []
  {
    if after != [] && after[0] == '.' then LeadingDigits(after[1..]) else []
  }

  predicate HasNonZeroDigit(s: string)
  {
    exists i :: 0 <= i < |s| && s[i] != '0'
  }

  /** `parseFloat(costo) <= 0`; NaN compares false. */
  predicate NotPositive(costo: string)
  {
    match ParseFloat(costo)
    case None => false
    case Some(d) => d.negative || !(HasNonZeroDigit(d.intPart) || HasNonZeroDigit(d.fracPart))
  }

  /** `!costo || parseFloat(costo) <= 0`. */
  predicate CostRejected(costo: string)
  {
    costo == "" || NotPositive(costo)
  }

  /** The leading digit run of `a + t` is `a` when `t` does not start with a digit. */
  lemma {:induction false} LeadingDigitsStop(a: string, t: string)
    requires AllDigits(a) && (t == [] || !IsDigit(t[0]))
    ensures LeadingDigits(a + t) == a
    decreases |a|
  {
    if a != [] {
      assert (a + t)[1..] == a[1..] + t;
      LeadingDigitsStop(a[1..], t);
    } else {
      assert a + t == t;
    }
  }

  lemma NonZeroDigitConcat(a: string, b: string)
    ensures HasNonZeroDigit(a + b) <==> HasNonZeroDigit(a) || HasNonZeroDigit(b)
  {
    if HasNonZeroDigit(a + b) {
      var i :| 0 <= i < |a + b| && (a + b)[i] != '0';
      if i >= |a| { assert b[i - |a|] != '0'; }
    }
    if HasNonZeroDigit(a) {
      var i :| 0 <= i < |a| && a[i] != '0';
      assert (a + b)[i] != '0';
    }
    if HasNonZeroDigit(b) {
      var i :| 0 <= i < |b| && b[i] != '0';
      assert (a + b)[|a| + i] != '0';
    }
  }

  /** A sign-free `a.b` parses to its two digit runs. */
  lemma ParsePlainDecimal(a: string, b: string)
    requires AllDigits(a) && AllDigits(b) && (a != [] || b != [])
    ensures ParseFloat(a + "." + b) == Some(Decimal(false, a, b))
  {
    var t := "." + b;
    var s := a + t;
    assert s == a + "." + b;
    assert s[0] != '-' && s[0] != '+' by {
      if a == [] { assert s[0] == '.'; } else { assert s[0] == a[0]; }
    }
    assert SignWidth(s) == 0 && s[0..] == s;
    LeadingDigitsStop(a, t);
    assert s[|a|..] == t && t[1..] == b;
    assert FractionDigits(t) == b;
  }

  /** A sign-free run of digits parses to itself, without fraction. */
  lemma ParsePlainInteger(a: string)
    requires AllDigits(a) && a != []
    ensures ParseFloat(a) == Some(Decimal(false, a, []))
  {
    assert a[0] != '-' && a[0] != '+';
    assert SignWidth(a) == 0 && a[0..] == a;
    assert FractionDigits(a[|a|..]) == [];
  }

  /** The exponent is not read: a sign-free `a` followed by `e` and anything
      parses as `a` alone, so "1e3" is 1 here where JavaScript reads 1000. */
  lemma ExponentIgnored(a: string, rest: string)
    requires AllDigits(a) && a != []
    ensures ParseFloat(a + "e" + rest) == Some(Decimal(false, a, []))
  {
    var s := a + "e" + rest;
    assert s[0] == a[0] && SignWidth(s) == 0 && s[0..] == s;
    LeadingDigitsStop(a, "e" + rest);
    assert a + ("e" + rest) == s;
    assert s[|a|..] == "e" + rest;
    assert FractionDigits(s[|a|..]) == [];
  }

  /** On a plain decimal text the cost check refuses exactly the texts whose
      digits are all zero: `a.b` with digit runs `a` and `b`, not both empty. */
  lemma CostRejectedIffAllZero(a: string, b: string)
    requires AllDigits(a) && AllDigits(b) && (a != [] || b != [])
    ensures CostRejected(a + "." + b) <==> !HasNonZeroDigit(a + b)
    ensures a != [] ==> (CostRejected(a) <==> !HasNonZeroDigit(a))
  {
    ParsePlainDecimal(a, b);
    NonZeroDigitConcat(a, b);
    if a != [] {
      ParsePlainInteger(a);
      assert !HasNonZeroDigit([]);
    }
  }

  /** Any cost written with a minus sign before its digits is refused. */
  lemma NegativeRejected(a: string)
    requires AllDigits(a) && a != []
    ensures CostRejected("-" + a)
  {
    var s := "-" + a;
    assert SignWidth(s) == 1 && s[1..] == a;
    assert ParseFloat(s).Some? && ParseFloat(s).value.negative;
  }

  /** Zero and negative costs fail. */
  lemma CostZeroOrNegativeRejected()
    ensures CostRejected("0") && CostRejected("-5")
  {
    CostRejectedIffAllZero("0", "");
    NegativeRejected("5");
    assert "-" + "5" == "-5";
  }

  /** A single cent passes. */
  lemma CostCentAccepted()
    ensures !CostRejected("0.01")
  {
    CostRejectedIffAllZero("0", "01");
    assert "0" + "." + "01" == "0.01";
    assert ("0" + "01")[2] != '0';
  }

  // ---------------------------------------------------------------- validation

  datatype Mode = Create | Edit

  /** `validarFormulario`: the first failing check's message, or `None`.
      The edit modal has no country check. */
  function Validate(mode: Mode, f: Form): (r: Option<string>)
    ensures r.None? <==>
      f.torneoBase != "" && f.fecha != "" && !CostRejected(f.costo)
      && (mode == Create ==> f.pais != "") && f.ciudad != ""
    ensures f.torneoBase == "" ==> r == Some(MsgTipo)
    ensures f.torneoBase != "" && f.fecha == "" ==> r == Some(MsgFecha)
    ensures f.torneoBase != "" && f.fecha != "" && CostRejected(f.costo) ==> r == Some(MsgCosto)
    ensures r == Some(MsgPais) <==>
      mode == Create && f.torneoBase != "" && f.fecha != "" && !CostRejected(f.costo) && f.pais == ""
  {
    if f.torneoBase == "" then Some(MsgTipo)
    else if f.fecha == "" then Some(MsgFecha)
    else if CostRejected(f.costo) then Some(MsgCosto)
    else if mode == Create && f.pais == "" then Some(MsgPais)
    else if f.ciudad == "" then Some(MsgCiudad)
    else None
  }

  /** The two validators differ only in the country check: edit answers as
      create would with any country chosen. */
  lemma EditIsCreateWithoutCountry(f: Form, anyPais: string)
    requires anyPais != ""
    ensures Validate(Edit, f) == Validate(Create, f.(pais := anyPais))
    ensures f.pais != "" ==> Validate(Edit, f) == Validate(Create, f)
  {
  }

  // ---------------------------------------------------------------- cascade

  /** The create modal's effect on a country change: a non-empty country asks
      for its cities (the result is the returned flag); an empty one clears
      both the options and the chosen city. */
  function CountryEffectCreate(f: Form): (r: (Form, bool))
    ensures r.1 <==> f.pais != ""
    ensures f.pais != "" ==> r.0 == f
    ensures f.pais == "" ==> r.0.ciudades == [] && r.0.ciudad == ""
    ensures r.0.torneoBase == f.torneoBase && r.0.fecha == f.fecha && r.0.costo == f.costo
  {
    if f.pais != "" then (f, true) else (f.(ciudades := [], ciudad := ""), false)
  }

  /** The edit modal's effect: clearing the country empties the options but
      keeps the chosen city. */
  function CountryEffectEdit(f: Form): (r: (Form, bool))
    ensures r.1 <==> f.pais != ""
    ensures f.pais != "" ==> r.0 == f
    ensures f.pais == "" ==> r.0.ciudades == [] && r.0.ciudad == f.ciudad
  {
    if f.pais != "" then (f, true) else (f.(ciudades := []), false)
  }

  /** `cargarCiudades` settling: the options are replaced, or an error toast is raised. */
  function CitiesArrived(f: Form, reply: Reply<seq<City>>): (r: Form)
    ensures reply.Done? ==> r == f.(ciudades := reply.value)
    ensures reply.Failed? ==> r == f.(toast := Some(Toast("Error al cargar ciudades", Error)))
  {
    match reply
    case Done(cs) => f.(ciudades := cs)
    case Failed(_) => f.(toast := Some(Toast("Error al cargar ciudades", Error)))
  }

  /** With the country cleared, the create validator stops at the country
      check, while the edit validator still accepts the kept city. */
  lemma ClearedCountryDiverges(f: Form)
    requires f.pais == "" && f.torneoBase != "" && f.fecha != "" && !CostRejected(f.costo) && f.ciudad != ""
    ensures Validate(Create, CountryEffectCreate(f).0) == Some(MsgPais)
    ensures Validate(Edit, CountryEffectEdit(f).0) == None
  {
  }

  predicate HasCity(cs: seq<City>, id: int)
  {
    exists i :: 0 <= i < |cs| && cs[i].id == id
  }

  /** The pre-selection search of the edit modal: countries are tried in list
      order; a country whose city fetch fails (`None`) is skipped; the first
      whose cities include `cityId` is chosen with its cities. */
  function FindCountry(paises: seq<nat>, fetch: nat -> Option<seq<City>>, cityId: int): (r: Option<(nat, seq<City>)>)
    ensures r.Some? ==> r.value.0 in paises && fetch(r.value.0) == Some(r.value.1) && HasCity(r.value.1, cityId)
    ensures r.None? <==> forall i :: 0 <= i < |paises| ==> !Matches(fetch(paises[i]), cityId)
    decreases |paises|
  {
    if paises == [] then None
    else
      var p := paises[0];
      var cs := fetch(p);
      if Matches(cs, cityId) then Some((p, cs.value))
      else
        assert forall i :: 0 < i < |paises| ==> paises[i] == paises[1..][i - 1];
        FindCountry(paises[1..], fetch, cityId)
  }

  /** A fetch outcome that lists the city. */
  predicate Matches(cs: Option<seq<City>>, cityId: int)
  {
    cs.Some? && HasCity(cs.value, cityId)
  }

  /** The search stops at the first matching country: every country before
      the chosen one failed to fetch or does not list the city. */
  lemma {:induction false} FindCountryFirst(paises: seq<nat>, fetch: nat -> Option<seq<City>>, cityId: int)
    requires FindCountry(paises, fetch, cityId).Some?
    ensures exists k :: (0 <= k < |paises| && paises[k] == FindCountry(paises, fetch, cityId).value.0 &&
      forall i :: 0 <= i < k ==> !Matches(fetch(paises[i]), cityId))
    decreases |paises|
  {
    var r := FindCountry(paises, fetch, cityId);
    if Matches(fetch(paises[0]), cityId) {
      assert paises[0] == r.value.0;
    } else {
      FindCountryFirst(paises[1..], fetch, cityId);
      var k :| 0 <= k < |paises[1..]| && paises[1..][k] == r.value.0 &&
        forall i :: 0 <= i < k ==> !Matches(fetch(paises[1..][i]), cityId);
      assert paises[k + 1] == r.value.0;
      forall i | 0 <= i < k + 1
        ensures !Matches(fetch(paises[i]), cityId)
      {
        if i > 0 {
          assert paises[i] == paises[1..][i - 1];
        }
      }
    }
  }

  /** What an offering supplies to the edit form, as the texts its fields print to. */
  datatype EditSource = EditSource(id: int, fkTorneo: Option<nat>, fecha: Option<string>, costo: Option<string>, fkCiudad: Option<nat>)

  /** The pre-fill effect: type, date, cost and city are taken from the
      offering; the country and the options are left alone. */
  function Prefill(f: Form, t: EditSource): (r: Form)
    ensures t.fkCiudad.Some? ==> ParseInt(r.ciudad) == Some(t.fkCiudad.value)
    ensures t.fkTorneo.Some? ==> ParseInt(r.torneoBase) == Some(t.fkTorneo.value)
    ensures t.fkTorneo.None? ==> r.torneoBase == ""
    ensures t.fkCiudad.None? ==> r.ciudad == ""
    ensures r.fecha == t.fecha.GetOr("") && r.costo == t.costo.GetOr("")
    ensures r.pais == f.pais && r.ciudades == f.ciudades
  {
    f.(torneoBase := IdText(t.fkTorneo), fecha := t.fecha.GetOr(""), costo := t.costo.GetOr(""),
       ciudad := IdText(t.fkCiudad))
  }

  /** `id?.toString() || ''`. */
  function IdText(id: Option<nat>): (s: string)
    ensures id.Some? ==> ParseInt(s) == Some(id.value)
    ensures id.None? ==> s == ""
  {
    if id.None? then "" else NatTextRoundTrip(id.value); NatText(id.value)
  }

  /** The country search at load time, run only when the offering has a
      (truthy) city id; a found country is selected with its cities. */
  function PreselectCountry(f: Form, t: EditSource, paises: seq<nat>, fetch: nat -> Option<seq<City>>): (r: Form)
    ensures (t.fkCiudad.None? || t.fkCiudad == Some(0)) ==> r == f
    ensures t.fkCiudad.Some? && t.fkCiudad != Some(0) ==>
      match FindCountry(paises, fetch, t.fkCiudad.value)
      case None => r == f
      case Some(found) => ParseInt(r.pais) == Some(found.0) && r.ciudades == found.1
    ensures r.ciudad == f.ciudad && r.torneoBase == f.torneoBase
  {
    if t.fkCiudad.None? || t.fkCiudad == Some(0) then f
    else match FindCountry(paises, fetch, t.fkCiudad.value)
      case None => f
      case Some(found) =>
        NatTextRoundTrip(found.0);
        f.(pais := NatText(found.0), ciudades := found.1)
  }

  // ---------------------------------------------------------------- submission

  /** The request body for both create and edit. */
  datatype Payload = Payload(fkTorneo: Option<nat>, fecha: string, costo: Option<Decimal>, fkCiudad: Option<nat>)

  /** Submitting: an invalid form raises its message and sends nothing;
      a valid one starts loading and sends the payload. */
  function Submit(mode: Mode, f: Form): (r: (Form, Option<Payload>))
    ensures Validate(mode, f).Some? ==>
      r.1.None? && r.0 == f.(toast := Some(Toast(Validate(mode, f).value, Error)))
    ensures Validate(mode, f).None? ==> r.1.Some? && r.0.loading
    ensures r.1.Some? ==>
      && r.1.value.fecha == f.fecha && r.1.value.fkCiudad == ParseInt(f.ciudad)
      && r.1.value.fkTorneo == ParseInt(f.torneoBase) && r.1.value.costo == ParseFloat(f.costo)
  {
    match Validate(mode, f)
    case Some(msg) => (f.(toast := Some(Toast(msg, Error))), None)
    case None => (f.(loading := true), Some(Payload(ParseInt(f.torneoBase), f.fecha, ParseFloat(f.costo), ParseInt(f.ciudad))))
  }

  /** The dashboard hands the modal a listed offering, whose detail record has
      no type or city id: both fields pre-fill empty, so saving it untouched is
      refused with the type message and sends nothing. */
  lemma UntouchedEditRefused(f: Form, id: int, fecha: Option<string>, costo: Option<string>)
    ensures var t := EditSource(id, None, fecha, costo, None);
      && Prefill(f, t).torneoBase == "" && Prefill(f, t).ciudad == ""
      && Validate(Edit, Prefill(f, t)) == Some(MsgTipo)
      && Submit(Edit, Prefill(f, t)).1.None?
  {
  }

  /** For a record that carries both ids, editing it without touching the
      form sends back its own type and city ids. */
  lemma EditPrefillRoundTrip(f: Form, t: EditSource)
    requires t.fkTorneo.Some? && t.fkCiudad.Some?
    requires Validate(Edit, Prefill(f, t)).None?
    ensures var p := Submit(Edit, Prefill(f, t)).1;
      p.Some? && p.value.fkTorneo == t.fkTorneo && p.value.fkCiudad == t.fkCiudad
  {
  }

  /** `ciudades.find(c => c.id_ciudad === id)?.nombre_ciudad`: the first match's name. */
  function CityName(cs: seq<City>, id: Option<nat>): (r: Option<string>)
    ensures r.Some? <==> id.Some? && HasCity(cs, id.value)
    ensures r.Some? ==> exists i :: 0 <= i < |cs| && cs[i].id == id.value && cs[i].nombre == r.value
    decreases |cs|
  {
    if id.None? || cs == [] then None
    else if cs[0].id == id.value then Some(cs[0].nombre)
    else
      var rest := CityName(cs[1..], id);
      assert forall i :: 0 < i < |cs| ==> cs[i] == cs[1..][i - 1];
      assert HasCity(cs[1..], id.value) ==> HasCity(cs, id.value) by {
        if HasCity(cs[1..], id.value) {
          var j :| 0 <= j < |cs[1..]| && cs[1..][j].id == id.value;
          assert cs[j + 1].id == id.value;
        }
      }
      rest
  }

  /** A base tournament option. */
  datatype Base = Base(id: int, nombre: string)

  function BaseName(bs: seq<Base>, id: Option<nat>): (r: Option<string>)
    ensures r.Some? ==> id.Some? && exists i :: 0 <= i < |bs| && bs[i].id == id.value && bs[i].nombre == r.value
    ensures r.None? ==> id.None? || forall i :: 0 <= i < |bs| ==> bs[i].id != id.value
    decreases |bs|
  {
    if id.None? || bs == [] then None
    else if bs[0].id == id.value then Some(bs[0].nombre)
    else
      var rest := BaseName(bs[1..], id);
      assert forall i :: 0 < i < |bs| ==> bs[i] == bs[1..][i - 1];
      rest
  }

  /** The create request settling. On success the server's record is
      completed from the local options (name, city name, a count of 0 when
      missing) and handed up, and the five inputs are cleared; on failure the
      form is kept and an error toast is raised. */
  function FinishCreate(f: Form, bases: seq<Base>, reply: Reply<Offering>): (r: (Form, Option<Offering>))
    ensures !r.0.loading
    ensures reply.Done? ==>
      && r.1.Some? && r.1.value.id == reply.value.id && r.1.value.costo == reply.value.costo
      && r.1.value.fecha == reply.value.fecha
      && r.1.value.ciudadNombre == OrElse(reply.value.ciudadNombre, CityName(f.ciudades, ParseInt(f.ciudad)))
      && r.1.value.nombre == OrElse(reply.value.nombre, BaseName(bases, ParseInt(f.torneoBase)))
      && r.1.value.count == Some(CountOr0(reply.value))
      && r.0.torneoBase == "" && r.0.fecha == "" && r.0.costo == "" && r.0.pais == "" && r.0.ciudad == ""
    ensures reply.Failed? ==>
      && r.1.None?
      && r.0 == f.(loading := false, toast := Some(Toast("Error al crear torneo: " + MessageText(reply.failure), Error)))
  {
    match reply
    case Done(n) =>
      var enriched := n.(
        ciudadNombre := OrElse(n.ciudadNombre, CityName(f.ciudades, ParseInt(f.ciudad))),
        nombre := OrElse(n.nombre, BaseName(bases, ParseInt(f.torneoBase))),
        count := Some(CountOr0(n)));
      (f.(torneoBase := "", fecha := "", costo := "", pais := "", ciudad := "", loading := false,
          toast := Some(Toast("Torneo creado exitosamente", Success))), Some(enriched))
    case Failed(e) =>
      (f.(loading := false, toast := Some(Toast("Error al crear torneo: " + MessageText(e), Error))), None)
  }

  /** After a successful create, the country effect on the cleared form
      empties the options too: the modal is back to blank. */
  lemma CreateResetsToBlank(f: Form, bases: seq<Base>, n: Offering)
    ensures var g := CountryEffectCreate(FinishCreate(f, bases, Done(n)).0).0;
      g.(toast := None) == Blank
  {
  }

  /** The edit request settling: the server's record is handed up unchanged. */
  function FinishEdit(f: Form, reply: Reply<Offering>): (r: (Form, Option<Offering>))
    ensures reply.Done? ==> r.1 == Some(reply.value) && r.0 == f.(loading := false, toast := Some(Toast("Torneo actualizado exitosamente", Success)))
    ensures reply.Failed? ==> r.1.None? && r.0.toast == Some(Toast("Error al actualizar torneo: " + MessageText(reply.failure), Error))
    ensures r.0.torneoBase == f.torneoBase && r.0.ciudad == f.ciudad && !r.0.loading
  {
    match reply
    case Done(o) => (f.(loading := false, toast := Some(Toast("Torneo actualizado exitosamente", Success))), Some(o))
    case Failed(e) => (f.(loading := false, toast := Some(Toast("Error al actualizar torneo: " + MessageText(e), Error))), None)
  }
}

=== FILE: ui.dfy ===
/** Front-end vocabulary shared by the pages: the offering record the
    dashboards hold, toast notifications, and the shape of a request's
    outcome as the pages observe it (an axios response or a thrown error). */
module Ui {
  import opened Common
  import opened Listing

  datatype ToastKind = Success | Error | Warning

  datatype Toast = Toast(message: string, kind: ToastKind)

  /** What a page can read from a rejected request: `err.response?.status`,
      `err.response?.data?.detail`, `err.response?.data?.message` and `err.message`. */
  datatype HttpFailure = HttpFailure(
    status: Option<int>,
    detail: Option<string>,
    dataMessage: Option<string>,
    message: Option<string>)

  /** The settled outcome of one awaited request. */
  datatype Reply<T> = Done(value: T) | Failed(failure: HttpFailure)

  /** An organizer's offering as the dashboards hold it (money in cents,
      dates as day numbers). Optional fields are the ones the pages read
      with `||` fallbacks. */
  datatype Offering = Offering(
    id: int,
    nombre: Option<string>,
    fecha: int,
    costo: int,
    ciudadNombre: Option<string>,
    count: Option<int>)

  /** `t.inscripciones_count || 0`. */
  function CountOr0(o: Offering): int
  {
    if o.count.Some? && o.count.value != 0 then o.count.value else 0
  }

  /** One offering's share of the revenue card: cost in cents times its count. */
  function Contribution(t: Offering): int
  {
    t.costo * CountOr0(t)
  }

  /** The text of a thrown error as `err.message` renders it in a template literal. */
  function MessageText(f: HttpFailure): string
  {
    f.message.GetOr("undefined")
  }

  /** No two listed offerings share an `id_torneo_organizador`. */
  ghost predicate UniqueIds(s: seq<Offering>)
  {
    forall i, j :: 0 <= i < j < |s| ==> s[i].id != s[j].id
  }

  /** `list.filter(t => t.id_torneo_organizador !== id)`, the local removal after a delete or an enrolment. */
  function WithoutId(s: seq<Offering>, id: int): (r: seq<Offering>)
    ensures forall i :: 0 <= i < |r| ==> r[i].id != id
    ensures forall t :: t in s && t.id != id ==> t in r
    ensures forall t :: t in r ==> t in s
  {
    Keep(s, (t: Offering) => t.id != id)
  }

  // ---------------------------------------------------------------- removal by id

  /** Removing an id that no listed offering carries changes nothing. */
  lemma {:induction false} WithoutAbsentId(s: seq<Offering>, id: int)
    requires forall i :: 0 <= i < |s| ==> s[i].id != id
    ensures WithoutId(s, id) == s
  {
    KeepAll(s, (t: Offering) => t.id != id);
  }

  /** With ids unique, deleting the id of the `k`-th offering removes exactly
      that offering: any sum over the list loses exactly its term. */
  lemma {:induction false} WithoutPresentId(s: seq<Offering>, k: int, f: Offering -> int)
    requires UniqueIds(s) && 0 <= k < |s|
    ensures |WithoutId(s, s[k].id)| == |s| - 1
    ensures SumBy(WithoutId(s, s[k].id), f) == SumBy(s, f) - f(s[k])
    decreases |s|
  {
    var id := s[k].id;
    if k == 0 {
      assert forall i :: 0 <= i < |s[1..]| ==> s[1..][i] == s[i + 1];
      WithoutAbsentId(s[1..], id);
      assert WithoutId(s, id) == WithoutId(s[1..], id);
    } else {
      WithoutPresentId(s[1..], k - 1, f);
      assert s[1..][k - 1] == s[k];
    }
  }

  /** Deleting never disturbs uniqueness. */
  lemma KeepUnique(s: seq<Offering>, p: Offering -> bool)
    requires UniqueIds(s)
    ensures UniqueIds(Keep(s, p))
    decreases |s|
  {
    if s != [] {
      KeepUnique(s[1..], p);
      var rest := Keep(s[1..], p);
      if p(s[0]) {
        forall j | 0 <= j < |rest|
          ensures rest[j].id != s[0].id
        {
          assert rest[j] in s[1..];
          var m :| 0 <= m < |s[1..]| && s[1..][m] == rest[j];
          assert s[m + 1] == rest[j];
        }
        var r := [s[0]] + rest;
        forall i, j | 0 <= i < j < |r|
          ensures r[i].id != r[j].id
        {
          assert r[j] == rest[j - 1];
          if i > 0 {
            assert r[i] == rest[i - 1];
          }
        }
      }
    }
  }
}
